=== FILE: README.md ===
# Proton team-sports core, modelled in Dafny

Proton is a team-sports web application. Users belong to teams through
memberships that carry a role (ADMIN, SUBADMIN or USER). Team editors
schedule events. Members answer each event ATTENDING or NOT_ATTENDING.
Superadmins manage teams. Browsers register for push notifications.

This project models the application's domain layer and a set of pure
client-side helpers:

- **Store.** The database is one immutable value (`Store.Db`), with a
  sequence of rows for each of six tables: users, teams, memberships,
  events, registrations and push subscriptions. `Store.Valid` collects the
  unique constraints the code relies on.
- **Procedures.** Every tRPC procedure and service function is a pure
  function from a store and an input to `Result<…>`. `Result` carries the
  tRPC error code: NOT_FOUND, FORBIDDEN, CONFLICT, BAD_REQUEST, or
  INTERNAL_SERVER_ERROR for anything the database or a service throws.
- **Client components.** Each component's logic is a function from its
  inputs (query parameters, cookie header, user agent, form state) to
  what it renders or writes.

Modules follow the source tree:

| module | models |
|---|---|
| `Store`, `Access` | the tables and their constraints; `hasTeamAccessMiddleware`, `hasTeamAccess`, `getTeam` |
| `RegistrationSchema`, `Registrations`, `Attendance` | registration schemas, the registration service and controllers, reminders, non-responders, attendance statistics |
| `EventSchema`, `Events` | event schemas, event create/update/delete, unanswered events, the team's event listing |
| `Teams` | team create/update/delete, membership role update, the external membership sync |
| `Paging` | `getTeamMemberships`, `listUsers`, membership counts and roles |
| `QueryParams`, `Navigation`, `SearchInput`, `UriCodec` | `URLSearchParams` `get`/`set`/`delete`; the pager and the search box; `decodeURIComponent` and `encodeURIComponent` (section 19.2.6 of ECMA-262, UTF-8 as in RFC 3629) |
| `Sidebar`, `FormInput`, `UnansweredDropdown` | admin sidebar highlighting, the `maxLength` input, event-type labels and the badge |
| `EventDialog`, `EventCalendar` | the event dialog's time handling and save validation; the calendar's view state |
| `Cookies`, `Prompts` | `document.cookie` and `getCookie` (section 5.4 of RFC 6265); the install and notification prompts |
| `Base64`, `Push`, `PushClient` | `atob` and the URL-safe alphabet of RFC 4648 (sections 4 and 5); the push procedures and the push hook |
| `Strings`, `Sequences`, `Wrappers` | the JavaScript string functions used (`split`, `trim`, `includes`, `toLowerCase`, `String(n)`, `padStart`) and sequence helpers |

Every property below is proved for all inputs.

## Model

| member | source | states |
|---|---|---|
| Access.HasTeamAccessMiddleware | src/server/api/util/auth.ts:5-25 | A superadmin always passes. A non-admin with no membership gets FORBIDDEN. Under the unique membership constraint, the check passes iff the caller is a superadmin or holds a role in the list. The only failure is FORBIDDEN. |
| Access.PassOnlyWithRole | src/server/api/util/auth.ts:19-24 | A membership whose role is not in the list gives no passing role. |
| Access.HasTeamAccess | src/services/team.ts:12-28 | A superadmin gets ADMIN whatever their memberships. Otherwise the answer is the membership's role, or none exactly when there is no membership. It never fails. |
| Access.MiddlewareAgreesWithHasTeamAccess | src/server/api/util/auth.ts:5-25 | The middleware passes iff `hasTeamAccess` answers a role that is in the list. |
| Store.FindTeam | src/services/team.ts:30-38 | `getTeam` finds a row with that id, or nothing exactly when no team has it. |
| RegistrationSchema.ParseRegistrationType | src/schemas/registration.ts:3 | Exactly the two names ATTENDING and NOT_ATTENDING are accepted, and each maps back to its name. |
| RegistrationSchema.ValidateCreate | src/schemas/registration.ts:5-9 | Accepted iff the event id is non-empty and the type is one of the two names. The comment is optional whatever the type. Failures are BAD_REQUEST. |
| RegistrationSchema.ValidateUpdate | src/schemas/registration.ts:11-15 | Accepted iff the id is non-empty and the type is valid. |
| RegistrationSchema.ValidateId | src/schemas/registration.ts:17-23 | Accepted iff the id (event id for `getRegistrationByEventSchema`, registration id for `deleteRegistrationSchema`) is non-empty; the accepted value is that id. |
| RegistrationSchema.ValidateAdminUpdate | src/schemas/registration.ts:25-30 | Also requires a non-empty user id; no comment is required for any type. |
| RegistrationSchema.ValidateNotify | src/schemas/registration.ts:42-45 | Accepted iff the event id and the team id are non-empty. |
| RegistrationSchema.CreateRoundTrip | src/schemas/registration.ts:5-9 | A typed create input, written back as strings, validates to itself. |
| RegistrationSchema.AdminUpdateRoundTrip | src/schemas/registration.ts:25-30 | The same round trip for the admin update input. |
| Registrations.CreateRegistration | src/services/registration.ts:4-47 | After the upsert exactly one row exists for the (user, event) pair and it carries the new type. A supplied comment replaces the old one. No other registration changes. The row count grows by one only when the pair was new. Validity is kept. |
| Registrations.CreateRegistrationKeepsIdentity | src/services/registration.ts:21-31 | An existing row keeps its id and creation time. An omitted comment leaves the stored one. |
| Registrations.CreateThenGet | src/services/registration.ts:4-66 | Read-your-write: after the upsert, `getRegistrationByUserAndEvent` returns the written row. |
| Registrations.CreateRegistrationIdempotent | src/services/registration.ts:4-47 | Repeating the upsert with the same arguments, at any later time, leaves the same store. |
| Registrations.GetRegistrationByUserAndEvent | src/services/registration.ts:49-66 | Returns a row of the pair, or nothing exactly when there is none. Under the unique constraint it is the only such row. |
| Registrations.GetRegistrationsByEvent | src/services/registration.ts:68-91 | Exactly the event's registrations, as a permutation of them, in ascending creation time. |
| Registrations.DeleteRegistration | src/services/registration.ts:93-116 | Succeeds iff a row has both the id and the caller's user id; otherwise it throws. On success exactly that row is gone, every other row is kept, and validity is kept. |
| Registrations.OnlyOwnerDeletes | src/services/registration.ts:96-105 | Someone else's registration cannot be deleted. |
| Registrations.GetRegistrationCountsByEvent | src/services/registration.ts:118-144 | Each count is the number of rows in the whole registration table with that event and that type, as the `groupBy` counts them. The two sum to the event's registration count, and each is zero iff no registration has that type. |
| Registrations.CountIsTableCount | src/services/registration.ts:120-128 | Counting a type among the event's registrations is counting the rows of the whole table with that event and type. |
| Registrations.CountZeroIff | src/services/registration.ts:130-136 | A type's count is zero exactly when no registration for the event carries it. |
| Registrations.RegisterSelf | src/server/api/registration/controller/create.ts:11-16 | Self-service create always answers for the caller, and after the write `getRegistrationByUserAndEvent` finds the written row. There is no membership or deadline check. |
| Registrations.DeleteOwn | src/server/api/registration/controller/delete.ts:9-11 | The self-service delete succeeds iff the row is the caller's own. |
| Registrations.AdminUpdate | src/server/api/registration/controller/admin-update.ts:12-79 | An unknown event gives NOT_FOUND. The caller must be a superadmin or an ADMIN/SUBADMIN of the event's own team, else FORBIDDEN. A target who is not a member gives NOT_FOUND. On success exactly one row of the pair exists, carrying the given type. |
| Registrations.AdminUpdateIgnoresClock | src/server/api/registration/controller/admin-update.ts:12-79 | Whether the update is accepted does not depend on the time it is made. |
| Registrations.AdminUpdateIgnoresDeadlines | src/server/api/registration/controller/admin-update.ts:12-79 | Whatever the events' registration deadlines are, the outcome is the same. |
| Registrations.NonResponders | src/server/api/registration/controller/get-non-responded.ts:59-67 | Exactly the team's members with no registration for the event. The list is a subsequence of the team's members: a strictly increasing index map keeps their order. |
| Registrations.GetNonResponded | src/server/api/registration/controller/get-non-responded.ts:12-70 | An unknown event gives NOT_FOUND. A member of any role, or a superadmin, may call it. The result is the non-responders of the event's own team, in the order of its members. |
| Registrations.AllRolesIsMembership | src/server/api/registration/controller/get-non-responded.ts:27-31 | Holding one of the three roles is the same as being a member. |
| Registrations.NonRespondersPartition | src/server/api/registration/controller/get-non-responded.ts:59-67 | Non-responders plus responders are exactly the team's members: as multisets, and so in number. |
| Registrations.OutsiderRegistrationIrrelevant | src/server/api/registration/controller/get-non-responded.ts:59-67 | A registration by a non-member does not change the list. |
| Registrations.ResponseAccounting | src/server/api/registration/controller/get-non-responded.ts:59-67 | Consider a valid store whose registrations for the event all come from members. There, attending + not attending + non-responders = the number of members. |
| Registrations.NotifyRecipients | src/server/api/event/registration/controller/notify.ts:13-56 | Only a superadmin or a team ADMIN passes. An unknown event then gives NOT_FOUND. The recipients are the emails of the team's members with no registration for the event, one per member and in member order: entry k is the email of the k-th non-responder. The event's own team is never compared with the input team. |
| Registrations.RecipientsAreReminded | src/server/api/event/registration/controller/notify.ts:49-56 | Every recipient is a reminded member's email, and every reminded member's email is a recipient. |
| Registrations.SubadminCannotNotify | src/server/api/event/registration/controller/notify.ts:14 | A SUBADMIN is refused with FORBIDDEN. |
| Registrations.OutsiderBreaksAccounting | src/server/api/registration/controller/create.ts:11-16 | A concrete store: after an outsider registers, the attendance counts plus the non-responders exceed the member count. |
| Registrations.RegisterAsMember | src/services/registration.ts:4-47 | The self-service create with a membership check. It succeeds iff the event exists and the caller is a member of its team. It then writes what the unchecked create writes. |
| Registrations.RegisterAsMemberKeepsAccounting | src/server/api/registration/controller/get-non-responded.ts:59-67 | The checked create keeps every registration of the event from a member. |
| Attendance.Rate | src/server/api/team/controller/get-attendance-stats.ts:93-94 | The rate is 0 with no events. Otherwise rate × total = attended × 100, so it lies between 0 and 100 when attended ≤ total. |
| Attendance.StatOf | src/server/api/team/controller/get-attendance-stats.ts:65-104 | One member's row: the attended count is that member's ATTENDING registrations over the team's events, and the total is the team's event count. The rate is `Rate(attended, total)`: attended ÷ total × 100, or 0 without events. In a valid store attended ≤ total and 0 ≤ rate ≤ 100. |
| Attendance.AttendedAtMostTotal | src/server/api/team/controller/get-attendance-stats.ts:82-94 | With at most one registration per (user, event), a member's attended count never exceeds the number of team events. |
| Attendance.GetAttendanceStats | src/server/api/team/controller/get-attendance-stats.ts:25-107 | A non-member non-superadmin gets FORBIDDEN, and nobody else does. The result has one row per member, every total is the team's event count, every rate is `Rate` of the row's own counts, and every rate lies in 0..100. |
| Attendance.Ranked | src/server/api/team/controller/get-attendance-stats.ts:107 | A permutation of the rows, sorted by attended count descending. |
| Attendance.RankedStable | src/server/api/team/controller/get-attendance-stats.ts:107 | Rows with equal attended counts keep the members' order. |
| Attendance.PermutedRows | src/server/api/team/controller/get-attendance-stats.ts:91-107 | Any reordering of the rows keeps each row's total, its rate as `Rate` of its counts, and the rate bounds. |
| EventSchema.BlankToNone | src/schemas/event.ts:12-19 | Absent or whitespace-only text becomes absent. Anything else is kept untrimmed. |
| EventSchema.BlankToNoneIdempotent | src/schemas/event.ts:12-19 | Applying the transform twice is applying it once. |
| EventSchema.ValidateCreateEvent | src/schemas/event.ts:3-23 | Accepted iff team id and name are non-empty, both dates and a type are present, and end ≥ start. Any type string is allowed. Failures are BAD_REQUEST. |
| EventSchema.ValidateUpdateEvent | src/schemas/event.ts:25-46 | The same, with a non-empty id, and the type must be one of TRAINING/MATCH/SOCIAL/OTHER. |
| EventSchema.ValidateDeleteEvent | src/schemas/event.ts:48-51 | Accepted iff id and team id are non-empty. |
| EventSchema.ZeroLengthEventAccepted | src/schemas/event.ts:21-23 | An event ending when it starts is accepted. |
| Events.CreateEvent | src/server/api/event/controller/create.ts:13-45 | Passes only for a superadmin or an ADMIN/SUBADMIN of the input team. An unknown type name fails in the store. On success exactly one event is appended, carrying the input's fields and no deadline, with end ≥ start. The k-th recipient is the email of the team's k-th member, so every member is mailed once per membership. Validity is kept. |
| Events.CreateThenFind | src/server/api/event/controller/create.ts:20-30 | After a create, looking the new event up by its id finds it. |
| Events.UpdateEvent | src/server/api/event/controller/update.ts:11-29 | Gated on the input team. On success it overwrites name, type, start, end, and any present location and note of event `id`. It keeps its team and deadline, gives end ≥ start, and changes no other event. |
| Events.UpdateCannotClearLocation | src/server/api/event/controller/update.ts:25 | A blank or absent location leaves the stored one. |
| Events.UpdateReachesOtherTeams | src/server/api/event/controller/update.ts:13-28 | An editor of one team can update another team's event. |
| Events.UpdateEventChecked | src/server/api/event/controller/update.ts:13-28 | The update that also requires the event to belong to the checked team. When it succeeds it agrees with the unchecked update. |
| Events.DeleteEvent | src/server/api/event/controller/delete.ts:11-18 | Succeeds iff the event exists, whoever calls. Exactly that event goes, together with its registrations through the database's cascade, and every other row is kept. |
| Events.DeleteNeverForbidden | src/server/api/event/controller/delete.ts:13 | A non-member can delete any existing event. |
| Events.DeleteEventChecked | src/server/api/event/controller/delete.ts:11-18 | The delete as evidently intended: NOT_FOUND for an unknown event, and success only for an editor of the event's own team. It then agrees with the unchecked delete. |
| Events.GetUnanswered | src/server/api/event/controller/get-unanswered.ts:19-51 | Each event of the caller's teams that has not started and that the caller has not answered appears as often as it is stored, and no other event appears. They are sorted by start, each with its team's name. |
| Events.PendingCount | src/server/api/event/controller/get-unanswered.ts:21-37 | The filter keeps every copy of an awaiting event and no copy of any other. |
| Events.CountedEvents | src/server/api/event/controller/get-unanswered.ts:21-37 | A list with those multiplicities holds every awaiting event and nothing else. |
| Events.AnsweringRemovesFromUnanswered | src/server/api/event/controller/get-unanswered.ts:29-37 | Answering an event either way removes it from the list. |
| Events.GetAllEventsByTeamId | src/services/event.ts:6-23 | One summary per event of the team, each the projection of such an event, with every team event represented, ascending by start. |
| Teams.ValidateTeam | src/schemas/team.ts:3-6 | Accepted iff the name is non-empty and a present slug is non-empty. |
| Teams.CreateTeam | src/server/api/team/controller/create.ts:11-37 | FORBIDDEN iff not a superadmin. CONFLICT iff a team has the name or the present slug. Otherwise exactly one team with that name and slug is appended. Validity is kept. |
| Teams.CreateTwiceConflicts | src/server/api/team/controller/create.ts:19-30 | Creating the same team twice conflicts the second time. |
| Teams.CreateKeepsNamesDistinct | src/server/api/team/controller/create.ts:19-37 | Creation keeps names and present slugs distinct. |
| Teams.UpdateTeam | src/server/api/team/controller/update.ts:11-60 | FORBIDDEN iff not a superadmin. NOT_FOUND iff the id is unknown. CONFLICT iff name or slug changes and another team has the new name or slug. On success only that team's name and slug change. |
| Teams.UnchangedSaveSucceeds | src/server/api/team/controller/update.ts:31 | Saving a team unchanged never conflicts. |
| Teams.UpdateKeepsNamesDistinct | src/server/api/team/controller/update.ts:31-60 | Renames keep names and present slugs distinct. |
| Teams.DeleteTeam | src/server/api/team/controller/delete.ts:11-47 | FORBIDDEN iff not a superadmin. NOT_FOUND iff the id is unknown. CONFLICT iff the team has members. Otherwise exactly that team is removed. |
| Teams.UpdateRole | src/server/api/team/membership/controller/update.ts:11-38 | Only a superadmin or ADMIN of the input team passes. An unknown membership id gives NOT_FOUND. A role string outside the enum fails in the store. Only the role of the membership's own (user, team) row changes. |
| Teams.UpdateRoleReachesOtherTeams | src/server/api/team/membership/controller/update.ts:13-38 | An ADMIN of one team can change a role in another team. |
| Teams.UpdateRoleChecked | src/server/api/team/membership/controller/update.ts:13-38 | The role update that also requires the membership to be in the checked team. When it succeeds it agrees with the unchecked one. |
| Teams.MapRole | src/server/api/me/team/membership/controller/sync.ts:14 | "MEMBER" maps to USER and every other type to ADMIN; never SUBADMIN. |
| Teams.SyncOne | src/server/api/me/team/membership/controller/sync.ts:36-74 | An unknown slug is skipped. Otherwise the caller ends up a member of that team with the mapped role. Memberships only grow, and validity is kept. |
| Teams.SyncAll | src/server/api/me/team/membership/controller/sync.ts:34-76 | After all entries, the caller is a member of every team whose slug was listed. For each team, the last entry naming it decides the caller's role there, so a slug listed once gives its mapped role. Memberships of unlisted teams are as they were, and validity is kept. |
| Teams.SyncOneKeepsOthers | src/server/api/me/team/membership/controller/sync.ts:36-74 | An entry leaves the caller's membership of every other team as it was. |
| Teams.Sync | src/server/api/me/team/membership/controller/sync.ts:12-76 | A missing external response gives BAD_REQUEST. Otherwise memberships only grow, and every listed known team has the caller as a member, with the role mapped from the last entry naming it. Memberships of unlisted teams are as they were. |
| Teams.SyncEmptyIsNoop | src/server/api/me/team/membership/controller/sync.ts:12-22 | An empty list changes nothing. |
| Teams.SyncNeverRemoves | src/server/api/me/team/membership/controller/sync.ts:34-76 | Memberships the list does not mention survive with their user and team. |
| Paging.QueryPage | src/services/membership.ts:11 | The page defaults to 1 when it is absent or zero, and any other page is kept; the result is never zero. |
| Paging.CeilDiv | src/services/membership.ts:54 | The least page count whose pages hold all rows. |
| Paging.Paginate | src/services/membership.ts:10-54 | A negative page fails in the store. Otherwise row i of the page is ordered row skip + i, where skip = (page − 1) × size. The page has at most `size` rows, and exactly `size` when that many remain. `nextPage` is page + 1 iff the page is full, and `totalPages` is the ceiling of count ÷ size. |
| Paging.PagesCover | src/services/membership.ts:10-54 | Every row appears on page `k / size + 1` at position `k % size`. |
| Paging.NextPageAgreesWithTotal | src/services/membership.ts:53-54 | A full page lies within the page count; a short page is the last one or beyond it. |
| Paging.FullLastPageOffersEmptyNext | src/services/membership.ts:53 | When the count is a multiple of the size, the last page offers a next page that is empty. |
| Paging.MatchingMembers | src/services/membership.ts:18-25 | Exactly the team's members whose user name contains the search, ignoring case. |
| Paging.GetTeamMemberships | src/services/membership.ts:9-56 | Row i of page p is matching member (p − 1) × 20 + i in newest-first order, rows created at the same time in table order. A page is full whenever 20 remain, `nextPage` is p + 1 iff it is full, and the count uses the same filter. |
| Paging.EveryMemberListed | src/services/membership.ts:9-56 | Every matching member appears on some page, when every query returns tied rows in the same order. |
| Paging.EmptySearchKeepsAll | src/services/membership.ts:18-25 | An absent or empty search keeps every member. |
| Paging.TeamMembershipsCountIsUsers | src/services/membership.ts:58-66 | Under the unique constraint the team's membership count is its number of distinct users. |
| Paging.DistinctMembersCount | src/services/membership.ts:68-77 | The number of distinct user ids among memberships: at most the membership count, zero iff there are none, and at most the user count in a valid store. |
| Paging.GetTeamMembershipRoles | src/services/membership.ts:79-91 | Empty iff there is no membership. Under the unique constraint it is the one membership's role. |
| Paging.MatchingUsers | src/services/user.ts:16-56 | Exactly the users the search keeps, as `UserMatches` defines it. |
| Paging.ListUsers | src/services/user.ts:9-78 | Row i of page p is matching user (p − 1) × 25 + i in newest-first order (ties in table order), with the same full-page, next-page and ceiling rules. |
| Paging.EveryUserListed | src/services/user.ts:9-78 | Every matching user appears on some page, when every query returns tied rows in the same order. |
| Paging.EmptyUserSearchKeepsAll | src/services/user.ts:16-18 | An absent or empty search lists everyone. |
| Paging.TwoWordsNeedBoth | src/services/user.ts:19-39 | For two words, a user matches iff each word occurs, ignoring case, in the email or the name. |
| QueryParams.SetKeepsAllOthers | src/components/navigation/navigation.tsx:29-30 | `set` changes no other parameter. |
| QueryParams.DeleteKeepsAllOthers | src/components/navigation/search-input.tsx:39-40 | `delete` changes no other parameter. |
| Navigation.DefaultNext | src/components/navigation/navigation.tsx:26-32 | Does nothing iff next is disabled: the next page is null or 0, or page = total. Otherwise `page` becomes the next page and every other parameter is kept. |
| Navigation.DefaultPrev | src/components/navigation/navigation.tsx:34-40 | Does nothing iff page ≤ 1. Otherwise `page` becomes page − 1 and every other parameter is kept. |
| Navigation.NextLeadsToRows | src/components/navigation/navigation.tsx:26-31 | Following an enabled next button from a listing page leads to a page with rows. |
| SearchInput.DefaultValue | src/components/navigation/search-input.tsx:23-26 | As written, `decodeURIComponent` of the already decoded parameter. Absent or empty gives "". A value without '%' comes back unchanged. A URIError (no value) happens only when the value holds a '%'. |
| SearchInput.PlainSearchRoundTrip | src/components/navigation/search-input.tsx:23-47 | As written, reloading after a settled value without '%' shows the same text again. |
| SearchInput.PercentSearchBreaksReload | src/components/navigation/search-input.tsx:23-26 | As written, the search "100%" makes the box throw on reload, and "a%20b" reloads as "a b". |
| SearchInput.DefaultValueFixed | src/components/navigation/search-input.tsx:23-26 | The box's initial text read without the second decode: the parameter's value, or "". |
| SearchInput.OnSearch | src/components/navigation/search-input.tsx:31-36 | Sets page 1 and the search, keeping every other parameter. |
| SearchInput.RemoveSearch | src/components/navigation/search-input.tsx:38-42 | Deletes only the search; page and the rest stay. |
| SearchInput.Settled | src/components/navigation/search-input.tsx:44-47 | A non-empty settled value searches; an empty one removes the search. |
| SearchInput.SettledRoundTrip | src/components/navigation/search-input.tsx:23-47 | Without the second decode, reloading after any settled value shows the same text again. |
| UriCodec.DecodeUri | src/components/navigation/search-input.tsx:25 | `decodeURIComponent`: text without '%' is unchanged, the result is never longer than the input, and a malformed escape or UTF-8 sequence throws. |
| UriCodec.EncodeUri | src/components/navigation/search-input.tsx:25 | `encodeURIComponent`: unreserved text is unchanged; every other character becomes the escapes of its UTF-8 bytes. |
| UriCodec.Utf8RoundTrip | src/components/navigation/search-input.tsx:25 | Reading back a character's UTF-8 bytes gives the character. |
| UriCodec.DecodeOneEncoded | src/components/navigation/search-input.tsx:25 | Decoding the first step of an encoded character gives the character and the number of input characters used. |
| UriCodec.DecodeEncode | src/components/navigation/search-input.tsx:25 | `decodeURIComponent(encodeURIComponent(s))` is `s` for every string. |
| Sidebar.ActiveItem | src/app/admin/_components/main-group.tsx:21-53 | The highlighted item is active for the path, or none iff no item is. |
| Sidebar.AtMostOneActive | src/app/admin/_components/main-group.tsx:47-53 | No path highlights two items. |
| Sidebar.UserPagesActivateUsers | src/app/admin/_components/main-group.tsx:21-53 | Every path under "/admin/brukere" highlights Brukere and not Oversikt. |
| Sidebar.PrefixNotSegment | src/app/admin/_components/main-group.tsx:52 | "/admin/lagx" highlights Lag: matching is by string prefix. |
| FormInput.SlicePrefix | src/components/form/input.tsx:66 | `slice(0, end)` is a prefix of the requested length, counting a negative end from the back. |
| FormInput.Truncate | src/components/form/input.tsx:56-68 | The kept value is a prefix of the typed one. It is unchanged unless the limit is truthy and the type is not numeric. With a positive limit it holds the first `maxLength` characters. |
| FormInput.ShortValueUnchanged | src/components/form/input.tsx:65-67 | A value within the limit is kept as it is. |
| FormInput.TruncateIdempotent | src/components/form/input.tsx:59-68 | Truncating twice is truncating once. |
| FormInput.ParseInt | src/components/form/input.tsx:75-78 | `Number.parseInt` gives an integer or NaN. Blank text is NaN, and a digit string reads as its value. |
| FormInput.ParseIntRoundTrip | src/components/form/input.tsx:75-78 | Parsing the decimal form of any integer, sign included, gives the integer. |
| FormInput.StoredValue | src/components/form/input.tsx:75-82 | A number field stores the parsed integer or NaN; every other field stores the kept text. |
| FormInput.CurrentLength | src/components/form/input.tsx:85-93 | The string's length, the length of the integer's decimal string, 3 for NaN ("NaN"), or 0. |
| FormInput.ClearedFieldLength | src/components/form/input.tsx:75-93 | A cleared number field holds NaN and reports length 3; a cleared text field reports 0. |
| FormInput.NumberFieldLength | src/components/form/input.tsx:75-93 | A number field holding an integer reports the length of its decimal form. |
| FormInput.CounterAfterTyping | src/components/form/input.tsx:56-145 | With the counter shown, the kept value's length is at most the limit, and it is highlighted iff the typed value reached the limit. |
| FormInput.RenderedType | src/components/form/input.tsx:119 | "decimal" renders as "number", no type as "text", and any other type as itself. |
| UnansweredDropdown.EventTypeLabel | src/components/navigation/unanswered-events-dropdown.tsx:20-33 | A stored type name gets its Norwegian label; any other string shows as itself. |
| UnansweredDropdown.LabelsDistinguishTypes | src/components/navigation/unanswered-events-dropdown.tsx:20-33 | Different types get different labels, and no label is a type name. |
| UnansweredDropdown.Count | src/components/navigation/unanswered-events-dropdown.tsx:45 | Zero until the list has loaded, then its length. |
| UnansweredDropdown.Badge | src/components/navigation/unanswered-events-dropdown.tsx:57-59 | Absent iff the count is 0, "9+" above nine, otherwise one digit. |
| UnansweredDropdown.BadgeReadsBack | src/components/navigation/unanswered-events-dropdown.tsx:59 | A one-digit badge reads back as the exact count. |
| UnansweredDropdown.EmptyStateIffNoBadge | src/components/navigation/unanswered-events-dropdown.tsx:57-72 | The empty-state message shows exactly when the badge is absent. |
| EventDialog.TimeValueRoundTrip | src/components/event-calendar/event-dialog.tsx:123-125 | A padded "HH:mm" reads back, through `split(":").map(Number)`, as its hour and minute. |
| EventDialog.FormatTimeForInput | src/components/event-calendar/event-dialog.tsx:112-116 | Five characters that read back as the hour and the minute floored to a quarter. |
| EventDialog.TimeOptions | src/components/event-calendar/event-dialog.tsx:119-133 | Four entries per hour from the start hour to the end hour inclusive; entry i is hour start + i / 4, minute (i % 4)·15. |
| EventDialog.OptionsAscending | src/components/event-calendar/event-dialog.tsx:119-133 | Each entry reads back as its hour and minute, 15 minutes after the previous one. |
| EventDialog.FormattedTimeListed | src/components/event-calendar/event-dialog.tsx:112-133 | A loaded event's time is in the menu iff its hour is within the menu's hours. |
| EventDialog.LoadEvent | src/components/event-calendar/event-dialog.tsx:78-97 | The form takes the event's name and start. A missing end takes the start. Missing note and location become "". |
| EventDialog.ResetForm | src/components/event-calendar/event-dialog.tsx:99-110 | Today, with the default hours on the full hour. |
| EventDialog.SelectStartDate | src/components/event-calendar/event-dialog.tsx:305-314 | A chosen date becomes the start. The end is dragged along only when it would fall before it. Nothing else changes. |
| EventDialog.SetHours | src/components/event-calendar/event-dialog.tsx:155-156 | NaN makes the date invalid. For an hour below 24 and a minute below 60 the date keeps its day and takes the new hour and minute. |
| EventDialog.SaveTitle | src/components/event-calendar/event-dialog.tsx:169 | A blank title becomes "(ingen tittel)"; any other is kept untrimmed. |
| EventDialog.HandleSave | src/components/event-calendar/event-dialog.tsx:135-179 | An hour outside the calendar's range is rejected with the hours message. NaN passes the check. An end before the start is rejected with the order message. Otherwise the save is accepted with the computed title and range, start ≤ end. |
| EventDialog.AllDaySave | src/components/event-calendar/event-dialog.tsx:157-166 | An all-day save runs from the first midnight to the last millisecond of the last day, and is rejected iff the end day is before the start day. |
| EventDialog.MenuTimesSave | src/components/event-calendar/event-dialog.tsx:135-166 | On one day, two menu times save iff the end entry is not before the start entry. |
| EventDialog.LoadedWithoutEndSaves | src/components/event-calendar/event-dialog.tsx:78-166 | An event loaded without an end, within the calendar's hours, saves unchanged. |
| EventDialog.HandleDelete | src/components/event-calendar/event-dialog.tsx:181-185 | The id is handed on iff there is an event with a non-empty id. |
| EventCalendar.Initial | src/components/event-calendar/event-calendar.tsx:65-70 | Today, in the initial view or the month view, with the dialog closed. |
| EventCalendar.KeyView | src/components/event-calendar/event-calendar.tsx:86-99 | m, w, d and a, in either case, select month, week, day and agenda; every other key selects nothing. |
| EventCalendar.HandleKeyDown | src/components/event-calendar/event-calendar.tsx:74-100 | Keys typed in a field, or while the dialog is open, are ignored. Other keys only change the view. |
| EventCalendar.ShortcutsIgnoreCase | src/components/event-calendar/event-calendar.tsx:86 | Both cases of a letter select the same view. |
| EventCalendar.KeysKeepDate | src/components/event-calendar/event-calendar.tsx:74-100 | No key moves the calendar in time. |
| EventCalendar.HandleNext | src/components/event-calendar/event-calendar.tsx:122-133 | One month forward in the month view. Otherwise 7, 1 or the agenda's day count forward. |
| EventCalendar.HandlePrevious | src/components/event-calendar/event-calendar.tsx:109-120 | The same steps backward. |
| EventCalendar.StepsUndo | src/components/event-calendar/event-calendar.tsx:109-133 | Outside the month view, next and previous undo each other in either order. |
| EventCalendar.WeekRange | src/components/event-calendar/event-calendar.tsx:183-184 | The week shown holds the date, starts at midnight on a Sunday and lasts seven days. |
| EventCalendar.AgendaRange | src/components/event-calendar/event-calendar.tsx:206-207 | The agenda covers the date and the following days. |
| EventCalendar.WeekShortcutMismatch | src/components/event-calendar/event-calendar.tsx:90 | The week entry's "U" selects nothing, while every other entry's letter selects its view. |
| EventCalendar.ShortcutsAgree | src/components/event-calendar/event-calendar.tsx:86-99 | With "W" shown for the week, every shown letter selects its own view. |
| EventCalendar.HandleEventSelect | src/components/event-calendar/event-calendar.tsx:139-142 | Selecting an event opens the dialog on it and keeps the date and view. |
| EventCalendar.HandleEventDelete | src/components/event-calendar/event-calendar.tsx:150-165 | The id is passed on and the dialog closes. A toast names the deleted event iff it is among the shown events. |
| Cookies.GetCookie | src/components/pwa-install-prompt.tsx:17-22 | A value iff "; name=" occurs exactly once in "; " + the header. The value never contains ';'. |
| Cookies.SplitCount | src/components/pwa-install-prompt.tsx:19-20 | `split` gives one piece more than there are separators, so "two parts" means one occurrence. |
| Cookies.ReadStore | src/components/pwa-install-prompt.tsx:17-22 | For a well-formed cookie store: a name held by exactly one cookie reads as its value, any other count reads as null. |
| Cookies.WriteShape | src/components/pwa-install-prompt.tsx:24-28 | After a write, exactly one cookie has the name and it has the written value. Every other cookie was there before. |
| Cookies.WriteThenRead | src/components/pwa-install-prompt.tsx:17-28 | Reading a cookie after writing it gives the written value. |
| Cookies.SuffixNameNotMatched | src/components/pwa-install-prompt.tsx:19 | A cookie whose name only ends in the looked-up name is not found. |
| Prompts.GetOs | src/components/pwa-install-prompt.tsx:32-46 | iOS iff the lower-cased agent contains iphone, ipad or ipod. Android iff it is not iOS and contains android. No window means other. |
| Prompts.IosBeforeAndroid | src/components/pwa-install-prompt.tsx:37-43 | An agent naming both an iPad and Android counts as iOS. |
| Prompts.InstallOpensOnlyRendered | src/components/pwa-install-prompt.tsx:95-139 | The drawer only opens where it is rendered. |
| Prompts.Dismiss | src/components/pwa-install-prompt.tsx:131-134 | Closes the drawer. The cookie then reads back "true", and no other cookie changes. |
| Prompts.HandleInstall | src/components/pwa-install-prompt.tsx:115-129 | Nothing happens without a deferred prompt. Otherwise the drawer closes. An accepted install writes the cookie, which then reads back "true"; a declined one leaves the cookies as they were. |
| Prompts.DismissedNeverReopens | src/components/pwa-install-prompt.tsx:104-134 | After a dismissal the install prompt never opens again. |
| Prompts.InstalledNeverReopens | src/components/pwa-install-prompt.tsx:104-129 | After an accepted install the prompt never opens again. |
| Prompts.MobileNeverOffered | src/components/notification-prompt.tsx:54-58 | As written, a phone never sees the notification prompt. |
| Prompts.RegisteredPhoneOffered | src/components/notification-prompt.tsx:54-72 | With the registration returned, a registered phone sees the prompt under the other conditions, an unregistered phone never does, and desktops are unaffected. |
| Prompts.CanShowMeaning | src/components/notification-prompt.tsx:55-58 | `canShow` means desktop, or registered. |
| Prompts.Decline | src/components/notification-prompt.tsx:82-85 | Closes the dialog. The cookie reads back "true" and no other cookie changes. |
| Prompts.Confirm | src/components/notification-prompt.tsx:74-80 | Has the same effect as declining, whatever `subscribe` returned. |
| Prompts.AnsweredNeverReopens | src/components/notification-prompt.tsx:60-85 | Either answer silences the prompt for good, with or without the registration fix. |
| Base64.CharRoundTrip | src/hooks/use-push-notifications.ts:10 | Each of the 64 values has a character that decodes back to it. |
| Base64.EncodeChars | src/hooks/use-push-notifications.ts:10 | The encoding's characters are in the alphabet. Their count modulo 4 is fixed by the byte count modulo 3, so it is never 1. Non-empty input gives non-empty output. |
| Base64.RemoveWhitespace | src/hooks/use-push-notifications.ts:10 | ASCII whitespace is removed, and text without any is unchanged. |
| Base64.Atob | src/hooks/use-push-notifications.ts:10 | `atob` decodes after removing whitespace and one or two final '='. It throws iff a character is outside the alphabet or the count is one more than a multiple of four. |
| Base64.DecodeEncodeChars | src/hooks/use-push-notifications.ts:10 | Decoding the encoding's characters gives the bytes back. |
| Base64.AtobEncode | src/hooks/use-push-notifications.ts:10 | `atob` inverts the padded encoding. |
| Base64.Padding | src/hooks/use-push-notifications.ts:8 | Fewer than four '=' that bring the length to a multiple of four. |
| Base64.FromUrlAlphabet | src/hooks/use-push-notifications.ts:9 | '-' becomes '+' and '_' becomes '/', and nothing else changes. |
| Base64.UrlRoundTrip | src/hooks/use-push-notifications.ts:7-16 | A key published in the unpadded URL-safe alphabet decodes to its bytes. |
| Base64.PaddedUrlRoundTrip | src/hooks/use-push-notifications.ts:7-16 | A key published with its padding decodes the same way. |
| Base64.OneOverRefused | src/hooks/use-push-notifications.ts:7-10 | A key one character over a multiple of four makes `atob` throw. |
| Push.ValidateSubscribe | src/schemas/push.ts:3-9 | Accepted iff the endpoint is a URL; the keys are kept. |
| Push.ValidateUnsubscribe | src/schemas/push.ts:11-13 | Accepted iff the endpoint is a URL. |
| Push.Subscribe | src/server/api/push/controller/subscribe.ts:9-28 | The endpoint ends up with exactly one row: bound to the caller with the new keys, even if another user owned it. Rows of other endpoints are unchanged. The row count grows only for a new endpoint. Validity is kept. |
| Push.SubscribeIdempotent | src/server/api/push/controller/subscribe.ts:12-27 | Subscribing twice is subscribing once. |
| Push.Unsubscribe | src/server/api/push/controller/unsubscribe.ts:9-18 | Removes exactly the caller's rows for the endpoint. Another user's row for it stays, and no match is not an error. |
| Push.UnsubscribeIdempotent | src/server/api/push/controller/unsubscribe.ts:12-17 | Unsubscribing twice is unsubscribing once. |
| Push.SubscriptionCount | src/server/api/push/controller/get-status.ts:9-15 | Exactly the number of row indices whose row belongs to the caller: at most the table size, and zero iff the caller has none. |
| Push.SubscribeFreshCount | src/server/api/push/controller/subscribe.ts:12-27 | Subscribing a new endpoint raises the caller's count by one and leaves every other user's count. |
| Push.SubscribeRebindCount | src/server/api/push/controller/subscribe.ts:12-27 | Subscribing a stored endpoint raises the caller's count by one and lowers the previous owner's by one, so an owner re-subscribing changes nothing. |
| Push.SubscribedCountsAtLeastOne | src/server/api/push/controller/subscribe.ts:16-26 | After subscribing, the caller has at least one subscription. |
| Push.UnsubscribeCount | src/server/api/push/controller/unsubscribe.ts:12-17 | In a valid store an unsubscribe lowers the caller's count by one exactly when the caller owned the endpoint. |
| Push.SubscribeThenUnsubscribe | src/server/api/push/controller/subscribe.ts:12-27 | Unsubscribing right after subscribing removes the endpoint and leaves every other endpoint's rows as they were. |
| PushClient.CheckSupport | src/hooks/use-push-notifications.ts:28-48 | Loading ends. A registration exists iff push is supported and a controller runs. Subscribed iff there is also an existing subscription. |
| PushClient.Subscribe | src/hooks/use-push-notifications.ts:50-83 | Returns true iff there is a registration and a key, permission is granted, the key decodes, the browser's subscription has endpoint and keys, and the server call succeeds. Permission is asked iff registration and key are present. At most one server call is made, carrying the browser's endpoint and keys. |
| PushClient.PublishedKeyDecodes | src/hooks/use-push-notifications.ts:50-83 | With a correctly published key and everything granted, subscribing succeeds. |
| PushClient.SubscribeCallRegisters | src/hooks/use-push-notifications.ts:69-75 | The server call it makes registers the endpoint for the caller. |
| PushClient.Unsubscribe | src/hooks/use-push-notifications.ts:85-103 | Returns true iff there is a registration, reading the subscription succeeds, and, when one exists, the server and browser calls both succeed. A server call is made iff a subscription exists. |
| PushClient.ServerForgetsBrowserKeeps | src/hooks/use-push-notifications.ts:90-101 | When the browser's own unsubscribe fails after the server call, the server has forgotten the endpoint while the hook still reports subscribed. |
| Strings.SplitJoin | src/components/pwa-install-prompt.tsx:19 | Joining a `split` with its separator gives the string back. |
| Strings.TrimEmptyIffBlank | src/schemas/event.ts:12-19 | `trim()` is empty exactly when every character is whitespace. |
| Strings.NatToStringRoundTrip | src/components/navigation/navigation.tsx:30 | `String(n)` reads back as n. |
| Strings.Pad2RoundTrip | src/components/event-calendar/event-dialog.tsx:113-115 | `padStart(2, "0")` reads back as the number. |

## Left out

- E-mail and push delivery are not modelled: the announcement and reminder mail, `sendPushNotification` and the test push. Only their recipient lists are computed.
- The external membership API call, authentication and sessions are left out. The sync takes the fetched list as an input.
- `getAllTeams` and `getUsersCount` are one-line reads of a whole table (its rows, its length), so they have no model.
- Joined columns are not modelled: the `user` and `team` objects that procedures `include` are reduced to the ids and names the logic reads.
- Foreign keys are not checked. A registration may name an unknown event or user, as the self-service create allows.
- Registrations.GetRegistrationsByEvent: rows with equal creation times may come back in any order, so only the order by time is stated.
- Attendance.Rate: the rate is an exact real, not an IEEE double.
- Paging.GetTeamMemberships and Paging.ListUsers: the source orders by `createdAt` alone, and the database may return rows with equal creation times in any order. The model takes tied rows in table order, and Paging.EveryMemberListed and Paging.EveryUserListed assume that order is the same on every page query; otherwise a tied row can repeat or be skipped across pages.
- The catch blocks of the read services are not modelled, because the model's store never throws on a read: the `[]` of `getAllEventsByTeamId` (src/services/event.ts:24-27) and `getRegistrationsByEvent` (src/services/registration.ts:87-90), the `{ attending: 0, notAttending: 0 }` of `getRegistrationCountsByEvent` (src/services/registration.ts:137-142), and the `null` of `getRegistrationByUserAndEvent` (src/services/registration.ts:62-65).
- Events.DeleteEvent: the handler deletes only the event row; that the event's registrations go with it is the database's cascade, which the model assumes because the schema is not part of this model.
- Teams.DeleteTeam: only the team row is removed; its events stay in the store, because the model does not know whether the schema cascades or refuses such a delete.
- Teams.Sync: entries are applied one after another. Concurrent `Promise.all` writes, and their race on a slug listed twice, are not modelled; the role is stated only for the last entry naming each team.
- Teams.CreateTeam: Prisma's treatment of `slug: undefined` inside an `OR` filter is modelled as "the slug clause matches nothing". Likewise an omitted `comment` in a registration update leaves the stored comment.
- Push.ValidateSubscribe: zod's URL check is a parameter `isUrl`.
- URL serialisation and `router.push` are not modelled; the handlers return the new parameter list.
- Timers, the 500 ms debounce, and the 1 s and 2 s prompt delays are not modelled. Cookie expiry dates and paths are not modelled either.
- `matchMedia`, standalone detection, `useIsMobile`, service-worker readiness and `Notification.requestPermission` are inputs.
- Dates are milliseconds of local time with no time zones or daylight saving. Date-library formatting (view titles, toast descriptions) is not modelled.
- EventCalendar.HandleNext: `addMonths`/`subMonths` is a parameter, because month stepping clamps at month ends. `AgendaDaysToShow`, `StartHour`, `EndHour` and the default hours are parameters, because their module is not part of this model.
- The calendar grid views, drag-and-drop rescheduling and the droppable-cell hour arithmetic are not part of this model.
- EventDialog.HandleSave: the `onSave` call is commented out in the source, so the model returns the title and range a save would use.
- Strings.JsNumber: `Number` is modelled for the empty string and digit strings. Signs, exponents, whitespace and hexadecimal become NaN.
- FormInput.ParseInt: the `0x` prefix that makes `parseInt` read hexadecimal, and the loss of precision above 2^53 together with the exponent form `toString` uses from 10^21, are not modelled.
- FormInput.CurrentLength: a fractional number cannot be a field value, because the only number the form stores is what `parseInt` returns.
- Strings are sequences of characters, not of UTF-16 code units. `toLowerCase` folds ASCII letters only.
- Base64.Atob: bytes are decoded as values 0..255, which is what `charCodeAt` of `atob`'s output gives.
- The registration-deadline column exists but no code reads or sets it. The model carries it and proves the admin update ignores it.
- Three facts about the code that a reader might expect otherwise:
  - A NOT_ATTENDING answer needs no comment.
  - No code reads or enforces the deadline column.
  - The attendance accounting holds only when every registration comes from a member.

## Findings

| source | as written | input that shows it | evidently intended | confidence | as-written member | corrected member |
|---|---|---|---|---|---|---|
| src/server/api/registration/controller/create.ts:11-16 | Self-service registration upserts for any event with no membership check. | User "u2", who is not in team "t", answers ATTENDING for event "e" of "t". | Only members of the event's team can answer, so answered + non-responders = members. | not executed | Registrations.OutsiderBreaksAccounting | Registrations.RegisterAsMemberKeepsAccounting |
| src/server/api/event/controller/delete.ts:13 | The result of `hasTeamAccess` is discarded. | A signed-in non-member deletes any existing event. | FORBIDDEN unless superadmin or ADMIN/SUBADMIN of the event's team. | not executed | Events.DeleteNeverForbidden | Events.DeleteEventChecked |
| src/server/api/event/controller/update.ts:13-28 | Access is checked on `input.teamId`, but event `input.id` is updated whatever its team. | An ADMIN of team A sends team A's id with the id of team B's event. | The event must belong to the checked team. | not executed | Events.UpdateReachesOtherTeams | Events.UpdateEventChecked |
| src/server/api/team/membership/controller/update.ts:13-38 | Access is checked on `input.teamId`, but the membership is looked up by id alone. | An ADMIN of team A changes the role of a membership in team B. | The membership must belong to the checked team. | not executed | Teams.UpdateRoleReachesOtherTeams | Teams.UpdateRoleChecked |
| src/components/event-calendar/event-calendar.tsx:308 | The week entry shows shortcut "U", but the handler listens for "w". | Pressing "u" does nothing. | The menu shows "W". | not executed | EventCalendar.WeekShortcutMismatch | EventCalendar.ShortcutsAgree |
| src/components/navigation/search-input.tsx:23-26 | `decodeURIComponent` is applied to a value that `searchParams.get` has already decoded. | The search "100%" throws a URIError on reload, and "a%20b" reloads as "a b". | The box shows the parameter's value as it is. | not executed | SearchInput.PercentSearchBreaksReload | SearchInput.SettledRoundTrip |
| src/hooks/use-push-notifications.ts:105-111 | The hook does not return `registration`, so the notification prompt's `isPWA` is always false. | An installed app on a phone, logged in and not subscribed, never sees the prompt. | The hook returns its registration, so registered phones are offered notifications. | not executed | Prompts.MobileNeverOffered | Prompts.RegisteredPhoneOffered |

=== FILE: access.dfy ===
/**
  Team access decisions (src/server/api/util/auth.ts, src/services/team.ts).

  `HasTeamAccessMiddleware` is the gate the controllers await: it fails
  with FORBIDDEN. `HasTeamAccess` only reports a role and never fails, so a
  caller that ignores its answer is not gated at all.
 */
module Access {
  import opened Wrappers
  import opened Store

  /** The caller holds a membership in `teamId` whose role is one of `roles`. */
  predicate HoldsRole(db: Db, user: User, teamId: Id, roles: seq<TeamRole>) {
    exists i :: 0 <= i < |db.members| && IsMembership(db.members[i], user.id, teamId) && db.members[i].role in roles
  }

  /**
    A superadmin always passes; anyone else passes only when their
    membership in the team carries one of the listed roles.
   */
  function HasTeamAccessMiddleware(db: Db, user: User, teamId: Id, roles: seq<TeamRole>): (r: Outcome)
    ensures user.isAdmin ==> r == Pass
    ensures !user.isAdmin && !HasMembership(db, user.id, teamId) ==> r == Fail(Forbidden)
    ensures r.Fail? ==> r.code == Forbidden
    ensures MembershipsUnique(db.members) ==> (r.Pass? <==> user.isAdmin || HoldsRole(db, user, teamId, roles))
  {
    if user.isAdmin then Pass
    else
      match FindMembership(db, user.id, teamId)
      case None => Fail(Forbidden)
      case Some(m) =>
        if m.role in roles then Pass
        else
          PassOnlyWithRole(db, user, teamId, roles, m);
          Fail(Forbidden)
  }

  lemma PassOnlyWithRole(db: Db, user: User, teamId: Id, roles: seq<TeamRole>, m: Membership)
    requires FindMembership(db, user.id, teamId) == Some(m) && m.role !in roles
    ensures MembershipsUnique(db.members) ==> !HoldsRole(db, user, teamId, roles)
  {
    if MembershipsUnique(db.members) && HoldsRole(db, user, teamId, roles) {
      var i :| 0 <= i < |db.members| && IsMembership(db.members[i], user.id, teamId) && db.members[i].role in roles;
      FindMembershipUnique(db, user.id, teamId, i);
    }
  }

  /**
    `hasTeamAccess`: "ADMIN" for a superadmin, otherwise the role of the
    caller's membership in the team, or nothing for a non-member.
   */
  function HasTeamAccess(db: Db, teamId: Id, user: User): (r: Option<TeamRole>)
    ensures user.isAdmin ==> r == Some(Admin)
    ensures !user.isAdmin ==> (r.Some? <==> HasMembership(db, user.id, teamId))
    ensures !user.isAdmin && r.Some? ==>
      exists i :: 0 <= i < |db.members| && IsMembership(db.members[i], user.id, teamId) && db.members[i].role == r.value
  {
    if user.isAdmin then Some(Admin)
    else
      match FindMembership(db, user.id, teamId)
      case None => None
      case Some(m) => Some(m.role)
  }

  /**
    The two checks agree: the middleware passes exactly when `hasTeamAccess`
    reports a role from the list, or the caller is a superadmin.
   */
  lemma MiddlewareAgreesWithHasTeamAccess(db: Db, user: User, teamId: Id, roles: seq<TeamRole>)
    ensures HasTeamAccessMiddleware(db, user, teamId, roles).Pass?
        <==> user.isAdmin || (HasTeamAccess(db, teamId, user).Some? && HasTeamAccess(db, teamId, user).value in roles)
  {
  }
}

=== FILE: attendance.dfy ===
/**
  Per-member attendance statistics of a team
  (src/server/api/team/controller/get-attendance-stats.ts).

  A member's attended count is the number of ATTENDING registrations they
  hold for the team's events; the rate divides it by the number of the
  team's events, as a percentage, and is zero for a team without events.
 */
module Attendance {
  import opened Wrappers
  import opened Sequences
  import opened Store

  datatype AttendanceStats = AttendanceStats(
    userId: Id,
    userName: string,
    attendedCount: nat,
    totalEvents: nat,
    attendanceRate: real)

  /** The ids of the team's events. */
  function TeamEventIds(db: Db, teamId: Id): seq<Id> {
    IdsOf(TeamEvents(db, teamId), (e: TeamEvent) => e.id)
  }

  /** The registrations counted for `userId`: attending, for one of the team's events. */
  function Attended(db: Db, teamId: Id, userId: Id): seq<Registration> {
    Filter(db.registrations,
      (g: Registration) => g.userId == userId && g.regType == Attending && g.eventId in TeamEventIds(db, teamId))
  }

  /** `totalEvents > 0 ? attendedCount / totalEvents * 100 : 0`, as an exact real. */
  function Rate(attended: nat, total: nat): (r: real)
    ensures total == 0 ==> r == 0.0
    ensures total > 0 && attended <= total ==> 0.0 <= r <= 100.0
    ensures total > 0 ==> r * (total as real) == (attended as real) * 100.0
  {
    if total > 0 then (attended as real) / (total as real) * 100.0 else 0.0
  }

  /** The statistics row of one member. */
  function StatOf(db: Db, teamId: Id, m: Membership): (r: AttendanceStats)
    ensures r.userId == m.userId && r.totalEvents == |TeamEvents(db, teamId)|
    ensures r.attendedCount == |Attended(db, teamId, m.userId)|
    ensures Valid(db) ==> r.attendedCount <= r.totalEvents && 0.0 <= r.attendanceRate <= 100.0
    ensures r.attendanceRate == Rate(r.attendedCount, r.totalEvents)
  {
    var attended := |Attended(db, teamId, m.userId)|;
    var total := |TeamEvents(db, teamId)|;
    AttendedAtMostTotal(db, teamId, m.userId);
    AttendanceStats(m.userId, NameOf(db, m.userId), attended, total, Rate(attended, total))
  }

  /**
    A member attends each event at most once, so the attended count never
    exceeds the number of the team's events.
   */
  lemma AttendedAtMostTotal(db: Db, teamId: Id, userId: Id)
    ensures Valid(db) ==> |Attended(db, teamId, userId)| <= |TeamEvents(db, teamId)|
  {
    if Valid(db) {
      var counted := Attended(db, teamId, userId);
      var evs := TeamEvents(db, teamId);
      var ids := TeamEventIds(db, teamId);
      var eventOf := (g: Registration) => g.eventId;
      var idOf := (e: TeamEvent) => e.id;
      assert |counted| == |KeySet(counted, eventOf)| by {
        FilterKeysUnique(db.registrations,
          (g: Registration) => g.userId == userId && g.regType == Attending && g.eventId in ids, RegistrationKey);
        DistinctKeysCard(counted, eventOf);
      }
      assert |evs| == |KeySet(evs, idOf)| by {
        FilterKeysUnique(db.events, (e: TeamEvent) => e.teamId == teamId, idOf);
        DistinctKeysCard(evs, idOf);
      }
      assert KeySet(counted, eventOf) <= KeySet(evs, idOf) by {
        forall k | 0 <= k < |counted|
          ensures eventOf(counted[k]) in KeySet(evs, idOf)
        {
          var j :| 0 <= j < |ids| && ids[j] == counted[k].eventId;
          assert idOf(evs[j]) == ids[j];
        }
      }
      SubsetCard(KeySet(counted, eventOf), KeySet(evs, idOf));
    }
  }

  /** One statistics row per team member, in the members' order. */
  function MemberStats(db: Db, teamId: Id): (r: seq<AttendanceStats>)
    ensures |r| == |TeamMembers(db, teamId)|
    ensures forall i :: 0 <= i < |r| ==> r[i] == StatOf(db, teamId, TeamMembers(db, teamId)[i])
  {
    var ms := TeamMembers(db, teamId);
    seq(|ms|, i requires 0 <= i < |ms| => StatOf(db, teamId, ms[i]))
  }

  /** The sort key: ascending by it is descending by attended count. */
  function ByAttendedDesc(s: AttendanceStats): int {
    0 - s.attendedCount as int
  }

  /**
    The attendance-stats procedure: open to a superadmin or any member of
    the team; the rows are the per-member statistics, most attended first,
    members with equal counts in store order.
   */
  function GetAttendanceStats(db: Db, caller: User, teamId: Id): (r: Result<seq<AttendanceStats>>)
    ensures r.Err? <==> !caller.isAdmin && !HasMembership(db, caller.id, teamId)
    ensures r.Err? ==> r.code == Forbidden
    ensures r.Ok? ==> r.value == Ranked(MemberStats(db, teamId)) && |r.value| == |TeamMembers(db, teamId)|
    ensures r.Ok? ==> forall i :: 0 <= i < |r.value| ==> r.value[i].totalEvents == |TeamEvents(db, teamId)|
    ensures r.Ok? && Valid(db) ==> forall i :: 0 <= i < |r.value| ==> 0.0 <= r.value[i].attendanceRate <= 100.0
    ensures r.Ok? ==> forall i :: 0 <= i < |r.value| ==>
      r.value[i].attendanceRate == Rate(r.value[i].attendedCount, r.value[i].totalEvents)
  {
    if FindMembership(db, caller.id, teamId).None? && !caller.isAdmin then Err(Forbidden)
    else
      var rows := MemberStats(db, teamId);
      var sorted := Ranked(rows);
      PermutedRows(db, teamId, sorted);
      Ok(sorted)
  }

  /** Any reordering of the rows keeps each row's total, its rate and, in a valid store, the rate's bounds. */
  lemma PermutedRows(db: Db, teamId: Id, rows: seq<AttendanceStats>)
    requires multiset(rows) == multiset(MemberStats(db, teamId))
    ensures forall i :: 0 <= i < |rows| ==> rows[i].totalEvents == |TeamEvents(db, teamId)|
    ensures Valid(db) ==> forall i :: 0 <= i < |rows| ==> 0.0 <= rows[i].attendanceRate <= 100.0
    ensures forall i :: 0 <= i < |rows| ==> rows[i].attendanceRate == Rate(rows[i].attendedCount, rows[i].totalEvents)
  {
    var ms := MemberStats(db, teamId);
    forall i | 0 <= i < |rows|
      ensures rows[i].totalEvents == |TeamEvents(db, teamId)|
      ensures rows[i].attendanceRate == Rate(rows[i].attendedCount, rows[i].totalEvents)
      ensures Valid(db) ==> 0.0 <= rows[i].attendanceRate <= 100.0
    {
      assert rows[i] in multiset(ms);
      var k :| 0 <= k < |ms| && ms[k] == rows[i];
    }
  }

  /** Most attended first: `stats.sort((a, b) => b.attendedCount - a.attendedCount)`. */
  function Ranked(rows: seq<AttendanceStats>): (r: seq<AttendanceStats>)
    ensures multiset(r) == multiset(rows) && |r| == |rows|
    ensures forall i, j :: 0 <= i < j < |r| ==> r[i].attendedCount >= r[j].attendedCount
  {
    SortBy(rows, ByAttendedDesc)
  }

  /** Rows with equal attended counts keep their order (the sort is stable). */
  lemma RankedStable(rows: seq<AttendanceStats>, count: nat)
    ensures Filter(Ranked(rows), (s: AttendanceStats) => s.attendedCount == count)
         == Filter(rows, (s: AttendanceStats) => s.attendedCount == count)
  {
    SortByStable(rows, ByAttendedDesc, 0 - count as int, (s: AttendanceStats) => s.attendedCount == count);
  }
}

=== FILE: base64.dfy ===
/**
  Base64 as the push hook uses it (`urlBase64ToUint8Array` in
  src/hooks/use-push-notifications.ts).

  `Encode` is the padded encoding of section 4 of RFC 4648; the URL-safe
  alphabet of section 5 swaps '+' and '/' for '-' and '_', and section 3.2
  lets the padding be left off when the length is known, as it is for an
  application server key. `Atob` is the browser's `atob`, which follows
  the WHATWG "forgiving-base64 decode": ASCII whitespace is dropped, one or
  two final '=' are dropped from a length that is a multiple of four, a
  length of one more than a multiple of four or any other character
  outside the alphabet fails, and leftover bits are discarded.
 */
module Base64 {
  import opened Wrappers
  import Strings

  type Byte = b: int | 0 <= b < 256

  // ---------------------------------------------------------------------
  // The alphabet (section 4 of RFC 4648)

  function CharOf(v: nat): (c: char)
    requires v < 64
  {
    if v < 26 then ('A' as int + v) as char
    else if v < 52 then ('a' as int + v - 26) as char
    else if v < 62 then ('0' as int + v - 52) as char
    else if v == 62 then '+'
    else '/'
  }

  function ValueOf(c: char): (r: Option<nat>)
    ensures r.Some? ==> r.value < 64 && CharOf(r.value) == c
  {
    if 'A' <= c <= 'Z' then Some(c as int - 'A' as int)
    else if 'a' <= c <= 'z' then Some(c as int - 'a' as int + 26)
    else if '0' <= c <= '9' then Some(c as int - '0' as int + 52)
    else if c == '+' then Some(62)
    else if c == '/' then Some(63)
    else None
  }

  lemma CharRoundTrip(v: nat)
    requires v < 64
    ensures ValueOf(CharOf(v)) == Some(v)
  {
  }

  predicate InAlphabet(s: string) {
    forall i :: 0 <= i < |s| ==> ValueOf(s[i]).Some?
  }

  function Val(c: char): nat
    requires ValueOf(c).Some?
  {
    ValueOf(c).value
  }

  // ---------------------------------------------------------------------
  // Encoding

  /** The four characters of three bytes; the decoding arithmetic recovers the bytes. */
  function Quad(x: Byte, y: Byte, z: Byte): (r: string)
    ensures |r| == 4 && InAlphabet(r)
    ensures Val(r[0]) * 4 + Val(r[1]) / 16 == x
    ensures (Val(r[1]) % 16) * 16 + Val(r[2]) / 4 == y
    ensures (Val(r[2]) % 4) * 64 + Val(r[3]) == z
  {
    GroupRoundTrip(x, y, z);
    var a, b, c, d := x / 4, (x % 4) * 16 + y / 16, (y % 16) * 4 + z / 64, z % 64;
    CharRoundTrip(a);
    CharRoundTrip(b);
    CharRoundTrip(c);
    CharRoundTrip(d);
    [CharOf(a), CharOf(b), CharOf(c), CharOf(d)]
  }

  /** The three characters of a final pair of bytes. */
  function Triple(x: Byte, y: Byte): (r: string)
    ensures |r| == 3 && InAlphabet(r)
    ensures Val(r[0]) * 4 + Val(r[1]) / 16 == x
    ensures (Val(r[1]) % 16) * 16 + Val(r[2]) / 4 == y
  {
    GroupRoundTrip(x, y, 0);
    var a, b, c := x / 4, (x % 4) * 16 + y / 16, (y % 16) * 4;
    CharRoundTrip(a);
    CharRoundTrip(b);
    CharRoundTrip(c);
    [CharOf(a), CharOf(b), CharOf(c)]
  }

  /** The two characters of a final single byte. */
  function Double(x: Byte): (r: string)
    ensures |r| == 2 && InAlphabet(r)
    ensures Val(r[0]) * 4 + Val(r[1]) / 16 == x
  {
    GroupRoundTrip(x, 0, 0);
    var a, b := x / 4, (x % 4) * 16;
    CharRoundTrip(a);
    CharRoundTrip(b);
    [CharOf(a), CharOf(b)]
  }

  /** How many characters the last, partial group of `n` bytes takes. */
  function TailLength(n: nat): (r: nat)
    ensures r < 4 && r != 1
  {
    if n % 3 == 0 then 0 else if n % 3 == 1 then 2 else 3
  }

  /** The characters of the encoding, without padding. */
  function EncodeChars(b: seq<Byte>): (r: string)
    ensures InAlphabet(r)
    ensures |r| % 4 == TailLength(|b|)
    ensures |b| > 0 ==> |r| > 0
    decreases |b|
  {
    if |b| == 0 then ""
    else if |b| == 1 then Double(b[0])
    else if |b| == 2 then Triple(b[0], b[1])
    else
      var rest := EncodeChars(b[3..]);
      var q := Lead(b);
      AlphabetConcat(q, rest);
      TailStep(|b|, |rest|);
      q + rest
  }

  /** The characters of the first full group, seen only as four alphabet characters. */
  function Lead(b: seq<Byte>): (r: string)
    requires |b| >= 3
    ensures |r| == 4 && InAlphabet(r)
  {
    Quad(b[0], b[1], b[2])
  }

  /** One more full group adds four characters and leaves the tail length alone. */
  lemma TailStep(n: nat, restLen: nat)
    requires n >= 3 && restLen % 4 == TailLength(n - 3)
    ensures (4 + restLen) % 4 == TailLength(n)
  {
    assert (n - 3) % 3 == n % 3;
  }

  lemma AlphabetConcat(a: string, b: string)
    requires InAlphabet(a) && InAlphabet(b)
    ensures InAlphabet(a + b)
  {
    forall i | 0 <= i < |a + b| ensures ValueOf((a + b)[i]).Some? {
      if i >= |a| { assert (a + b)[i] == b[i - |a|]; }
    }
  }

  /** The number of '=' the padded encoding ends with. */
  function PadCount(n: nat): (r: nat)
    ensures r <= 2
  {
    if n % 3 == 0 then 0 else if n % 3 == 1 then 2 else 1
  }

  /** Section 4 of RFC 4648: the characters, padded with '=' to a multiple of four. */
  function Encode(b: seq<Byte>): (r: string)
    ensures |r| % 4 == 0
  {
    var chars := EncodeChars(b);
    PadFills(|b|, |chars|);
    chars + Strings.Repeat('=', PadCount(|b|))
  }

  /** The padding completes the last group of four. */
  lemma PadFills(n: nat, len: nat)
    requires len % 4 == TailLength(n)
    ensures (len + PadCount(n)) % 4 == 0
  {
  }

  // ---------------------------------------------------------------------
  // Decoding

  /** Decodes characters of the alphabet whose count is not one more than a multiple of four. */
  function DecodeChars(s: string): (r: seq<Byte>)
    requires InAlphabet(s) && |s| % 4 != 1
    decreases |s|
  {
    if |s| < 2 then []
    else if |s| == 2 then
      [Val(s[0]) * 4 + Val(s[1]) / 16]
    else if |s| == 3 then
      [Val(s[0]) * 4 + Val(s[1]) / 16, (Val(s[1]) % 16) * 16 + Val(s[2]) / 4]
    else
      [Val(s[0]) * 4 + Val(s[1]) / 16, (Val(s[1]) % 16) * 16 + Val(s[2]) / 4, (Val(s[2]) % 4) * 64 + Val(s[3])]
      + DecodeChars(s[4..])
  }

  predicate IsAsciiWhitespace(c: char) {
    c == '\t' || c == '\n' || c == '\U{000C}' || c == '\r' || c == ' '
  }

  function RemoveWhitespace(s: string): (r: string)
    ensures |r| <= |s|
    ensures forall i :: 0 <= i < |r| ==> !IsAsciiWhitespace(r[i])
    ensures (forall i :: 0 <= i < |s| ==> !IsAsciiWhitespace(s[i])) ==> r == s
    decreases |s|
  {
    if |s| == 0 then ""
    else (if IsAsciiWhitespace(s[0]) then "" else [s[0]]) + RemoveWhitespace(s[1..])
  }

  /** One or two final '=' come off a length that is a multiple of four. */
  function StripPadding(s: string): (r: string)
    ensures r <= s && |s| - 2 <= |r|
  {
    if |s| % 4 != 0 then s
    else if |s| >= 2 && s[|s| - 2..] == "==" then s[..|s| - 2]
    else if |s| >= 1 && s[|s| - 1] == '=' then s[..|s| - 1]
    else s
  }

  /** `atob`: the decoded bytes, or `None` where it throws. */
  function Atob(s: string): (r: Option<seq<Byte>>)
    ensures r.Some? ==> var t := StripPadding(RemoveWhitespace(s));
      InAlphabet(t) && |t| % 4 != 1 && r.value == DecodeChars(t)
    ensures r.None? ==> var t := StripPadding(RemoveWhitespace(s));
      !InAlphabet(t) || |t| % 4 == 1
  {
    var t := StripPadding(RemoveWhitespace(s));
    if |t| % 4 == 1 || !InAlphabet(t) then None else Some(DecodeChars(t))
  }

  /** Decoding a group of three bytes' characters gives the bytes back. */
  lemma GroupRoundTrip(x: Byte, y: Byte, z: Byte)
    ensures var a, b, c, d := x / 4, (x % 4) * 16 + y / 16, (y % 16) * 4 + z / 64, z % 64;
      && a < 64 && b < 64 && c < 64 && d < 64
      && a * 4 + b / 16 == x
      && (b % 16) * 16 + c / 4 == y
      && (c % 4) * 64 + d == z
  {
    var b := (x % 4) * 16 + y / 16;
    assert b / 16 == x % 4 && b % 16 == y / 16;
    var c := (y % 16) * 4 + z / 64;
    assert c / 4 == y % 16 && c % 4 == z / 64;
  }

  lemma {:induction false} DecodeEncodeChars(b: seq<Byte>)
    ensures |EncodeChars(b)| % 4 != 1
    ensures DecodeChars(EncodeChars(b)) == b
    decreases |b|
  {
    if |b| >= 3 {
      var rest := EncodeChars(b[3..]);
      DecodeEncodeChars(b[3..]);
      assert EncodeChars(b) == Quad(b[0], b[1], b[2]) + rest;
      DecodeQuad(b[0], b[1], b[2], rest);
      assert b == [b[0], b[1], b[2]] + b[3..];
    }
  }

  /** Decoding a full group followed by more characters decodes the group first. */
  lemma DecodeQuad(x: Byte, y: Byte, z: Byte, rest: string)
    requires InAlphabet(rest) && |rest| % 4 != 1
    ensures InAlphabet(Quad(x, y, z) + rest) && |Quad(x, y, z) + rest| % 4 != 1
    ensures DecodeChars(Quad(x, y, z) + rest) == [x, y, z] + DecodeChars(rest)
  {
    var q := Quad(x, y, z);
    var s := q + rest;
    AlphabetConcat(q, rest);
    assert s[0] == q[0] && s[1] == q[1] && s[2] == q[2] && s[3] == q[3];
    assert s[4..] == rest;
  }

  /** No character of the alphabet is whitespace or '='. */
  lemma AlphabetPlain(s: string)
    requires InAlphabet(s)
    ensures forall i :: 0 <= i < |s| ==> !IsAsciiWhitespace(s[i]) && s[i] != '='
  {
  }

  /** `atob` inverts the padded encoding. */
  lemma AtobEncode(b: seq<Byte>)
    ensures Atob(Encode(b)) == Some(b)
  {
    var chars := EncodeChars(b);
    var e := Encode(b);
    var pad := Strings.Repeat('=', PadCount(|b|));
    AlphabetPlain(chars);
    assert forall i :: 0 <= i < |e| ==> !IsAsciiWhitespace(e[i]) by {
      forall i | 0 <= i < |e| ensures !IsAsciiWhitespace(e[i]) {
        if i >= |chars| { assert e[i] == pad[i - |chars|]; }
      }
    }
    assert RemoveWhitespace(e) == e;
    StripEncoded(chars, |b|);
    DecodeEncodeChars(b);
  }

  /** Stripping the padding of an encoding leaves its characters. */
  lemma StripEncoded(chars: string, n: nat)
    requires InAlphabet(chars) && |chars| % 4 == TailLength(n)
    ensures StripPadding(chars + Strings.Repeat('=', PadCount(n))) == chars
  {
    var pad := Strings.Repeat('=', PadCount(n));
    var e := chars + pad;
    AlphabetPlain(chars);
    if PadCount(n) == 2 {
      assert e[|e| - 2..] == "==";
      assert e[..|e| - 2] == chars;
    } else if PadCount(n) == 1 {
      assert e[|e| - 1] == '=';
      if |e| >= 2 { assert e[|e| - 2] == chars[|chars| - 1] != '='; }
      assert e[..|e| - 1] == chars;
    } else {
      assert e == chars;
      if |e| >= 1 { assert e[|e| - 1] != '='; }
    }
  }

  // ---------------------------------------------------------------------
  // The URL-safe form (section 5 of RFC 4648)

  /** `.replace(/-/g, "+").replace(/_/g, "/")`. */
  function FromUrlAlphabet(s: string): (r: string)
    ensures |r| == |s|
    ensures forall i :: 0 <= i < |r| ==> r[i] != '-' && r[i] != '_'
    ensures forall i :: 0 <= i < |s| ==> r[i] == (if s[i] == '-' then '+' else if s[i] == '_' then '/' else s[i])
  {
    seq(|s|, i requires 0 <= i < |s| => if s[i] == '-' then '+' else if s[i] == '_' then '/' else s[i])
  }

  function ToUrlAlphabet(s: string): (r: string)
    ensures |r| == |s|
    ensures forall i :: 0 <= i < |s| ==> r[i] == (if s[i] == '+' then '-' else if s[i] == '/' then '_' else s[i])
  {
    seq(|s|, i requires 0 <= i < |s| => if s[i] == '+' then '-' else if s[i] == '/' then '_' else s[i])
  }

  /** The URL-safe encoding without padding, as application server keys are published. */
  function UrlEncode(b: seq<Byte>): string {
    ToUrlAlphabet(EncodeChars(b))
  }

  /** `"=".repeat((4 - (s.length % 4)) % 4)`. */
  function Padding(s: string): (r: string)
    ensures |r| < 4 && (|s| + |r|) % 4 == 0
    ensures forall i :: 0 <= i < |r| ==> r[i] == '='
  {
    Strings.Repeat('=', (4 - |s| % 4) % 4)
  }

  /** `urlBase64ToUint8Array`: `None` where `atob` throws. */
  function UrlBase64ToBytes(s: string): Option<seq<Byte>>
  {
    Atob(FromUrlAlphabet(s + Padding(s)))
  }

  /** The hook recovers every key from its unpadded URL-safe encoding. */
  lemma UrlRoundTrip(b: seq<Byte>)
    ensures UrlBase64ToBytes(UrlEncode(b)) == Some(b)
  {
    var chars := EncodeChars(b);
    var u := UrlEncode(b);
    assert Padding(u) == Strings.Repeat('=', PadCount(|b|));
    AlphabetPlain(chars);
    assert FromUrlAlphabet(u + Padding(u)) == Encode(b);
    AtobEncode(b);
  }

  /** A key that already carries its padding decodes the same way. */
  lemma PaddedUrlRoundTrip(b: seq<Byte>)
    ensures UrlBase64ToBytes(ToUrlAlphabet(Encode(b))) == Some(b)
  {
    var e := Encode(b);
    var u := ToUrlAlphabet(e);
    AlphabetPlain(EncodeChars(b));
    assert Padding(u) == "";
    assert u + "" == u;
    assert FromUrlAlphabet(u) == e;
    AtobEncode(b);
  }

  /** A key of one more than a multiple of four characters, without whitespace, is refused. */
  lemma OneOverRefused(s: string)
    requires |s| % 4 == 1
    requires forall i :: 0 <= i < |s| ==> !IsAsciiWhitespace(s[i])
    ensures UrlBase64ToBytes(s).None?
  {
    var t := FromUrlAlphabet(s + Padding(s));
    assert UrlBase64ToBytes(s) == Atob(t);
    var p := Padding(s);
    assert |p| == 3;
    assert forall i :: 0 <= i < |t| ==> !IsAsciiWhitespace(t[i]) by {
      forall i | 0 <= i < |t| ensures !IsAsciiWhitespace(t[i]) {
        if i >= |s| { assert (s + p)[i] == '='; } else { assert (s + p)[i] == s[i]; }
      }
    }
    assert RemoveWhitespace(t) == t;
    var u := StripPadding(t);
    assert t[|t| - 3] == '=';
    assert |u| >= |t| - 2 && u[|t| - 3] == '=';
    assert ValueOf(u[|t| - 3]).None?;
  }
}

=== FILE: cookies.dfy ===
/**
  Reading and writing the prompts' cookies (`getCookie` and `setCookie` in
  src/components/pwa-install-prompt.tsx and
  src/components/notification-prompt.tsx).

  The browser's cookie store is a sequence of name/value pairs, and
  `document.cookie` lists them as "name=value" joined by "; " (section
  5.4 of RFC 6265). Expiry dates and paths are not modelled: the prompts
  write every cookie with path "/" and a lifetime of a year.
 */
module Cookies {
  import opened Wrappers
  import Strings
  import Sequences

  datatype Cookie = Cookie(name: string, value: string)

  /** A name the header can carry unambiguously: no ';' and no '='. */
  predicate NameOk(n: string) {
    ';' !in n && '=' !in n
  }

  predicate ValueOk(v: string) {
    ';' !in v
  }

  predicate WellFormed(jar: seq<Cookie>) {
    forall i :: 0 <= i < |jar| ==> NameOk(jar[i].name) && ValueOk(jar[i].value)
  }

  function NameOf(c: Cookie): string {
    c.name
  }

  predicate NamesUnique(jar: seq<Cookie>) {
    Sequences.KeysUnique(jar, NameOf)
  }

  function Pair(c: Cookie): string {
    c.name + "=" + c.value
  }

  /** `document.cookie`. */
  function DocumentCookie(jar: seq<Cookie>): string
    decreases |jar|
  {
    if |jar| == 0 then ""
    else if |jar| == 1 then Pair(jar[0])
    else Pair(jar[0]) + "; " + DocumentCookie(jar[1..])
  }

  /** Every pair preceded by "; ": what `"; " + document.cookie` is for a non-empty store. */
  function Tail(jar: seq<Cookie>): string
    decreases |jar|
  {
    if |jar| == 0 then "" else "; " + Pair(jar[0]) + Tail(jar[1..])
  }

  lemma {:induction false} PrefixedIsTail(jar: seq<Cookie>)
    requires |jar| > 0
    ensures "; " + DocumentCookie(jar) == Tail(jar)
    decreases |jar|
  {
    if |jar| > 1 {
      PrefixedIsTail(jar[1..]);
    }
  }

  function Marker(name: string): string {
    "; " + name + "="
  }

  // ---------------------------------------------------------------------
  // Counting separators

  /** How many times `split` cuts `s` at `sep`: non-overlapping, left to right. */
  function Occurrences(s: string, sep: string): nat
    requires |sep| > 0
    decreases |s|
  {
    if |s| == 0 then 0
    else if sep <= s then 1 + Occurrences(s[|sep|..], sep)
    else Occurrences(s[1..], sep)
  }

  /** `split` returns one piece more than there are separators. */
  lemma {:induction false} SplitCount(s: string, sep: string)
    requires |sep| > 0
    ensures |Strings.Split(s, sep)| == Occurrences(s, sep) + 1
    decreases |s|
  {
    if |s| > 0 {
      if sep <= s {
        SplitCount(s[|sep|..], sep);
      } else {
        SplitCount(s[1..], sep);
      }
    }
  }

  /** `getCookie`: the text after the only "; name=" up to the next ';', or null. */
  function GetCookie(header: string, name: string): (r: Option<string>)
    ensures r.Some? <==> Occurrences("; " + header, Marker(name)) == 1
    ensures r.Some? ==> ';' !in r.value
  {
    var parts := Strings.Split("; " + header, Marker(name));
    SplitCount("; " + header, Marker(name));
    if |parts| == 2 then
      var pieces := Strings.Split(parts[1], ";");
      Strings.SplitPiecesFree(parts[1], ";");
      Strings.ContainsChar(pieces[0], ';');
      Some(pieces[0])
    else None
  }

  // ---------------------------------------------------------------------
  // Splitting the header

  /** Text without the separator's first character is glued to the first piece. */
  lemma {:induction false} SplitAfterFree(x: string, t: string, sep: string)
    requires |sep| > 0 && sep[0] !in x
    ensures Strings.Split(x + t, sep) == [x + Strings.Split(t, sep)[0]] + Strings.Split(t, sep)[1..]
    decreases |x|
  {
    if |x| > 0 {
      var s := x + t;
      assert s[0] == x[0] != sep[0];
      assert !(sep <= s);
      assert s[1..] == x[1..] + t;
      SplitAfterFree(x[1..], t, sep);
      var p := Strings.Split(t, sep);
      var rest := Strings.Split(s[1..], sep);
      assert Strings.Split(s, sep) == [[s[0]] + rest[0]] + rest[1..];
      assert rest[0] == x[1..] + p[0] && rest[1..] == p[1..];
      assert [s[0]] + (x[1..] + p[0]) == x + p[0];
    } else {
      assert x == [] && x + t == t;
      var p := Strings.Split(t, sep);
      assert x + p[0] == p[0];
      assert p == [p[0]] + p[1..];
    }
  }

  /** A cookie with another name is not cut. */
  lemma OtherEntry(c: Cookie, n: string, t: string)
    requires NameOk(c.name) && ValueOk(c.value) && NameOk(n) && c.name != n
    ensures var p := Strings.Split(t, Marker(n));
      Strings.Split("; " + Pair(c) + t, Marker(n)) == ["; " + Pair(c) + p[0]] + p[1..]
  {
    var s := "; " + Pair(c) + t;
    var m := Marker(n);
    NotMarker(c, n, t);
    var x := " " + Pair(c);
    PairFree(c);
    assert s == [';'] + (x + t);
    assert s[1..] == x + t;
    SplitAfterFree(x, t, m);
    var p := Strings.Split(t, m);
    var rest := Strings.Split(s[1..], m);
    assert Strings.Split(s, m) == [[s[0]] + rest[0]] + rest[1..];
    assert rest[0] == x + p[0] && rest[1..] == p[1..];
    assert [s[0]] + rest[0] == "; " + Pair(c) + p[0];
  }

  /** A well-formed cookie's entry, after the space, holds no ';'. */
  lemma PairFree(c: Cookie)
    requires NameOk(c.name) && ValueOk(c.value)
    ensures ';' !in " " + Pair(c)
  {
    var x := " " + Pair(c);
    forall k | 0 <= k < |x| ensures x[k] != ';' {
      if 1 <= k < 1 + |c.name| {
        assert x[k] == c.name[k - 1];
      } else if k > 1 + |c.name| {
        assert x[k] == c.value[k - 2 - |c.name|];
      }
    }
  }

  lemma NotMarker(c: Cookie, n: string, t: string)
    requires NameOk(c.name) && NameOk(n) && c.name != n
    ensures !(Marker(n) <= "; " + Pair(c) + t)
  {
    var s := "; " + Pair(c) + t;
    var m := Marker(n);
    var q, k := |c.name|, |n|;
    if q == k {
      var i :| 0 <= i < k && c.name[i] != n[i];
      assert s[2 + i] == c.name[i] && m[2 + i] == n[i];
    } else if q < k {
      assert s[2 + q] == '=';
      assert m[2 + q] == n[q] && n[q] in n;
    } else {
      assert s[2 + k] == c.name[k] && c.name[k] in c.name;
      assert m[2 + k] == '=';
    }
  }

  /** A cookie with the looked-up name starts a new piece at its value. */
  lemma NamedEntry(c: Cookie, t: string)
    requires ValueOk(c.value)
    ensures var s := "; " + Pair(c) + t;
      Strings.Split(s, Marker(c.name)) == ["", c.value + Strings.Split(t, Marker(c.name))[0]] + Strings.Split(t, Marker(c.name))[1..]
  {
    var s := "; " + Pair(c) + t;
    var m := Marker(c.name);
    assert s == m + (c.value + t);
    assert m <= s;
    assert s[|m|..] == c.value + t;
    SplitAfterFree(c.value, t, m);
  }

  /** How many cookies in the store carry the name. */
  function CountNamed(jar: seq<Cookie>, n: string): (r: nat)
    ensures r == 0 <==> forall i :: 0 <= i < |jar| ==> jar[i].name != n
    decreases |jar|
  {
    if |jar| == 0 then 0
    else
      var rest := CountNamed(jar[1..], n);
      assert forall i :: 1 <= i < |jar| ==> jar[i] == jar[1..][i - 1];
      (if jar[0].name == n then 1 else 0) + rest
  }

  /**
    Splitting the prefixed header at "; name=" cuts once per cookie with
    that name; with one such cookie, the second piece starts with its
    value and runs on through the later cookies.
   */
  lemma {:induction false} TailSplit(jar: seq<Cookie>, n: string)
    requires WellFormed(jar) && NameOk(n)
    ensures |Strings.Split(Tail(jar), Marker(n))| == 1 + CountNamed(jar, n)
    ensures CountNamed(jar, n) == 0 ==> Strings.Split(Tail(jar), Marker(n)) == [Tail(jar)]
    ensures forall k :: 0 <= k < |jar| && CountNamed(jar, n) == 1 && jar[k].name == n ==>
      Strings.Split(Tail(jar), Marker(n))[1] == jar[k].value + Tail(jar[k + 1..])
    decreases |jar|
  {
    if |jar| == 0 {
      return;
    }
    var c, rest := jar[0], jar[1..];
    assert WellFormed(rest) by {
      assert forall i :: 0 <= i < |rest| ==> rest[i] == jar[i + 1];
    }
    TailSplit(rest, n);
    var t := Tail(rest);
    assert Tail(jar) == "; " + Pair(c) + t;
    var p := Strings.Split(t, Marker(n));
    if c.name == n {
      NamedEntry(c, t);
      if CountNamed(jar, n) == 1 {
        assert CountNamed(rest, n) == 0;
        assert forall k :: 1 <= k < |jar| ==> jar[k] == rest[k - 1];
      }
    } else {
      OtherEntry(c, n, t);
      forall k | 0 <= k < |jar| && CountNamed(jar, n) == 1 && jar[k].name == n
        ensures Strings.Split(Tail(jar), Marker(n))[1] == jar[k].value + Tail(jar[k + 1..])
      {
        assert k > 0 && rest[k - 1] == jar[k];
        assert jar[k + 1..] == rest[k..];
      }
    }
  }

  /** The value `getCookie` reads stops at the next ';' or the end. */
  lemma ValueRead(v: string, t: string)
    requires ';' !in v && (t == "" || t[0] == ';')
    ensures Strings.Split(v + t, ";")[0] == v
  {
    SplitAfterFree(v, t, ";");
    if t != "" {
      assert ";" <= t;
    }
  }

  /**
    `getCookie` over a well-formed store: the value of the cookie with
    that name when there is exactly one, otherwise null.
   */
  lemma ReadStore(jar: seq<Cookie>, n: string)
    requires WellFormed(jar) && NameOk(n)
    ensures CountNamed(jar, n) != 1 ==> GetCookie(DocumentCookie(jar), n).None?
    ensures forall k :: 0 <= k < |jar| && CountNamed(jar, n) == 1 && jar[k].name == n ==>
      GetCookie(DocumentCookie(jar), n) == Some(jar[k].value)
  {
    if |jar| == 0 {
      var x := " ";
      assert "; " == "; "[..1] + x;
      SplitAfterFree(x, "", Marker(n));
      Strings.SplitFree("", ';');
      assert Strings.Split("; ", Marker(n)) == Strings.Split("; "[..1] + x + "", Marker(n));
      assert !(Marker(n) <= "; ");
      return;
    }
    PrefixedIsTail(jar);
    TailSplit(jar, n);
    forall k | 0 <= k < |jar| && CountNamed(jar, n) == 1 && jar[k].name == n
      ensures GetCookie(DocumentCookie(jar), n) == Some(jar[k].value)
    {
      var after := Tail(jar[k + 1..]);
      assert after == "" || after[0] == ';';
      ValueRead(jar[k].value, after);
    }
  }

  /**
    Writing a cookie: an existing cookie of that name gets the new value
    and keeps its place (section 5.3 of RFC 6265 keeps the old creation
    time, which orders the header); a new one is added last.
   */
  function Write(jar: seq<Cookie>, n: string, v: string): (r: seq<Cookie>)
    ensures CountNamed(jar, n) == 0 ==> r == jar + [Cookie(n, v)]
    ensures CountNamed(jar, n) > 0 ==> |r| == |jar|
    decreases |jar|
  {
    if |jar| == 0 then [Cookie(n, v)]
    else if jar[0].name == n then [Cookie(n, v)] + jar[1..]
    else
      assert jar == [jar[0]] + jar[1..];
      [jar[0]] + Write(jar[1..], n, v)
  }

  /** After a write, the store holds exactly one cookie of that name, with the written value. */
  lemma {:induction false} WriteShape(jar: seq<Cookie>, n: string, v: string)
    requires NamesUnique(jar)
    ensures CountNamed(Write(jar, n, v), n) == 1
    ensures forall k :: 0 <= k < |Write(jar, n, v)| && Write(jar, n, v)[k].name == n ==> Write(jar, n, v)[k].value == v
    ensures forall k :: 0 <= k < |Write(jar, n, v)| && Write(jar, n, v)[k].name != n ==> Write(jar, n, v)[k] in jar
    decreases |jar|
  {
    if |jar| > 0 {
      var rest := jar[1..];
      assert NamesUnique(rest) by {
        forall i, j | 0 <= i < j < |rest| ensures NameOf(rest[i]) != NameOf(rest[j]) {
          assert rest[i] == jar[i + 1] && rest[j] == jar[j + 1];
        }
      }
      if jar[0].name == n {
        assert CountNamed(rest, n) == 0 by {
          forall i | 0 <= i < |rest| ensures rest[i].name != n {
            assert rest[i] == jar[i + 1];
            assert NameOf(jar[0]) != NameOf(jar[i + 1]);
          }
        }
        var r := Write(jar, n, v);
        assert r[1..] == rest;
        forall k | 0 <= k < |r| && r[k].name != n ensures r[k] in jar {
          assert k > 0 && r[k] == jar[k];
        }
      } else {
        WriteShape(rest, n, v);
        var r := Write(jar, n, v);
        assert r[1..] == Write(rest, n, v);
        forall k | 0 <= k < |r| && r[k].name != n ensures r[k] in jar {
          if k > 0 { assert r[k] == Write(rest, n, v)[k - 1]; }
        }
        forall k | 0 <= k < |r| && r[k].name == n ensures r[k].value == v {
          assert k > 0 && r[k] == Write(rest, n, v)[k - 1];
        }
      }
    }
  }

  /** Reading a cookie back after writing it gives the written value. */
  lemma WriteThenRead(jar: seq<Cookie>, n: string, v: string)
    requires WellFormed(jar) && NamesUnique(jar) && NameOk(n) && ValueOk(v)
    ensures GetCookie(DocumentCookie(Write(jar, n, v)), n) == Some(v)
  {
    var r := Write(jar, n, v);
    WriteShape(jar, n, v);
    assert WellFormed(r) by {
      forall k | 0 <= k < |r| ensures NameOk(r[k].name) && ValueOk(r[k].value) {
        if r[k].name != n {
          var i :| 0 <= i < |jar| && jar[i] == r[k];
        }
      }
    }
    var k :| 0 <= k < |r| && r[k].name == n;
    ReadStore(r, n);
  }

  /** A cookie whose name merely ends in the looked-up name is not found. */
  lemma SuffixNameNotMatched(prefix: string, n: string, v: string)
    requires |prefix| > 0 && NameOk(prefix + n) && NameOk(n) && ValueOk(v)
    ensures GetCookie(DocumentCookie([Cookie(prefix + n, v)]), n).None?
  {
    var jar := [Cookie(prefix + n, v)];
    assert WellFormed(jar);
    assert CountNamed(jar, n) == 0 by {
      assert |prefix + n| != |n|;
    }
    ReadStore(jar, n);
  }
}

=== FILE: event_calendar.dfy ===
/**
  The calendar's view state and navigation
  (src/components/event-calendar/event-calendar.tsx).

  Moments are milliseconds on the local wall clock, as in the event
  dialog, and day 0 (1 January 1970) was a Thursday. Stepping by months
  depends on calendar lengths and is a parameter (`addMonths`); the number
  of days the agenda shows comes from a file that is not part of this
  model and is a parameter too. The month, week, day and agenda grids
  themselves are not part of this model.
 */
module EventCalendar {
  import opened Wrappers
  import opened Store
  import Strings
  import Sequences
  import EventDialog

  datatype View = Month | Week | Day | Agenda

  /** Where a key press landed. */
  datatype Target = InputElement | TextAreaElement | EditableElement | OtherElement

  datatype State = State(currentDate: int, view: View, dialogOpen: bool, selected: Option<TeamEvent>)

  /** The calendar as first shown: today, in the initial view, dialog closed. */
  function Initial(now: int, initialView: Option<View>): (st: State)
    ensures st.currentDate == now && !st.dialogOpen && st.selected.None?
    ensures initialView.None? ==> st.view == Month
    ensures initialView.Some? ==> st.view == initialView.value
  {
    State(now, initialView.GetOr(Month), false, None)
  }

  // ---------------------------------------------------------------------
  // Keyboard shortcuts

  /** The view a key selects, compared in lower case; `None` for any other key. */
  function KeyView(key: string): (r: Option<View>)
    ensures r == Some(Month) <==> Strings.ToLower(key) == "m"
    ensures r == Some(Week) <==> Strings.ToLower(key) == "w"
    ensures r == Some(Day) <==> Strings.ToLower(key) == "d"
    ensures r == Some(Agenda) <==> Strings.ToLower(key) == "a"
  {
    var k := Strings.ToLower(key);
    if k == "m" then Some(Month)
    else if k == "w" then Some(Week)
    else if k == "d" then Some(Day)
    else if k == "a" then Some(Agenda)
    else None
  }

  /** Typing in a field, or any key while the dialog is open, is not a shortcut. */
  predicate Ignored(st: State, target: Target) {
    st.dialogOpen || target != OtherElement
  }

  function HandleKeyDown(st: State, key: string, target: Target): (r: State)
    ensures Ignored(st, target) || KeyView(key).None? ==> r == st
    ensures !Ignored(st, target) && KeyView(key).Some? ==> r == st.(view := KeyView(key).value)
  {
    if Ignored(st, target) then st
    else
      match KeyView(key)
      case None => st
      case Some(v) => st.(view := v)
  }

  /** Both cases of a letter select the same view. */
  lemma ShortcutsIgnoreCase(c: char)
    requires 'a' <= c <= 'z'
    ensures KeyView([c]) == KeyView([(c as int - 32) as char])
  {
    var u := (c as int - 32) as char;
    assert Strings.ToLower([u]) == [c];
    assert Strings.ToLower([c]) == [c];
  }

  /** `setView`, from the menu or a shortcut: the date shown stays. */
  function SetView(st: State, v: View): (r: State)
    ensures r.view == v && r.currentDate == st.currentDate
    ensures r.dialogOpen == st.dialogOpen && r.selected == st.selected
  {
    st.(view := v)
  }

  /** No key press moves the calendar in time. */
  lemma KeysKeepDate(st: State, key: string, target: Target)
    ensures HandleKeyDown(st, key, target).currentDate == st.currentDate
  {
  }

  // ---------------------------------------------------------------------
  // Stepping through time

  function AddDays(t: int, n: int): int {
    t + n * EventDialog.DayMs
  }

  /** The signed step `handleNext` takes in a view that is not the month view, in days. */
  function StepDays(v: View, agendaDays: nat): (r: int)
    requires v != Month
    ensures v == Week ==> r == 7
    ensures v == Day ==> r == 1
    ensures v == Agenda ==> r == agendaDays
  {
    match v
    case Week => 7
    case Day => 1
    case Agenda => agendaDays
  }

  function HandleNext(st: State, agendaDays: nat, addMonths: (int, int) -> int): (r: State)
    ensures r.view == st.view && r.dialogOpen == st.dialogOpen && r.selected == st.selected
    ensures st.view == Month ==> r.currentDate == addMonths(st.currentDate, 1)
    ensures st.view != Month ==> r.currentDate == st.currentDate + StepDays(st.view, agendaDays) * EventDialog.DayMs
  {
    var t := st.currentDate;
    st.(currentDate := match st.view
      case Month => addMonths(t, 1)
      case Week => AddDays(t, 7)
      case Day => AddDays(t, 1)
      case Agenda => AddDays(t, agendaDays))
  }

  function HandlePrevious(st: State, agendaDays: nat, addMonths: (int, int) -> int): (r: State)
    ensures r.view == st.view && r.dialogOpen == st.dialogOpen && r.selected == st.selected
    ensures st.view == Month ==> r.currentDate == addMonths(st.currentDate, -1)
    ensures st.view != Month ==> r.currentDate == st.currentDate - StepDays(st.view, agendaDays) * EventDialog.DayMs
  {
    var t := st.currentDate;
    st.(currentDate := match st.view
      case Month => addMonths(t, -1)
      case Week => AddDays(t, -7)
      case Day => AddDays(t, -1)
      case Agenda => AddDays(t, -(agendaDays as int)))
  }

  /** Outside the month view, next and previous undo each other, in either order. */
  lemma StepsUndo(st: State, agendaDays: nat, addMonths: (int, int) -> int)
    requires st.view != Month
    ensures HandlePrevious(HandleNext(st, agendaDays, addMonths), agendaDays, addMonths) == st
    ensures HandleNext(HandlePrevious(st, agendaDays, addMonths), agendaDays, addMonths) == st
  {
  }

  /** `handleToday`. */
  function HandleToday(st: State, now: int): (r: State)
    ensures r.currentDate == now && r.view == st.view
  {
    st.(currentDate := now)
  }

  // ---------------------------------------------------------------------
  // Ranges shown in the title

  /** The day of the week, Sunday being 0. */
  function Weekday(t: int): (r: nat)
    ensures r < 7
  {
    (t / EventDialog.DayMs + 4) % 7
  }

  /** `startOfWeek` with weeks starting on Sunday: midnight of that Sunday. */
  function StartOfWeek(t: int): int {
    EventDialog.DayStart(t) - Weekday(t) * EventDialog.DayMs
  }

  /** `endOfWeek`: the last millisecond of the Saturday. */
  function EndOfWeek(t: int): int {
    StartOfWeek(t) + 7 * EventDialog.DayMs - 1
  }

  /** The week shown holds the current date, starts on a Sunday at midnight and lasts seven days. */
  lemma WeekRange(t: int)
    ensures StartOfWeek(t) <= t <= EndOfWeek(t)
    ensures Weekday(StartOfWeek(t)) == 0 && EventDialog.DayStart(StartOfWeek(t)) == StartOfWeek(t)
    ensures EndOfWeek(t) - StartOfWeek(t) + 1 == 7 * EventDialog.DayMs
  {
    var d := t / EventDialog.DayMs;
    var w := Weekday(t);
    var s := StartOfWeek(t);
    assert EventDialog.DayStart(t) == d * EventDialog.DayMs;
    assert s == (d - w) * EventDialog.DayMs;
    assert s / EventDialog.DayMs == d - w;
    assert (d - w + 4) % 7 == 0 by {
      assert w == (d + 4) % 7;
    }
  }

  /** The agenda title covers the current date and the days after it. */
  function AgendaRange(t: int, agendaDays: nat): (r: (int, int))
    ensures r.0 == t
    ensures agendaDays >= 1 ==> r.0 <= r.1
    ensures r.1 - r.0 == (agendaDays - 1) * EventDialog.DayMs
  {
    (t, AddDays(t, agendaDays - 1))
  }

  // ---------------------------------------------------------------------
  // The view menu

  function ViewLabel(v: View): string {
    match v
    case Day => "Dag"
    case Week => "Uke"
    case Month => "Måned"
    case Agenda => "Agenda"
  }

  /** The shortcut letter the menu shows beside each view. */
  function MenuShortcut(v: View): string {
    match v
    case Month => "M"
    case Week => "U"
    case Day => "D"
    case Agenda => "A"
  }

  /** The week entry advertises "U", but pressing it does nothing; the other entries' letters work. */
  lemma WeekShortcutMismatch()
    ensures KeyView(MenuShortcut(Week)).None?
    ensures forall v :: v != Week ==> KeyView(MenuShortcut(v)) == Some(v)
  {
    assert Strings.ToLower("U") == "u";
    assert Strings.ToLower("M") == "m";
    assert Strings.ToLower("D") == "d";
    assert Strings.ToLower("A") == "a";
  }

  /** The menu letters with the week entry showing the key the handler listens for. */
  function MenuShortcutFixed(v: View): string {
    if v == Week then "W" else MenuShortcut(v)
  }

  /** Every advertised letter selects its own view. */
  lemma ShortcutsAgree(v: View)
    ensures KeyView(MenuShortcutFixed(v)) == Some(v)
  {
    assert Strings.ToLower("W") == "w";
    WeekShortcutMismatch();
  }

  // ---------------------------------------------------------------------
  // Selecting and deleting events

  function HandleEventSelect(st: State, e: TeamEvent): (r: State)
    ensures r.dialogOpen && r.selected == Some(e) && r.currentDate == st.currentDate && r.view == st.view
  {
    st.(selected := Some(e), dialogOpen := true)
  }

  /** What a delete leads to: the id handed to `onEventDelete`, and a toast message if any. */
  datatype Deleted = Deleted(state: State, deletedId: Id, toast: Option<string>)

  function DeleteToast(name: string): string {
    "Hendelse \"" + name + "\" ble slettet"
  }

  /**
    `handleEventDelete`: the dialog closes and the selection clears
    whether or not the id is among the shown events; the toast names the
    first event with that id.
   */
  function HandleEventDelete(st: State, events: seq<TeamEvent>, eventId: Id): (r: Deleted)
    ensures r.deletedId == eventId
    ensures !r.state.dialogOpen && r.state.selected.None?
    ensures r.state.currentDate == st.currentDate && r.state.view == st.view
    ensures r.toast.Some? <==> exists i :: 0 <= i < |events| && events[i].id == eventId
    ensures r.toast.Some? ==> exists i :: 0 <= i < |events| && events[i].id == eventId && r.toast.value == DeleteToast(events[i].name)
  {
    var closed := st.(dialogOpen := false, selected := None);
    match Sequences.FindIndex(events, EventIdIs(eventId))
    case None => Deleted(closed, eventId, None)
    case Some(i) => Deleted(closed, eventId, Some(DeleteToast(events[i].name)))
  }
}

=== FILE: event_dialog.dfy ===
/**
  The event dialog's form logic (src/components/event-calendar/event-dialog.tsx).

  A moment is an integer count of milliseconds on the local wall clock, so
  a day is exactly 86 400 000 ms long: time zones and daylight-saving
  shifts are not modelled. `Date` values that JavaScript would make
  invalid (hours set to NaN) are `None`. The calendar's hour bounds and
  default hours come from a constants file that is not part of this
  model, so they are parameters.
 */
module EventDialog {
  import opened Wrappers
  import opened Store
  import Strings

  const MinuteMs: int := 60_000
  const HourMs: int := 3_600_000
  const DayMs: int := 86_400_000

  /** Midnight of the day a moment falls on. */
  function DayStart(t: int): (r: int)
    ensures r <= t < r + DayMs && r % DayMs == 0
  {
    t - t % DayMs
  }

  function HourOf(t: int): (r: nat)
    ensures r < 24
  {
    (t % DayMs) / HourMs
  }

  function MinuteOf(t: int): (r: nat)
    ensures r < 60
  {
    (t % HourMs) / MinuteMs
  }

  // ---------------------------------------------------------------------
  // Time strings

  /** A time string "HH:mm" with both parts zero-padded to two digits. */
  function TimeValue(hour: nat, minute: nat): string {
    Strings.Pad2(hour) + ":" + Strings.Pad2(minute)
  }

  /**
    `time.split(":").map(Number)` destructured with defaults 0: the hour
    is the first piece, the minute the second or 0 when there is none;
    `None` is NaN.
   */
  function ParseTime(s: string): (r: (Option<nat>, Option<nat>))
    ensures Strings.AllDigits(s) && |s| > 0 ==> r == (Some(Strings.DigitsValue(s)), Some(0))
  {
    var parts := Strings.Split(s, ":");
    DigitsSplit(s);
    (Strings.JsNumber(parts[0]), if |parts| >= 2 then Strings.JsNumber(parts[1]) else Some(0))
  }

  /** A string of digits has no separator in it. */
  lemma DigitsSplit(s: string)
    ensures Strings.AllDigits(s) ==> ':' !in s && Strings.Split(s, ":") == [s]
  {
    if Strings.AllDigits(s) {
      assert forall k :: 0 <= k < |s| ==> s[k] != ':';
      Strings.SplitFree(s, ':');
    }
  }

  /** Reading back a padded time gives the hour and minute it was built from. */
  lemma TimeValueRoundTrip(hour: nat, minute: nat)
    ensures ParseTime(TimeValue(hour, minute)) == (Some(hour), Some(minute))
  {
    var a, b := Strings.Pad2(hour), Strings.Pad2(minute);
    DigitsSplit(a);
    DigitsSplit(b);
    Strings.SplitPair(a, b, ':');
    assert TimeValue(hour, minute) == a + [':'] + b;
    Strings.Pad2RoundTrip(hour);
    Strings.Pad2RoundTrip(minute);
  }

  /** `formatTimeForInput`: the hour, and the minute rounded down to a quarter. */
  function FormatTimeForInput(t: int): (r: string)
    ensures |r| == 5 && r[2] == ':'
    ensures ParseTime(r) == (Some(HourOf(t)), Some(MinuteOf(t) / 15 * 15))
  {
    TimeValueRoundTrip(HourOf(t), MinuteOf(t) / 15 * 15);
    TimeValue(HourOf(t), MinuteOf(t) / 15 * 15)
  }

  /** The i-th entry of the time menu: hour `startHour + i / 4`, minute `(i % 4) * 15`. */
  function TimeOption(startHour: nat, i: nat): string {
    TimeValue(startHour + i / 4, (i % 4) * 15)
  }

  function OptionCount(startHour: nat, endHour: nat): (r: nat)
    ensures endHour >= startHour ==> r == (endHour - startHour + 1) * 4
    ensures endHour < startHour ==> r == 0
  {
    if endHour >= startHour then (endHour - startHour + 1) * 4 else 0
  }

  /** `timeOptions`: each hour from `startHour` to `endHour` inclusive, at 00, 15, 30 and 45. */
  method TimeOptions(startHour: nat, endHour: nat) returns (options: seq<string>)
    ensures |options| == OptionCount(startHour, endHour)
    ensures forall i :: 0 <= i < |options| ==> options[i] == TimeOption(startHour, i)
  {
    options := [];
    var hour := startHour;
    while hour <= endHour
      invariant startHour <= hour <= if endHour >= startHour then endHour + 1 else startHour
      invariant |options| == (hour - startHour) * 4
      invariant forall i :: 0 <= i < |options| ==> options[i] == TimeOption(startHour, i)
    {
      var minute := 0;
      while minute < 60
        invariant 0 <= minute <= 60 && minute % 15 == 0
        invariant |options| == (hour - startHour) * 4 + minute / 15
        invariant forall i :: 0 <= i < |options| ==> options[i] == TimeOption(startHour, i)
      {
        var j := |options|;
        assert j / 4 == hour - startHour && j % 4 == minute / 15;
        options := options + [TimeValue(hour, minute)];
        minute := minute + 15;
      }
      hour := hour + 1;
    }
  }

  /** The menu runs in steps of a quarter of an hour from `startHour`:00, so it is strictly ascending. */
  lemma OptionsAscending(startHour: nat, i: nat)
    ensures ParseTime(TimeOption(startHour, i)) == (Some(startHour + i / 4), Some((i % 4) * 15))
    ensures (startHour + i / 4) * 60 + (i % 4) * 15 == startHour * 60 + 15 * i
  {
    TimeValueRoundTrip(startHour + i / 4, (i % 4) * 15);
  }

  /**
    A loaded event's time appears in the menu exactly when its hour lies
    within the calendar's hours.
   */
  lemma FormattedTimeListed(t: int, startHour: nat, endHour: nat)
    requires endHour < 100
    ensures (exists i :: 0 <= i < OptionCount(startHour, endHour) && TimeOption(startHour, i) == FormatTimeForInput(t))
      <==> startHour <= HourOf(t) <= endHour
  {
    if startHour <= HourOf(t) <= endHour {
      var i := (HourOf(t) - startHour) * 4 + MinuteOf(t) / 15;
      assert i / 4 == HourOf(t) - startHour && i % 4 == MinuteOf(t) / 15;
      assert TimeOption(startHour, i) == FormatTimeForInput(t);
    }
    if exists i :: 0 <= i < OptionCount(startHour, endHour) && TimeOption(startHour, i) == FormatTimeForInput(t) {
      var i :| 0 <= i < OptionCount(startHour, endHour) && TimeOption(startHour, i) == FormatTimeForInput(t);
      OptionsAscending(startHour, i);
    }
  }

  // ---------------------------------------------------------------------
  // Form state

  datatype Form = Form(
    title: string,
    description: string,
    startDate: int,
    endDate: int,
    startTime: string,
    endTime: string,
    allDay: bool,
    location: string)

  /** The form filled from an event: a missing end takes the start. */
  function LoadEvent(e: TeamEvent): (f: Form)
    ensures f.title == e.name && !f.allDay
    ensures f.startDate == e.startAt
    ensures f.endDate == (if e.endAt.Some? then e.endAt.value else e.startAt)
    ensures ParseTime(f.startTime) == (Some(HourOf(e.startAt)), Some(MinuteOf(e.startAt) / 15 * 15))
    ensures e.note.None? ==> f.description == ""
    ensures e.location.None? ==> f.location == ""
  {
    var end := if e.endAt.Some? then e.endAt.value else e.startAt;
    Form(e.name, e.note.GetOr(""), e.startAt, end, FormatTimeForInput(e.startAt), FormatTimeForInput(end),
         false, e.location.GetOr(""))
  }

  /** `resetForm`: today, with the default hours written without padding. */
  function ResetForm(now: int, defaultStartHour: nat, defaultEndHour: nat): (f: Form)
    ensures f.startDate == now && f.endDate == now && !f.allDay && f.title == ""
    ensures ParseTime(f.startTime) == (Some(defaultStartHour), Some(0))
    ensures ParseTime(f.endTime) == (Some(defaultEndHour), Some(0))
  {
    DefaultTimeParses(defaultStartHour);
    DefaultTimeParses(defaultEndHour);
    Form("", "", now, now, Strings.NatToString(defaultStartHour) + ":00",
         Strings.NatToString(defaultEndHour) + ":00", false, "")
  }

  /** `${hour}:00` reads back as the hour on the full hour. */
  lemma DefaultTimeParses(hour: nat)
    ensures ParseTime(Strings.NatToString(hour) + ":00") == (Some(hour), Some(0))
  {
    var a := Strings.NatToString(hour);
    DigitsSplit(a);
    Strings.SplitPair(a, "00", ':');
    assert a + ":00" == a + [':'] + "00";
    Strings.NatToStringRoundTrip(hour);
    assert Strings.DigitsValue("00") == 0 by {
      assert "00"[..1] == "0" && "0"[..0] == "";
    }
  }

  /** The start-date picker: a later start drags the end date along. */
  function SelectStartDate(f: Form, date: Option<int>): (r: Form)
    ensures date.None? ==> r == f
    ensures date.Some? ==> r.startDate == date.value && r.endDate >= r.startDate
    ensures date.Some? && f.endDate >= date.value ==> r.endDate == f.endDate
    ensures r.(startDate := f.startDate, endDate := f.endDate) == f
  {
    match date
    case None => f
    case Some(d) => f.(startDate := d, endDate := if f.endDate < d then d else f.endDate)
  }

  // ---------------------------------------------------------------------
  // Saving

  const UntitledTitle := "(ingen tittel)"
  const OrderMessage := "Sluttdato kan ikke være før startdato"

  function HoursMessage(startHour: nat, endHour: nat): string {
    "Valgt tid må være mellom " + Strings.NatToString(startHour) + ":00 og " + Strings.NatToString(endHour) + ":00"
  }

  /**
    The outcome of `handleSave`. The call to `onSave` is commented out in
    the source, so an accepted save only yields these values and calls
    nothing.
   */
  datatype SaveResult = Rejected(message: string) | Accepted(title: string, start: Option<int>, end: Option<int>)

  /** `date.setHours(h, m, 0)`: seconds cleared, milliseconds kept; NaN makes the date invalid. */
  function SetHours(t: int, hour: Option<nat>, minute: Option<nat>): (r: Option<int>)
    ensures r.Some? <==> hour.Some? && minute.Some?
    ensures r.Some? && hour.value < 24 && minute.value < 60 ==>
      DayStart(r.value) == DayStart(t) && HourOf(r.value) == hour.value && MinuteOf(r.value) == minute.value
  {
    if hour.Some? && minute.Some? then
      var r := DayStart(t) + hour.value * HourMs + minute.value * MinuteMs + t % 1000;
      ClockParts(DayStart(t), hour.value, minute.value, t % 1000);
      Some(r)
    else None
  }

  lemma ClockParts(day: int, hour: nat, minute: nat, ms: nat)
    requires day % DayMs == 0 && ms < 1000
    ensures var r := day + hour * HourMs + minute * MinuteMs + ms;
      hour < 24 && minute < 60 ==> DayStart(r) == day && HourOf(r) == hour && MinuteOf(r) == minute
  {
    if hour < 24 && minute < 60 {
      ClockPartsWithin(day, hour, minute, ms);
    }
  }

  lemma ClockPartsWithin(day: int, hour: nat, minute: nat, ms: nat)
    requires day % DayMs == 0 && hour < 24 && minute < 60 && ms < 1000
    ensures var r := day + hour * HourMs + minute * MinuteMs + ms;
      DayStart(r) == day && HourOf(r) == hour && MinuteOf(r) == minute
  {
    var inner := minute * MinuteMs + ms;
    assert 0 <= inner < HourMs by { MulBelow(minute, 60, MinuteMs); }
    var within := hour * HourMs + inner;
    assert 0 <= within < DayMs by { MulBelow(hour, 24, HourMs); }
    var r := day + within;
    var k := day / DayMs;
    assert day == k * DayMs;
    DivModUnique(r, DayMs, k, within);
    DivModUnique(within, HourMs, hour, inner);
    assert r == (k * 24 + hour) * HourMs + inner;
    DivModUnique(r, HourMs, k * 24 + hour, inner);
    DivModUnique(inner, MinuteMs, minute, ms);
  }

  /** Quotient and remainder are the only ones: `q * d + m` with `0 <= m < d` divides back. */
  lemma DivModUnique(n: int, d: int, q: int, m: int)
    requires d > 0 && 0 <= m < d && n == q * d + m
    ensures n / d == q && n % d == m
  {
    var q', m' := n / d, n % d;
    assert q' * d + m' == q * d + m;
    if q' > q {
      assert (q' - q) * d == m - m';
      MulBelow(1, q' - q, d);
    } else if q' < q {
      assert (q - q') * d == m' - m;
      MulBelow(1, q - q', d);
    }
  }

  /** A factor below `bound` keeps the product below `bound * c`, with at least one whole `c` to spare. */
  lemma MulBelow(a: nat, bound: nat, c: nat)
    requires a < bound
    ensures a * c + c <= bound * c
  {
    var k: nat := bound - a - 1;
    assert bound == a + 1 + k;
    assert bound * c == a * c + c + k * c;
    assert k * c >= 0;
  }

  /** A comparison with NaN is false, so an unparsable hour passes the bound check. */
  predicate OutOfHours(hour: Option<nat>, startHour: nat, endHour: nat) {
    hour.Some? && (hour.value < startHour || hour.value > endHour)
  }

  /** `isBefore(end, start)`: false when either date is invalid. */
  predicate EndsBefore(start: Option<int>, end: Option<int>) {
    start.Some? && end.Some? && end.value < start.value
  }

  function SaveTitle(title: string): (r: string)
    ensures Strings.IsBlank(title) ==> r == UntitledTitle
    ensures !Strings.IsBlank(title) ==> r == title
  {
    Strings.TrimEmptyIffBlank(title);
    if Strings.Trim(title) != "" then title else UntitledTitle
  }

  /** The moments a save works with: the chosen times, or the whole of the first and last day. */
  function SaveRange(f: Form): (r: (Option<int>, Option<int>)) {
    if f.allDay then (Some(DayStart(f.startDate)), Some(DayStart(f.endDate) + DayMs - 1))
    else
      var (sh, sm) := ParseTime(f.startTime);
      var (eh, em) := ParseTime(f.endTime);
      (SetHours(f.startDate, sh, sm), SetHours(f.endDate, eh, em))
  }

  /** `handleSave`. */
  function HandleSave(f: Form, startHour: nat, endHour: nat): (r: SaveResult)
    ensures r.Rejected? ==> r.message == HoursMessage(startHour, endHour) || r.message == OrderMessage
    ensures !f.allDay && (OutOfHours(ParseTime(f.startTime).0, startHour, endHour)
                          || OutOfHours(ParseTime(f.endTime).0, startHour, endHour))
            ==> r == Rejected(HoursMessage(startHour, endHour))
    ensures r.Accepted? <==>
      && (f.allDay || (!OutOfHours(ParseTime(f.startTime).0, startHour, endHour)
                       && !OutOfHours(ParseTime(f.endTime).0, startHour, endHour)))
      && !EndsBefore(SaveRange(f).0, SaveRange(f).1)
    ensures r.Accepted? ==> r.title == SaveTitle(f.title) && (r.start, r.end) == SaveRange(f)
    ensures r.Accepted? && r.start.Some? && r.end.Some? ==> r.start.value <= r.end.value
    ensures r.Accepted? && !f.allDay && ParseTime(f.startTime).0.Some? ==>
      startHour <= ParseTime(f.startTime).0.value <= endHour
  {
    if !f.allDay && (OutOfHours(ParseTime(f.startTime).0, startHour, endHour)
                     || OutOfHours(ParseTime(f.endTime).0, startHour, endHour)) then
      Rejected(HoursMessage(startHour, endHour))
    else
      var (start, end) := SaveRange(f);
      if EndsBefore(start, end) then Rejected(OrderMessage)
      else Accepted(SaveTitle(f.title), start, end)
  }

  /** An all-day save covers its days from the first midnight to the last millisecond before the next. */
  lemma AllDaySave(f: Form, startHour: nat, endHour: nat)
    requires f.allDay
    ensures var r := HandleSave(f, startHour, endHour);
      && (r.Accepted? <==> DayStart(f.startDate) <= DayStart(f.endDate))
      && (r.Accepted? ==> HourOf(r.start.value) == 0 && MinuteOf(r.start.value) == 0
                          && r.end.value - DayStart(f.endDate) == DayMs - 1)
  {
    var s := DayStart(f.startDate);
    var e := DayStart(f.endDate);
    assert SaveRange(f) == (Some(s), Some(e + DayMs - 1));
    MidnightsApart(s, e);
    ClockPartsWithin(s, 0, 0, 0);
  }

  /** Two distinct midnights are at least a day apart. */
  lemma MidnightsApart(s: int, e: int)
    requires s % DayMs == 0 && e % DayMs == 0
    ensures s > e ==> s >= e + DayMs
  {
    var a, b := s / DayMs, e / DayMs;
    assert s == a * DayMs && e == b * DayMs;
    if s > e {
      assert a > b;
      assert s - e == (a - b) * DayMs;
    }
  }

  /**
    On one day, two times from the menu save exactly when the end entry
    is not before the start entry; equal times are accepted.
   */
  lemma MenuTimesSave(f: Form, startHour: nat, endHour: nat, i: nat, j: nat)
    requires !f.allDay && f.startDate == f.endDate && endHour < 24
    requires i < OptionCount(startHour, endHour) && j < OptionCount(startHour, endHour)
    requires f.startTime == TimeOption(startHour, i) && f.endTime == TimeOption(startHour, j)
    ensures HandleSave(f, startHour, endHour).Accepted? <==> i <= j
  {
    OptionsAscending(startHour, i);
    OptionsAscending(startHour, j);
    var start := SaveRange(f).0.value;
    var end := SaveRange(f).1.value;
    assert start == DayStart(f.startDate) + (startHour * 60 + 15 * i) * MinuteMs + f.startDate % 1000;
    assert end == DayStart(f.startDate) + (startHour * 60 + 15 * j) * MinuteMs + f.startDate % 1000;
  }

  /** An event loaded without an end, saved within the calendar's hours, is accepted. */
  lemma LoadedWithoutEndSaves(e: TeamEvent, startHour: nat, endHour: nat)
    requires e.endAt.None? && startHour <= HourOf(e.startAt) <= endHour
    ensures HandleSave(LoadEvent(e), startHour, endHour).Accepted?
  {
  }

  /** `handleDelete`: the id handed to `onDelete`, if any. */
  function HandleDelete(event: Option<TeamEvent>): (r: Option<Id>)
    ensures r.Some? <==> event.Some? && event.value.id != ""
    ensures r.Some? ==> r.value == event.value.id
  {
    if event.Some? && event.value.id != "" then Some(event.value.id) else None
  }
}

=== FILE: event_schema.dfy ===
/**
  Input schemas of the event procedures (src/schemas/event.ts).

  Dates arrive as JavaScript `Date` values, modelled as milliseconds; a
  missing or invalid date is `None`. Every failure, field-level or the
  end-after-start refinement, is BAD_REQUEST.
 */
module EventSchema {
  import opened Wrappers
  import opened Store
  import Strings

  /**
    The optional text fields: a value whose trimmed form is empty becomes
    absent; any other value is kept untrimmed.
   */
  function BlankToNone(v: Option<string>): (r: Option<string>)
    ensures r.None? <==> v.None? || Strings.IsBlank(v.value)
    ensures r.Some? ==> r == v
  {
    match v
    case None => None
    case Some(s) =>
      Strings.TrimEmptyIffBlank(s);
      if Strings.Trim(s) != "" then Some(s) else None
  }

  /** Applying the transform twice changes nothing. */
  lemma BlankToNoneIdempotent(v: Option<string>)
    ensures BlankToNone(BlankToNone(v)) == BlankToNone(v)
  {
  }

  datatype RawCreateEvent = RawCreateEvent(
    teamId: string,
    name: string,
    datetime: Option<int>,
    endAt: Option<int>,
    eventType: Option<string>,
    location: Option<string>,
    note: Option<string>)

  /** The create schema accepts any type string; the store checks it later. */
  datatype CreateEventInput = CreateEventInput(
    teamId: Id,
    name: string,
    datetime: int,
    endAt: int,
    eventType: string,
    location: Option<string>,
    note: Option<string>)

  datatype RawUpdateEvent = RawUpdateEvent(
    id: string,
    teamId: string,
    name: string,
    datetime: Option<int>,
    endAt: Option<int>,
    eventType: Option<string>,
    location: Option<string>,
    note: Option<string>)

  datatype UpdateEventInput = UpdateEventInput(
    id: Id,
    teamId: Id,
    name: string,
    datetime: int,
    endAt: int,
    eventType: EventType,
    location: Option<string>,
    note: Option<string>)

  datatype DeleteEventInput = DeleteEventInput(id: Id, teamId: Id)

  /** `CreateEventInputSchema`, including the refinement `endAt >= datetime`. */
  function ValidateCreateEvent(raw: RawCreateEvent): (r: Result<CreateEventInput>)
    ensures r.Ok? <==>
      && |raw.teamId| >= 1 && |raw.name| >= 1
      && raw.datetime.Some? && raw.endAt.Some? && raw.eventType.Some?
      && raw.endAt.value >= raw.datetime.value
    ensures r.Ok? ==>
      && r.value.teamId == raw.teamId && r.value.name == raw.name
      && r.value.datetime == raw.datetime.value && r.value.endAt == raw.endAt.value
      && r.value.eventType == raw.eventType.value
      && r.value.location == BlankToNone(raw.location) && r.value.note == BlankToNone(raw.note)
    ensures r.Err? ==> r.code == BadRequest
  {
    if |raw.teamId| < 1 || |raw.name| < 1 || raw.datetime.None? || raw.endAt.None? || raw.eventType.None? then
      Err(BadRequest)
    else if raw.endAt.value < raw.datetime.value then
      Err(BadRequest)
    else
      Ok(CreateEventInput(raw.teamId, raw.name, raw.datetime.value, raw.endAt.value, raw.eventType.value,
                          BlankToNone(raw.location), BlankToNone(raw.note)))
  }

  /** `UpdateEventInputSchema`: the type must be one of the four names. */
  function ValidateUpdateEvent(raw: RawUpdateEvent): (r: Result<UpdateEventInput>)
    ensures r.Ok? <==>
      && |raw.id| >= 1 && |raw.teamId| >= 1 && |raw.name| >= 1
      && raw.datetime.Some? && raw.endAt.Some?
      && raw.eventType.Some? && ParseEventType(raw.eventType.value).Some?
      && raw.endAt.value >= raw.datetime.value
    ensures r.Ok? ==>
      && r.value.id == raw.id && r.value.teamId == raw.teamId && r.value.name == raw.name
      && r.value.datetime == raw.datetime.value && r.value.endAt == raw.endAt.value
      && EventTypeName(r.value.eventType) == raw.eventType.value
      && r.value.location == BlankToNone(raw.location) && r.value.note == BlankToNone(raw.note)
    ensures r.Err? ==> r.code == BadRequest
  {
    if |raw.id| < 1 || |raw.teamId| < 1 || |raw.name| < 1 || raw.datetime.None? || raw.endAt.None? then
      Err(BadRequest)
    else if raw.eventType.None? || ParseEventType(raw.eventType.value).None? then
      Err(BadRequest)
    else if raw.endAt.value < raw.datetime.value then
      Err(BadRequest)
    else
      Ok(UpdateEventInput(raw.id, raw.teamId, raw.name, raw.datetime.value, raw.endAt.value,
                          ParseEventType(raw.eventType.value).value, BlankToNone(raw.location), BlankToNone(raw.note)))
  }

  /** `DeleteEventInputSchema`. */
  function ValidateDeleteEvent(id: string, teamId: string): (r: Result<DeleteEventInput>)
    ensures r.Ok? <==> |id| >= 1 && |teamId| >= 1
    ensures r.Ok? ==> r.value == DeleteEventInput(id, teamId)
    ensures r.Err? ==> r.code == BadRequest
  {
    if |id| >= 1 && |teamId| >= 1 then Ok(DeleteEventInput(id, teamId)) else Err(BadRequest)
  }

  /** An event that ends when it starts is accepted: the bound is inclusive. */
  lemma ZeroLengthEventAccepted(teamId: string, name: string, at: int, eventType: string)
    requires |teamId| >= 1 && |name| >= 1
    ensures ValidateCreateEvent(RawCreateEvent(teamId, name, Some(at), Some(at), Some(eventType), None, None)).Ok?
  {
  }
}

=== FILE: events.dfy ===
/**
  The event procedures (src/server/api/event/controller/) and the event
  service (src/services/event.ts).

  Create and update are gated by the team-access middleware on the team id
  the client sends; delete calls `hasTeamAccess` and discards its answer.
  Deleting an event deletes its registrations with it.
 */
module Events {
  import opened Wrappers
  import opened Sequences
  import opened Store
  import opened Access
  import opened EventSchema

  const Editors: seq<TeamRole> := [Admin, Subadmin]

  /** A created event, the new store, and the recipients of the announcement email. */
  datatype Created = Created(db: Db, event: TeamEvent, recipients: seq<string>)

  /** The event row the create procedure writes for a type name the store accepts. */
  function NewEvent(db: Db, input: CreateEventInput, t: EventType): (e: TeamEvent)
    ensures forall i :: 0 <= i < |db.events| ==> db.events[i].id != e.id
  {
    TeamEvent(FreshId(IdsOf(db.events, (ev: TeamEvent) => ev.id)), input.teamId, input.name, t,
              input.datetime, Some(input.endAt), input.location, input.note, None)
  }

  /**
    The create procedure: an ADMIN or SUBADMIN of the team (or a superadmin)
    creates the event with no registration deadline, and every member of
    the team, the creator included, is emailed. A type name outside the
    enumeration passes the schema but the store refuses it.
   */
  function CreateEvent(db: Db, caller: User, input: CreateEventInput): (r: Result<Created>)
    ensures MembershipsUnique(db.members) ==>
      (r == Err(Forbidden) <==> !caller.isAdmin && !HoldsRole(db, caller, input.teamId, Editors))
    ensures r.Err? ==> r.code in {Forbidden, InternalError}
    ensures HasTeamAccessMiddleware(db, caller, input.teamId, Editors).Pass? ==>
      (r.Ok? <==> ParseEventType(input.eventType).Some?)
    ensures r.Ok? ==>
      && r.value.db == db.(events := db.events + [r.value.event])
      && r.value.event.teamId == input.teamId && r.value.event.name == input.name
      && EventTypeName(r.value.event.eventType) == input.eventType
      && r.value.event.startAt == input.datetime && r.value.event.endAt == Some(input.endAt)
      && r.value.event.location == input.location && r.value.event.note == input.note
      && r.value.event.registrationDeadline.None?
      && !EventExists(db, r.value.event.id)
    ensures r.Ok? ==>
      && |r.value.recipients| == |TeamMembers(db, input.teamId)|
      && (forall k :: 0 <= k < |r.value.recipients| ==>
            r.value.recipients[k] == EmailOf(db, TeamMembers(db, input.teamId)[k].userId))
      && forall i :: 0 <= i < |db.members| && db.members[i].teamId == input.teamId ==>
           EmailOf(db, db.members[i].userId) in r.value.recipients
    ensures r.Ok? && Valid(db) ==> Valid(r.value.db)
  {
    match HasTeamAccessMiddleware(db, caller, input.teamId, Editors)
    case Fail(code) => Err(code)
    case Pass =>
      match ParseEventType(input.eventType)
      case None => Err(InternalError)
      case Some(t) =>
        var event := NewEvent(db, input, t);
        var emails := EmailsOf(db, TeamMembers(db, input.teamId));
        MembersEmailed(db, input.teamId);
        AppendEventKeepsValid(db, event);
        Ok(Created(db.(events := db.events + [event]), event, emails))
  }

  /** Every member of the team is among the announcement's recipients. */
  lemma MembersEmailed(db: Db, teamId: Id)
    ensures forall i :: 0 <= i < |db.members| && db.members[i].teamId == teamId ==>
      EmailOf(db, db.members[i].userId) in EmailsOf(db, TeamMembers(db, teamId))
  {
    var ms := TeamMembers(db, teamId);
    var emails := EmailsOf(db, ms);
    forall i | 0 <= i < |db.members| && db.members[i].teamId == teamId
      ensures EmailOf(db, db.members[i].userId) in emails
    {
      var k :| 0 <= k < |ms| && ms[k] == db.members[i];
      assert emails[k] == EmailOf(db, db.members[i].userId);
    }
  }

  lemma AppendEventKeepsValid(db: Db, event: TeamEvent)
    requires forall i :: 0 <= i < |db.events| ==> db.events[i].id != event.id
    ensures Valid(db) ==> Valid(db.(events := db.events + [event]))
  {
    var db' := db.(events := db.events + [event]);
    if Valid(db) {
      assert forall k :: 0 <= k < |db.events| ==> db'.events[k] == db.events[k];
      assert MembersReferenceRows(db');
    }
  }

  /** After a create, looking the new event up by its id finds it. */
  lemma CreateThenFind(db: Db, caller: User, input: CreateEventInput)
    requires CreateEvent(db, caller, input).Ok?
    ensures var c := CreateEvent(db, caller, input).value;
      FindEvent(c.db, c.event.id) == Some(c.event)
  {
    var c := CreateEvent(db, caller, input).value;
    var p := (e: TeamEvent) => e.id == c.event.id;
    var j := FindIndex(c.db.events, p);
    assert c.db.events[|db.events|] == c.event;
    assert j.Some?;
    assert j.value == |db.events|;
  }

  /**
    The columns an update writes: name, type, start, end, and location and
    note only when given (an absent value leaves the column as it is).
   */
  function Edited(e: TeamEvent, input: UpdateEventInput): TeamEvent {
    e.(name := input.name, eventType := input.eventType, startAt := input.datetime, endAt := Some(input.endAt),
       location := if input.location.Some? then input.location else e.location,
       note := if input.note.Some? then input.note else e.note)
  }

  /**
    The update procedure as written: access is checked on the team id the
    client sends, and then the event with the given id is updated whatever
    team it belongs to. A missing event makes the store throw.
   */
  function UpdateEvent(db: Db, caller: User, input: UpdateEventInput): (r: Result<Db>)
    ensures MembershipsUnique(db.members) ==>
      (r == Err(Forbidden) <==> !caller.isAdmin && !HoldsRole(db, caller, input.teamId, Editors))
    ensures r.Err? ==> r.code in {Forbidden, InternalError}
    ensures HasTeamAccessMiddleware(db, caller, input.teamId, Editors).Pass? ==>
      (r.Ok? <==> EventExists(db, input.id))
    ensures r.Ok? ==>
      && r.value == db.(events := r.value.events)
      && |r.value.events| == |db.events|
      && FindEvent(db, input.id).Some?
      && FindEvent(r.value, input.id) == Some(Edited(FindEvent(db, input.id).value, input))
      && forall i :: 0 <= i < |db.events| && db.events[i].id != input.id ==> r.value.events[i] == db.events[i]
    ensures r.Ok? && Valid(db) ==>
      forall i :: 0 <= i < |db.events| && db.events[i].id == input.id ==> r.value.events[i] == Edited(db.events[i], input)
    ensures r.Ok? && Valid(db) ==> Valid(r.value)
  {
    match HasTeamAccessMiddleware(db, caller, input.teamId, Editors)
    case Fail(code) => Err(code)
    case Pass =>
      match FindIndex(db.events, EventIdIs(input.id))
      case None => Err(InternalError)
      case Some(i) =>
        var events := db.events[i := Edited(db.events[i], input)];
        EditKeepsValid(db, i, input);
        FindIndexUpdate(db.events, EventIdIs(input.id), i, Edited(db.events[i], input));
        Ok(db.(events := events))
  }

  lemma EditKeepsValid(db: Db, i: nat, input: UpdateEventInput)
    requires i < |db.events|
    ensures Valid(db) ==> Valid(db.(events := db.events[i := Edited(db.events[i], input)]))
  {
    var db' := db.(events := db.events[i := Edited(db.events[i], input)]);
    if Valid(db) {
      assert forall k :: 0 <= k < |db.events| ==> db'.events[k].id == db.events[k].id;
      assert MembersReferenceRows(db');
    }
  }

  /** A blank or absent location in an update leaves the stored location untouched. */
  lemma UpdateCannotClearLocation(db: Db, caller: User, input: UpdateEventInput, ev: TeamEvent)
    requires Valid(db) && ev in db.events && ev.id == input.id && input.location.None?
    requires UpdateEvent(db, caller, input).Ok?
    ensures FindEvent(UpdateEvent(db, caller, input).value, input.id).Some?
    ensures FindEvent(UpdateEvent(db, caller, input).value, input.id).value.location == ev.location
  {
    var i :| 0 <= i < |db.events| && db.events[i] == ev;
    var j := FindIndex(db.events, EventIdIs(input.id));
    assert j.Some?;
    assert j.value == i;
  }

  /**
    The access check and the updated event are not tied together: an
    editor of one team can rewrite an event of any other team.
   */
  lemma UpdateReachesOtherTeams(db: Db, caller: User, input: UpdateEventInput, ev: TeamEvent)
    requires Valid(db) && ev in db.events && ev.id == input.id && ev.teamId != input.teamId
    requires caller.isAdmin || HoldsRole(db, caller, input.teamId, Editors)
    ensures UpdateEvent(db, caller, input).Ok?
  {
  }

  /**
    The update as evidently intended: the event must belong to the team the
    access check was made on.
   */
  function UpdateEventChecked(db: Db, caller: User, input: UpdateEventInput): (r: Result<Db>)
    ensures r.Ok? ==> UpdateEvent(db, caller, input) == r
    ensures r.Ok? ==> FindEvent(db, input.id).Some? && FindEvent(db, input.id).value.teamId == input.teamId
    ensures r.Ok? && MembershipsUnique(db.members) ==>
      caller.isAdmin || HoldsRole(db, caller, FindEvent(db, input.id).value.teamId, Editors)
  {
    match FindEvent(db, input.id)
    case None => Err(NotFound)
    case Some(event) =>
      if event.teamId != input.teamId then Err(NotFound)
      else UpdateEvent(db, caller, input)
  }

  /**
    The delete procedure as written: the access answer is discarded, the
    event is deleted by id, and its registrations go with it. Only a
    missing event fails, because the store throws.
   */
  function DeleteEvent(db: Db, caller: User, input: DeleteEventInput): (r: Result<Db>)
    ensures r.Ok? <==> EventExists(db, input.id)
    ensures r.Err? ==> r.code == InternalError
    ensures r.Ok? ==>
      && r.value == db.(events := r.value.events, registrations := r.value.registrations)
      && !EventExists(r.value, input.id)
      && (forall i :: 0 <= i < |r.value.registrations| ==> r.value.registrations[i].eventId != input.id)
      && (forall i :: 0 <= i < |db.events| && db.events[i].id != input.id ==> db.events[i] in r.value.events)
      && (forall i :: 0 <= i < |db.registrations| && db.registrations[i].eventId != input.id ==>
            db.registrations[i] in r.value.registrations)
      && (forall i :: 0 <= i < |r.value.events| ==> r.value.events[i] in db.events)
      && (forall i :: 0 <= i < |r.value.registrations| ==> r.value.registrations[i] in db.registrations)
    ensures r.Ok? && Valid(db) ==> Valid(r.value)
  {
    var _ := HasTeamAccess(db, input.teamId, caller);
    if !EventExists(db, input.id) then Err(InternalError)
    else
      var db' := db.(events := Filter(db.events, (e: TeamEvent) => e.id != input.id),
                     registrations := Filter(db.registrations, (g: Registration) => g.eventId != input.id));
      DeleteEventKeepsValid(db, input.id);
      Ok(db')
  }

  lemma DeleteEventKeepsValid(db: Db, id: Id)
    ensures var db' := db.(events := Filter(db.events, (e: TeamEvent) => e.id != id),
                           registrations := Filter(db.registrations, (g: Registration) => g.eventId != id));
      Valid(db) ==> Valid(db')
  {
    var db' := db.(events := Filter(db.events, (e: TeamEvent) => e.id != id),
                   registrations := Filter(db.registrations, (g: Registration) => g.eventId != id));
    if Valid(db) {
      FilterKeysUnique(db.events, (e: TeamEvent) => e.id != id, (e: TeamEvent) => e.id);
      FilterKeysUnique(db.registrations, (g: Registration) => g.eventId != id, (g: Registration) => g.id);
      FilterKeysUnique(db.registrations, (g: Registration) => g.eventId != id, RegistrationKey);
      assert MembersReferenceRows(db');
    }
  }

  /** Anyone signed in can delete any event: the procedure never answers FORBIDDEN. */
  lemma DeleteNeverForbidden(db: Db, caller: User, input: DeleteEventInput)
    requires !caller.isAdmin && !HasMembership(db, caller.id, input.teamId) && EventExists(db, input.id)
    ensures DeleteEvent(db, caller, input).Ok?
  {
  }

  /**
    The delete as evidently intended: only a superadmin or an ADMIN or
    SUBADMIN of the event's own team may delete it.
   */
  function DeleteEventChecked(db: Db, caller: User, input: DeleteEventInput): (r: Result<Db>)
    ensures r.Ok? ==> DeleteEvent(db, caller, input) == r
    ensures !EventExists(db, input.id) ==> r == Err(NotFound)
    ensures r.Ok? ==> FindEvent(db, input.id).Some? && FindEvent(db, input.id).value.teamId == input.teamId
    ensures r.Ok? && MembershipsUnique(db.members) ==>
      caller.isAdmin || HoldsRole(db, caller, FindEvent(db, input.id).value.teamId, Editors)
  {
    match FindEvent(db, input.id)
    case None => Err(NotFound)
    case Some(event) =>
      if event.teamId != input.teamId then Err(NotFound)
      else
        match HasTeamAccessMiddleware(db, caller, event.teamId, Editors)
        case Fail(code) => Err(code)
        case Pass => DeleteEvent(db, caller, input)
  }

  /** An upcoming event the caller has not answered, with its team's name. */
  datatype UnansweredEvent = UnansweredEvent(event: TeamEvent, teamName: string)

  /** The caller is a member of the event's team, it has not started, and the caller has not answered. */
  predicate AwaitsAnswer(db: Db, userId: Id, now: int, e: TeamEvent) {
    HasMembership(db, userId, e.teamId) && e.startAt >= now && !HasRegistration(db, userId, e.id)
  }

  function TeamNameOf(db: Db, teamId: Id): string {
    match FindTeam(db, teamId)
    case Some(t) => t.name
    case None => ""
  }

  function WithTeamNames(db: Db, es: seq<TeamEvent>): (r: seq<UnansweredEvent>)
    ensures |r| == |es| && forall i :: 0 <= i < |es| ==> r[i] == UnansweredEvent(es[i], TeamNameOf(db, es[i].teamId))
  {
    seq(|es|, i requires 0 <= i < |es| => UnansweredEvent(es[i], TeamNameOf(db, es[i].teamId)))
  }

  function EventsOf(us: seq<UnansweredEvent>): (r: seq<TeamEvent>)
    ensures |r| == |us| && forall i :: 0 <= i < |us| ==> r[i] == us[i].event
  {
    seq(|us|, i requires 0 <= i < |us| => us[i].event)
  }

  function AwaitingFor(db: Db, userId: Id, now: int): TeamEvent -> bool {
    (e: TeamEvent) => AwaitsAnswer(db, userId, now, e)
  }

  function StartOf(e: TeamEvent): int {
    e.startAt
  }

  /**
    The get-unanswered procedure: the upcoming events of the caller's teams
    that the caller has not answered, earliest first.
   */
  function GetUnanswered(db: Db, caller: User, now: int): (r: seq<UnansweredEvent>)
    ensures forall i :: 0 <= i < |r| ==> r[i].event in db.events && AwaitsAnswer(db, caller.id, now, r[i].event)
    ensures forall i :: 0 <= i < |db.events| && AwaitsAnswer(db, caller.id, now, db.events[i]) ==>
      exists k :: 0 <= k < |r| && r[k].event == db.events[i]
    ensures forall i, j :: 0 <= i < j < |r| ==> r[i].event.startAt <= r[j].event.startAt
    ensures forall i :: 0 <= i < |r| ==> r[i].teamName == TeamNameOf(db, r[i].event.teamId)
    ensures forall e :: multiset(EventsOf(r))[e] == (if AwaitsAnswer(db, caller.id, now, e) then multiset(db.events)[e] else 0)
  {
    var sorted := SortBy(Filter(db.events, AwaitingFor(db, caller.id, now)), StartOf);
    var r := WithTeamNames(db, sorted);
    UnansweredCount(db, caller.id, now, r);
    UnansweredMembers(db, caller.id, now, r);
    UnansweredOrder(db, sorted, r);
    r
  }

  /** The listed events, with their team names attached, keep each pending event's multiplicity. */
  lemma UnansweredCount(db: Db, userId: Id, now: int, r: seq<UnansweredEvent>)
    requires r == WithTeamNames(db, SortBy(Filter(db.events, AwaitingFor(db, userId, now)), StartOf))
    ensures forall e :: multiset(EventsOf(r))[e] == (if AwaitsAnswer(db, userId, now, e) then multiset(db.events)[e] else 0)
  {
    assert EventsOf(r) == SortBy(Filter(db.events, AwaitingFor(db, userId, now)), StartOf);
    SortedPendingCount(db, userId, now, EventsOf(r));
  }

  /** A listing with the awaiting events' multiplicities lists every awaiting event and nothing else. */
  lemma UnansweredMembers(db: Db, userId: Id, now: int, r: seq<UnansweredEvent>)
    requires forall e :: multiset(EventsOf(r))[e] == (if AwaitsAnswer(db, userId, now, e) then multiset(db.events)[e] else 0)
    ensures forall i :: 0 <= i < |r| ==> r[i].event in db.events && AwaitsAnswer(db, userId, now, r[i].event)
    ensures forall i :: 0 <= i < |db.events| && AwaitsAnswer(db, userId, now, db.events[i]) ==>
      exists k :: 0 <= k < |r| && r[k].event == db.events[i]
  {
    var es := EventsOf(r);
    CountedEvents(db, userId, now, es);
    forall i | 0 <= i < |db.events| && AwaitsAnswer(db, userId, now, db.events[i])
      ensures exists k :: 0 <= k < |r| && r[k].event == db.events[i]
    {
      var k :| 0 <= k < |es| && es[k] == db.events[i];
      assert r[k].event == es[k];
    }
  }

  /** Attaching team names keeps the sorted order and names each event's own team. */
  lemma UnansweredOrder(db: Db, sorted: seq<TeamEvent>, r: seq<UnansweredEvent>)
    requires SortedBy(sorted, StartOf) && r == WithTeamNames(db, sorted)
    ensures forall i, j :: 0 <= i < j < |r| ==> r[i].event.startAt <= r[j].event.startAt
    ensures forall i :: 0 <= i < |r| ==> r[i].teamName == TeamNameOf(db, r[i].event.teamId)
  {
    forall i, j | 0 <= i < j < |r|
      ensures r[i].event.startAt <= r[j].event.startAt
    {
      assert StartOf(sorted[i]) <= StartOf(sorted[j]);
    }
  }

  /** A list holding each awaiting event as often as it is stored holds exactly the awaiting events. */
  lemma CountedEvents(db: Db, userId: Id, now: int, es: seq<TeamEvent>)
    requires forall e :: multiset(es)[e] == (if AwaitsAnswer(db, userId, now, e) then multiset(db.events)[e] else 0)
    ensures forall i :: 0 <= i < |es| ==> es[i] in db.events && AwaitsAnswer(db, userId, now, es[i])
    ensures forall i :: 0 <= i < |db.events| && AwaitsAnswer(db, userId, now, db.events[i]) ==> db.events[i] in es
  {
    forall i | 0 <= i < |es|
      ensures es[i] in db.events && AwaitsAnswer(db, userId, now, es[i])
    {
      assert es[i] in multiset(es);
    }
    forall i | 0 <= i < |db.events| && AwaitsAnswer(db, userId, now, db.events[i])
      ensures db.events[i] in es
    {
      assert db.events[i] in multiset(db.events);
    }
  }

  /** Each event awaiting an answer is pending as often as it is stored; no other event is. */
  lemma PendingCount(db: Db, userId: Id, now: int, pending: seq<TeamEvent>)
    requires pending == Filter(db.events, AwaitingFor(db, userId, now))
    ensures forall e :: multiset(pending)[e] == if AwaitsAnswer(db, userId, now, e) then multiset(db.events)[e] else 0
  {
    forall e
      ensures multiset(pending)[e] == if AwaitsAnswer(db, userId, now, e) then multiset(db.events)[e] else 0
    {
      FilterCount(db.events, AwaitingFor(db, userId, now), e);
    }
  }

  /** Sorting the pending events keeps how often each one appears. */
  lemma SortedPendingCount(db: Db, userId: Id, now: int, sorted: seq<TeamEvent>)
    requires sorted == SortBy(Filter(db.events, AwaitingFor(db, userId, now)), StartOf)
    ensures forall e :: multiset(sorted)[e] == (if AwaitsAnswer(db, userId, now, e) then multiset(db.events)[e] else 0)
  {
    PendingCount(db, userId, now, Filter(db.events, AwaitingFor(db, userId, now)));
  }

  /** Answering an event, either way, removes it from the caller's unanswered list. */
  lemma AnsweringRemovesFromUnanswered(db: Db, caller: User, now: int, e: TeamEvent, g: Registration)
    requires IsRegistration(g, caller.id, e.id)
    ensures var db' := db.(registrations := db.registrations + [g]);
      forall i :: 0 <= i < |GetUnanswered(db', caller, now)| ==> GetUnanswered(db', caller, now)[i].event != e
  {
    var db' := db.(registrations := db.registrations + [g]);
    assert db'.registrations[|db.registrations|] == g;
    assert HasRegistration(db', caller.id, e.id);
  }

  /** The shape the calendar components read: the start as `datetime`, the type as `type`. */
  datatype EventSummary = EventSummary(
    id: Id,
    name: string,
    datetime: int,
    eventType: EventType,
    location: Option<string>,
    note: Option<string>)

  function Summary(e: TeamEvent): EventSummary {
    EventSummary(e.id, e.name, e.startAt, e.eventType, e.location, e.note)
  }

  function Summaries(es: seq<TeamEvent>): (r: seq<EventSummary>)
    ensures |r| == |es| && forall i :: 0 <= i < |es| ==> r[i] == Summary(es[i])
  {
    seq(|es|, i requires 0 <= i < |es| => Summary(es[i]))
  }

  /** `getAllEventsByTeamId`: the team's events, earliest first, projected to summaries. */
  function GetAllEventsByTeamId(db: Db, teamId: Id): (r: seq<EventSummary>)
    ensures |r| == |TeamEvents(db, teamId)|
    ensures forall i :: 0 <= i < |r| ==>
      exists k :: 0 <= k < |db.events| && db.events[k].teamId == teamId && Summary(db.events[k]) == r[i]
    ensures forall k :: 0 <= k < |db.events| && db.events[k].teamId == teamId ==> Summary(db.events[k]) in r
    ensures forall i, j :: 0 <= i < j < |r| ==> r[i].datetime <= r[j].datetime
  {
    TeamSummaries(db, teamId);
    Summaries(SortBy(TeamEvents(db, teamId), StartOf))
  }

  lemma TeamSummaries(db: Db, teamId: Id)
    ensures var r := Summaries(SortBy(TeamEvents(db, teamId), StartOf));
      && (forall i :: 0 <= i < |r| ==>
            exists k :: 0 <= k < |db.events| && db.events[k].teamId == teamId && Summary(db.events[k]) == r[i])
      && (forall k :: 0 <= k < |db.events| && db.events[k].teamId == teamId ==> Summary(db.events[k]) in r)
      && (forall i, j :: 0 <= i < j < |r| ==> r[i].datetime <= r[j].datetime)
  {
    var evs := TeamEvents(db, teamId);
    var sorted := SortBy(evs, StartOf);
    SortByElements(evs, StartOf);
    var r := Summaries(sorted);
    forall i | 0 <= i < |r|
      ensures exists k :: 0 <= k < |db.events| && db.events[k].teamId == teamId && Summary(db.events[k]) == r[i]
    {
      var m :| 0 <= m < |evs| && evs[m] == sorted[i];
      var k :| 0 <= k < |db.events| && db.events[k] == evs[m];
      assert Summary(db.events[k]) == r[i];
    }
    forall k | 0 <= k < |db.events| && db.events[k].teamId == teamId
      ensures Summary(db.events[k]) in r
    {
      var m :| 0 <= m < |evs| && evs[m] == db.events[k];
      var i :| 0 <= i < |sorted| && sorted[i] == evs[m];
      assert r[i] == Summary(db.events[k]);
    }
  }
}

=== FILE: form_input.dfy ===
/**
  The length limit of the form text input (src/components/form/input.tsx).

  Lengths count Dafny characters; JavaScript counts UTF-16 code units, so
  the two agree for text without characters outside the Basic
  Multilingual Plane.
 */
module FormInput {
  import opened Wrappers
  import Strings

  /**
    A field's current value as `getCurrentLength` distinguishes it. A
    number field holds what `Number.parseInt` returns: an integer or NaN.
   */
  datatype FieldValue = Text(s: string) | Number(n: int) | NotANumber | Other

  predicate Numeric(inputType: Option<string>) {
    inputType == Some("number") || inputType == Some("decimal") || inputType == Some("phone")
  }

  /** `maxLength && type !== "number" && type !== "decimal" && type !== "phone"`; a zero limit is falsy. */
  predicate Limited(maxLength: Option<int>, inputType: Option<string>) {
    maxLength.Some? && maxLength.value != 0 && !Numeric(inputType)
  }

  function Max(a: int, b: int): int {
    if a >= b then a else b
  }

  /** `s.slice(0, end)`: a negative end counts back from the end of the string. */
  function SlicePrefix(s: string, end: int): (r: string)
    ensures r <= s
    ensures end >= 0 ==> |r| == if end <= |s| then end else |s|
    ensures end < 0 ==> |r| == Max(|s| + end, 0)
  {
    if end >= 0 then (if end <= |s| then s[..end] else s)
    else if |s| + end >= 0 then s[..|s| + end]
    else []
  }

  /** `handleChange`: the value kept after a keystroke. */
  function Truncate(value: string, maxLength: Option<int>, inputType: Option<string>): (r: string)
    ensures r <= value
    ensures !Limited(maxLength, inputType) ==> r == value
    ensures Limited(maxLength, inputType) && maxLength.value > 0 ==>
      |r| == if |value| <= maxLength.value then |value| else maxLength.value
  {
    if Limited(maxLength, inputType) && |value| > maxLength.value then SlicePrefix(value, maxLength.value)
    else value
  }

  /** A value already within a positive limit is kept as it is. */
  lemma ShortValueUnchanged(value: string, maxLength: Option<int>, inputType: Option<string>)
    requires maxLength.Some? && |value| <= maxLength.value
    ensures Truncate(value, maxLength, inputType) == value
  {
  }

  /** Truncation is idempotent. */
  lemma TruncateIdempotent(value: string, m: int, inputType: Option<string>)
    requires m > 0
    ensures Truncate(Truncate(value, Some(m), inputType), Some(m), inputType) == Truncate(value, Some(m), inputType)
  {
  }

  /** The longest run of decimal digits at the front of `s`. */
  function DigitPrefix(s: string): (r: string)
    ensures r <= s && Strings.AllDigits(r)
    ensures |r| < |s| ==> !Strings.IsDigit(s[|r|])
    decreases |s|
  {
    if |s| > 0 && Strings.IsDigit(s[0]) then [s[0]] + DigitPrefix(s[1..]) else []
  }

  /** A string of digits is its own digit prefix. */
  lemma {:induction false} DigitPrefixAll(s: string)
    requires Strings.AllDigits(s)
    ensures DigitPrefix(s) == s
    decreases |s|
  {
    if |s| > 0 {
      DigitPrefixAll(s[1..]);
    }
  }

  /**
    `Number.parseInt(s)` without a radix: leading white space is skipped, a
    sign is read, and the digits that follow are read up to the first
    non-digit; with no digit there the result is NaN.
   */
  function ParseInt(s: string): (r: FieldValue)
    ensures r.Number? || r.NotANumber?
    ensures Strings.IsBlank(s) ==> r == NotANumber
    ensures |s| > 0 && Strings.AllDigits(s) ==> r == Number(Strings.DigitsValue(s))
  {
    var t := Strings.TrimStart(s);
    assert Strings.IsBlank(s) ==> t == [] by {
      Strings.TrimStartEmptyIffBlank(s);
    }
    assert Strings.AllDigits(s) ==> DigitPrefix(s) == s by {
      if Strings.AllDigits(s) {
        DigitPrefixAll(s);
      }
    }
    var negative := |t| > 0 && t[0] == '-';
    var body := if |t| > 0 && (t[0] == '-' || t[0] == '+') then t[1..] else t;
    var digits := DigitPrefix(body);
    if |digits| == 0 then NotANumber
    else if negative then Number(-(Strings.DigitsValue(digits) as int))
    else Number(Strings.DigitsValue(digits))
  }

  /** Reading back a printed integer gives the integer. */
  lemma ParseIntRoundTrip(i: int)
    ensures ParseInt(Strings.IntToString(i)) == Number(i)
  {
    if i < 0 {
      ParseIntNegative(-i);
    } else {
      var d := Strings.NatToString(i);
      Strings.NatToStringRoundTrip(i);
      assert Strings.AllDigits(d);
    }
  }

  lemma ParseIntNegative(n: nat)
    requires n > 0
    ensures ParseInt("-" + Strings.NatToString(n)) == Number(-(n as int))
  {
    var d := Strings.NatToString(n);
    var s := "-" + d;
    assert Strings.TrimStart(s) == s;
    assert s[1..] == d;
    Strings.NatToStringRoundTrip(n);
    DigitPrefixAll(d);
  }

  /** `handleChange`: what the form stores for the kept value; a number field stores the parsed integer. */
  function StoredValue(kept: string, inputType: Option<string>): (r: FieldValue)
    ensures inputType == Some("number") ==> r.Number? || r.NotANumber?
    ensures inputType != Some("number") ==> r == Text(kept)
  {
    if inputType == Some("number") then ParseInt(kept) else Text(kept)
  }

  /** `getCurrentLength`: NaN prints as "NaN", three characters. */
  function CurrentLength(v: FieldValue): (r: nat)
    ensures v.Text? ==> r == |v.s|
    ensures v.Number? ==> r == |Strings.IntToString(v.n)|
    ensures v.NotANumber? ==> r == 3
    ensures v.Other? ==> r == 0
  {
    match v
    case Text(s) => |s|
    case Number(n) => |Strings.IntToString(n)|
    case NotANumber => |"NaN"|
    case Other => 0
  }

  /** A cleared number field holds NaN, whose length is three; a cleared text field has length zero. */
  lemma ClearedFieldLength()
    ensures CurrentLength(StoredValue("", Some("number"))) == 3
    ensures CurrentLength(StoredValue("", Some("text"))) == 0
  {
    assert Strings.IsBlank("");
  }

  /** A number field holding an integer reports the length of its decimal form, sign included. */
  lemma NumberFieldLength(i: int)
    ensures CurrentLength(StoredValue(Strings.IntToString(i), Some("number"))) == |Strings.IntToString(i)|
  {
    ParseIntRoundTrip(i);
  }

  /** `showCounter`: the same condition as the truncation. */
  predicate ShowCounter(maxLength: Option<int>, inputType: Option<string>) {
    maxLength.Some? && maxLength.value != 0
    && inputType != Some("phone") && inputType != Some("number") && inputType != Some("decimal")
  }

  predicate Highlighted(v: FieldValue, maxLength: int) {
    CurrentLength(v) >= maxLength
  }

  /**
    Where a counter is shown under a positive limit, the typed text never
    exceeds the limit, and the counter is highlighted exactly when the
    text has reached it.
   */
  lemma CounterAfterTyping(value: string, m: int, inputType: Option<string>)
    requires m > 0 && ShowCounter(Some(m), inputType)
    ensures var kept := Text(Truncate(value, Some(m), inputType));
      && CurrentLength(kept) <= m
      && (Highlighted(kept, m) <==> |value| >= m)
  {
  }

  /** The rendered input type: "decimal" renders as "number", no type as "text". */
  function RenderedType(inputType: Option<string>): (r: string)
    ensures inputType == Some("decimal") ==> r == "number"
    ensures inputType.None? ==> r == "text"
    ensures inputType.Some? && inputType.value != "decimal" ==> r == inputType.value
  {
    match inputType
    case None => "text"
    case Some(t) => if t == "decimal" then "number" else t
  }
}

=== FILE: navigation.dfy ===
/**
  The page navigation buttons (src/components/navigation/navigation.tsx).

  A handler either pushes new query parameters or does nothing; the
  pathname is unchanged, so only the parameters are modelled.
 */
module Navigation {
  import opened Wrappers
  import opened QueryParams
  import Strings
  import Paging

  /** `!nextPage || page === totalPages`: a null and a zero next page are both falsy. */
  predicate NextDisabled(page: int, nextPage: Option<int>, totalPages: int) {
    nextPage.None? || nextPage.value == 0 || page == totalPages
  }

  predicate PrevDisabled(page: int) {
    page <= 1
  }

  /** The default next handler: the parameters it pushes, or nothing. */
  function DefaultNext(ps: Params, page: int, nextPage: Option<int>, totalPages: int): (r: Option<Params>)
    ensures r.None? <==> NextDisabled(page, nextPage, totalPages)
    ensures r.Some? ==> Get(r.value, "page") == Some(Strings.IntToString(nextPage.value))
    ensures r.Some? ==> forall k :: k != "page" ==> Get(r.value, k) == Get(ps, k)
  {
    if nextPage.None? || nextPage.value == 0 || page == totalPages then None
    else
      SetKeepsAllOthers(ps, "page", Strings.IntToString(nextPage.value));
      Some(Set(ps, "page", Strings.IntToString(nextPage.value)))
  }

  /** The default previous handler. */
  function DefaultPrev(ps: Params, page: int): (r: Option<Params>)
    ensures r.None? <==> PrevDisabled(page)
    ensures r.Some? ==> Get(r.value, "page") == Some(Strings.IntToString(page - 1))
    ensures r.Some? ==> forall k :: k != "page" ==> Get(r.value, k) == Get(ps, k)
  {
    if page <= 1 then None
    else
      SetKeepsAllOthers(ps, "page", Strings.IntToString(page - 1));
      Some(Set(ps, "page", Strings.IntToString(page - 1)))
  }

  /**
    With a page the listing produced, an enabled Next button leads to a
    page that has rows: the full last page's empty successor is unreachable.
   */
  lemma NextLeadsToRows<T>(ordered: seq<T>, page: int, size: nat)
    requires size > 0 && page >= 1 && Paging.Paginate(ordered, Some(page), size).Ok?
    requires var r := Paging.Paginate(ordered, Some(page), size).value;
      !NextDisabled(page, r.nextPage, r.totalPages)
    ensures var r := Paging.Paginate(ordered, Some(page), size).value;
      && Paging.Paginate(ordered, Some(r.nextPage.value), size).Ok?
      && |Paging.Paginate(ordered, Some(r.nextPage.value), size).value.rows| > 0
  {
    var r := Paging.Paginate(ordered, Some(page), size).value;
    Paging.NextPageAgreesWithTotal(ordered, Some(page), size);
    var t := r.totalPages;
    assert page < t;
    Paging.MulMono(page, t - 1, size);
    var k := page * size;
    Paging.MulDiv(page, size);
    Paging.PagesCover(ordered, size, k);
  }
}

=== FILE: paging.dfy ===
/**
  Paginated listings (src/services/membership.ts, src/services/user.ts).

  Both listings take an optional page number, filter, order by creation
  time newest first, and cut one page out with `skip`/`take`. A page that
  is absent, zero or not a number is the first page. The store refuses a
  negative `skip`, which a negative page number produces.
 */
module Paging {
  import opened Wrappers
  import opened Sequences
  import opened Store
  import Strings

  const MembershipPageSize: nat := 20
  const UserPageSize: nat := 25

  /** `page || 1`. */
  function QueryPage(page: Option<int>): (r: int)
    ensures r != 0
    ensures page.Some? && page.value != 0 ==> r == page.value
    ensures page.None? || page.value == 0 ==> r == 1
  {
    if page.None? || page.value == 0 then 1 else page.value
  }

  /** `Math.ceil(n / d)` for a count `n`. */
  function CeilDiv(n: nat, d: nat): (r: nat)
    requires d > 0
    ensures r * d >= n
    ensures r > 0 ==> (r - 1) * d < n
    ensures r == 0 <==> n == 0
  {
    var q := (n + d - 1) / d;
    assert q * d + (n + d - 1) % d == n + d - 1;
    assert (q - 1) * d == q * d - d;
    q
  }

  function Min(a: nat, b: nat): nat {
    if a <= b then a else b
  }

  /** `skip`/`take` over the ordered rows. */
  function Window<T>(rows: seq<T>, skip: nat, take: nat): (r: seq<T>)
    ensures |r| == if skip >= |rows| then 0 else Min(take, |rows| - skip)
    ensures forall i :: 0 <= i < |r| ==> r[i] == rows[skip + i]
  {
    if skip >= |rows| then []
    else if skip + take <= |rows| then rows[skip..skip + take]
    else rows[skip..]
  }

  /** One page of a listing, the next page number (or null) and the page count. */
  datatype Page<T> = Page(rows: seq<T>, nextPage: Option<int>, totalPages: nat)

  /**
    `p` is page `queryPage` of `ordered`: at most `size` rows, the rows from
    `skip = (queryPage - 1) * size` on, full whenever enough rows remain,
    and a next page `queryPage + 1` exactly when the page is full.
   */
  ghost predicate WindowPage<T>(ordered: seq<T>, queryPage: int, size: nat, p: Page<T>) {
    var skip := (queryPage - 1) * size;
    && |p.rows| <= size
    && (forall i :: 0 <= i < |p.rows| ==> 0 <= skip + i < |ordered| && p.rows[i] == ordered[skip + i])
    && (skip + size <= |ordered| ==> |p.rows| == size)
    && (p.nextPage.Some? <==> |p.rows| == size)
    && (p.nextPage.Some? ==> p.nextPage.value == queryPage + 1)
  }

  /**
    The page arithmetic both listings share: `skip = (page - 1) * size`,
    `take = size`, a next page exactly when this page is full, and the
    ceiling of the filtered count over the page size.
   */
  function Paginate<T>(ordered: seq<T>, page: Option<int>, size: nat): (r: Result<Page<T>>)
    requires size > 0
    ensures r.Err? <==> QueryPage(page) < 1
    ensures r.Err? ==> r.code == InternalError
    ensures r.Ok? ==>
      && (QueryPage(page) - 1) * size >= 0
      && WindowPage(ordered, QueryPage(page), size, r.value)
      && r.value.totalPages * size >= |ordered|
      && (r.value.totalPages > 0 ==> (r.value.totalPages - 1) * size < |ordered|)
  {
    var queryPage := QueryPage(page);
    var skip := (queryPage - 1) * size;
    if skip < 0 then
      Err(InternalError)
    else
      var rows := Window(ordered, skip, size);
      Ok(Page(rows, if |rows| == size then Some(queryPage + 1) else None, CeilDiv(|ordered|, size)))
  }

  /** Every row sits on page `k / size + 1`, at position `k % size`, and that page exists. */
  lemma PagesCover<T>(ordered: seq<T>, size: nat, k: nat)
    requires size > 0 && k < |ordered|
    ensures var r := Paginate(ordered, Some(k / size + 1), size);
      && r.Ok?
      && k / size + 1 <= r.value.totalPages
      && k % size < |r.value.rows|
      && r.value.rows[k % size] == ordered[k]
  {
    var j := k / size;
    var o := k % size;
    assert j * size + o == k;
    assert QueryPage(Some(j + 1)) == j + 1;
    assert (j + 1 - 1) * size == j * size;
    var r := Paginate(ordered, Some(j + 1), size);
    assert r.Ok?;
    assert |r.value.rows| == Min(size, |ordered| - j * size) by {
      assert |r.value.rows| == |Window(ordered, j * size, size)|;
    }
    assert r.value.rows[o] == ordered[j * size + o];
    var t := r.value.totalPages;
    if t < j + 1 {
      MulMono(t, j, size);
    }
  }

  /** Every row of the listing is on some page. */
  lemma OnSomePage<T>(ordered: seq<T>, size: nat, x: T) returns (n: int)
    requires size > 0 && x in ordered
    ensures n >= 1 && Paginate(ordered, Some(n), size).Ok? && x in Paginate(ordered, Some(n), size).value.rows
  {
    var k :| 0 <= k < |ordered| && ordered[k] == x;
    var j: nat := k / size;
    PagesCover(ordered, size, k);
    n := j + 1;
  }

  lemma MulMono(a: nat, b: nat, d: nat)
    requires a <= b
    ensures a * d <= b * d
  {
    assert b * d == a * d + (b - a) * d;
  }

  /** Division undoes multiplication. */
  lemma MulDiv(a: nat, d: nat)
    requires d > 0
    ensures (a * d) / d == a
  {
    var q := (a * d) / d;
    var m := (a * d) % d;
    assert q * d + m == a * d;
    assert (q + 1) * d == q * d + d && (a + 1) * d == a * d + d;
    if q < a {
      MulMono(q + 1, a, d);
    } else if q > a {
      MulMono(a + 1, q, d);
    }
  }

  /** A full page lies within the page count; a short page is the last one or beyond it. */
  lemma NextPageAgreesWithTotal<T>(ordered: seq<T>, page: Option<int>, size: nat)
    requires size > 0 && Paginate(ordered, page, size).Ok?
    ensures var r := Paginate(ordered, page, size).value;
      && (r.nextPage.Some? ==> QueryPage(page) <= r.totalPages)
      && (r.nextPage.None? ==> QueryPage(page) >= r.totalPages)
  {
    var r := Paginate(ordered, page, size).value;
    var q := QueryPage(page);
    var t := r.totalPages;
    var n := |ordered|;
    var skip := (q - 1) * size;
    assert q >= 1;
    assert q * size == skip + size;
    if r.nextPage.Some? {
      assert skip + size <= n;
      if q > t {
        MulMono(t + 1, q, size);
      }
    } else {
      assert skip + size > n;
      if q < t {
        MulMono(q, t - 1, size);
      }
    }
  }

  /**
    When the count is an exact multiple of the page size, the last page is
    full, so it still offers a next page, which is empty.
   */
  lemma FullLastPageOffersEmptyNext<T>(ordered: seq<T>, size: nat, m: nat)
    requires size > 0 && m >= 1 && |ordered| == m * size
    ensures Paginate(ordered, Some(m), size).Ok?
    ensures Paginate(ordered, Some(m), size).value.nextPage == Some(m + 1)
    ensures Paginate(ordered, Some(m + 1), size).Ok? && Paginate(ordered, Some(m + 1), size).value.rows == []
  {
    assert (m - 1) * size + size == m * size;
    assert QueryPage(Some(m)) == m && QueryPage(Some(m + 1)) == m + 1;
    assert ((m + 1) - 1) * size == m * size;
  }

  // ---------------------------------------------------------------------
  // getTeamMemberships

  /** `search && { user: { name: { contains: search, mode: "insensitive" } } }`. */
  function NameMatches(db: Db, search: Option<string>): Membership -> bool {
    (m: Membership) => search.None? || search.value == "" || Strings.ContainsInsensitive(NameOf(db, m.userId), search.value)
  }

  function MemberNewestFirst(m: Membership): int {
    0 - m.createdAt
  }

  /** The members of the team that the search keeps; the count uses the same filter. */
  function MatchingMembers(db: Db, teamId: Id, search: Option<string>): (r: seq<Membership>)
    ensures forall i :: 0 <= i < |r| ==> r[i] in db.members && r[i].teamId == teamId && NameMatches(db, search)(r[i])
    ensures forall i :: 0 <= i < |db.members| && db.members[i].teamId == teamId && NameMatches(db, search)(db.members[i]) ==>
      db.members[i] in r
  {
    var ms := TeamMembers(db, teamId);
    var r := Filter(ms, NameMatches(db, search));
    assert forall i :: 0 <= i < |db.members| && db.members[i].teamId == teamId ==> db.members[i] in ms;
    r
  }

  /** `getTeamMemberships`: a page of the team's matching members, newest first, 20 to a page. */
  function GetTeamMemberships(db: Db, teamId: Id, page: Option<int>, search: Option<string>): (r: Result<Page<Membership>>)
    ensures r.Ok? ==>
      && |r.value.rows| <= MembershipPageSize
      && (forall i :: 0 <= i < |r.value.rows| ==>
            r.value.rows[i] in db.members && r.value.rows[i].teamId == teamId && NameMatches(db, search)(r.value.rows[i]))
      && (forall i, j :: 0 <= i < j < |r.value.rows| ==> r.value.rows[i].createdAt >= r.value.rows[j].createdAt)
      && r.value.totalPages == CeilDiv(|MatchingMembers(db, teamId, search)|, MembershipPageSize)
    ensures r.Ok? ==> WindowPage(SortBy(MatchingMembers(db, teamId, search), MemberNewestFirst), QueryPage(page), MembershipPageSize, r.value)
    ensures r.Err? <==> QueryPage(page) < 1
  {
    var matching := MatchingMembers(db, teamId, search);
    var ordered := SortBy(matching, MemberNewestFirst);
    SortByElements(matching, MemberNewestFirst);
    Paginate(ordered, page, MembershipPageSize)
  }

  /** Paging loses nobody: every matching member is on page `k / 20 + 1` for its place `k` in the order. */
  lemma EveryMemberListed(db: Db, teamId: Id, search: Option<string>, m: Membership)
    requires m in MatchingMembers(db, teamId, search)
    ensures exists n :: n >= 1 && GetTeamMemberships(db, teamId, Some(n), search).Ok?
                        && m in GetTeamMemberships(db, teamId, Some(n), search).value.rows
  {
    var matching := MatchingMembers(db, teamId, search);
    var ordered := SortBy(matching, MemberNewestFirst);
    SortByElements(matching, MemberNewestFirst);
    var n := OnSomePage(ordered, MembershipPageSize, m);
    assert GetTeamMemberships(db, teamId, Some(n), search) == Paginate(ordered, Some(n), MembershipPageSize);
  }

  /** An absent or empty search keeps every member of the team. */
  lemma EmptySearchKeepsAll(db: Db, teamId: Id)
    ensures MatchingMembers(db, teamId, Some("")) == TeamMembers(db, teamId)
    ensures MatchingMembers(db, teamId, None) == TeamMembers(db, teamId)
  {
    FilterAll(TeamMembers(db, teamId), NameMatches(db, Some("")));
    FilterAll(TeamMembers(db, teamId), NameMatches(db, None));
  }

  /** `getTeamMembershipsCount`: under the unique constraint, the number of distinct users in the team. */
  lemma TeamMembershipsCountIsUsers(db: Db, teamId: Id)
    requires MembershipsUnique(db.members)
    ensures |TeamMembers(db, teamId)| == |KeySet(TeamMembers(db, teamId), (m: Membership) => m.userId)|
  {
    TeamMembersDistinctUsers(db, teamId);
    DistinctKeysCard(TeamMembers(db, teamId), (m: Membership) => m.userId);
  }

  /** `getDistinctMembersCount`: the number of distinct user ids among memberships. */
  function DistinctMembersCount(db: Db): (r: nat)
    ensures r <= |db.members|
    ensures r == 0 <==> |db.members| == 0
    ensures Valid(db) ==> r <= |db.users|
  {
    KeySetBound(db.members, (m: Membership) => m.userId);
    KeySetNonEmpty(db.members, (m: Membership) => m.userId);
    MemberUsersBound(db);
    |KeySet(db.members, (m: Membership) => m.userId)|
  }

  lemma KeySetNonEmpty<T, K>(s: seq<T>, key: T -> K)
    ensures |KeySet(s, key)| == 0 <==> |s| == 0
  {
    if |s| > 0 {
      assert key(s[0]) in KeySet(s, key);
    }
  }

  lemma {:induction false} KeySetBound<T, K>(s: seq<T>, key: T -> K)
    ensures |KeySet(s, key)| <= |s|
    decreases |s|
  {
    if |s| > 0 {
      KeySetBound(s[1..], key);
      assert KeySet(s, key) == {key(s[0])} + KeySet(s[1..], key) by {
        forall x | x in KeySet(s, key) ensures x in {key(s[0])} + KeySet(s[1..], key) {
          var i :| 0 <= i < |s| && key(s[i]) == x;
          if i > 0 {
            assert s[1..][i - 1] == s[i];
          }
        }
        forall x | x in KeySet(s[1..], key) ensures x in KeySet(s, key) {
          var i :| 0 <= i < |s[1..]| && key(s[1..][i]) == x;
          assert s[i + 1] == s[1..][i];
        }
      }
    }
  }

  lemma MemberUsersBound(db: Db)
    ensures Valid(db) ==> |KeySet(db.members, (m: Membership) => m.userId)| <= |db.users|
  {
    if Valid(db) {
      var ids := KeySet(db.members, (m: Membership) => m.userId);
      var users := KeySet(db.users, (u: User) => u.id);
      forall x | x in ids ensures x in users {
        var i :| 0 <= i < |db.members| && db.members[i].userId == x;
        assert UserExists(db, x);
        var k :| 0 <= k < |db.users| && db.users[k].id == x;
      }
      SubsetCard(ids, users);
      DistinctKeysCard(db.users, (u: User) => u.id);
    }
  }

  /** `getTeamMembershipRoles`: the roles of the caller's memberships in the team. */
  function GetTeamMembershipRoles(db: Db, userId: Id, teamId: Id): (r: seq<TeamRole>)
    ensures |r| == 0 <==> !HasMembership(db, userId, teamId)
    ensures MembershipsUnique(db.members) ==> |r| <= 1
    ensures MembershipsUnique(db.members) && HasMembership(db, userId, teamId) ==>
      r == [FindMembership(db, userId, teamId).value.role]
  {
    var ms := Filter(db.members, MembershipOf(userId, teamId));
    RolesOfPair(db, userId, teamId);
    seq(|ms|, i requires 0 <= i < |ms| => ms[i].role)
  }

  lemma RolesOfPair(db: Db, userId: Id, teamId: Id)
    ensures var ms := Filter(db.members, MembershipOf(userId, teamId));
      && (|ms| == 0 <==> !HasMembership(db, userId, teamId))
      && (MembershipsUnique(db.members) ==> |ms| <= 1)
      && (MembershipsUnique(db.members) && HasMembership(db, userId, teamId) ==>
            ms == [FindMembership(db, userId, teamId).value])
  {
    var p := MembershipOf(userId, teamId);
    if HasMembership(db, userId, teamId) {
      var i :| 0 <= i < |db.members| && IsMembership(db.members[i], userId, teamId);
      FilterNonEmpty(db.members, i, p);
      if MembershipsUnique(db.members) {
        UniquePairRow(db, userId, teamId, i);
      }
    } else {
      FilterNone(db.members, p);
    }
  }

  /** Under unique pairs, the pair's filter is the one row `FindMembership` returns. */
  lemma UniquePairRow(db: Db, userId: Id, teamId: Id, i: nat)
    requires MembershipsUnique(db.members) && i < |db.members| && IsMembership(db.members[i], userId, teamId)
    ensures Filter(db.members, MembershipOf(userId, teamId)) == [FindMembership(db, userId, teamId).value]
  {
    var p := MembershipOf(userId, teamId);
    var ms := Filter(db.members, p);
    FilterNonEmpty(db.members, i, p);
    FilterSingleKey(db.members, p, MembershipKey, (userId, teamId));
    FindMembershipUnique(db, userId, teamId, i);
    assert ms[0] in db.members && p(ms[0]);
    var j :| 0 <= j < |db.members| && db.members[j] == ms[0];
    assert j == i;
  }

  // ---------------------------------------------------------------------
  // listUsers

  /** One word occurs, case-insensitively, in the email or the name. */
  predicate WordMatches(u: User, word: string) {
    Strings.ContainsInsensitive(u.email, word) || Strings.ContainsInsensitive(u.name, word)
  }

  function Words(search: string): (r: seq<string>)
    ensures |r| > 0
  {
    Strings.Split(Strings.Trim(search), " ")
  }

  /**
    The search filter: none for an absent or empty search; with more than
    one space-separated word after trimming, every word must occur; with
    one word, the untrimmed search string must occur.
   */
  predicate UserMatches(u: User, search: Option<string>) {
    if search.None? || |search.value| == 0 then true
    else
      var words := Words(search.value);
      if |words| > 1 then forall k :: 0 <= k < |words| ==> WordMatches(u, words[k])
      else WordMatches(u, search.value)
  }

  function UserMatcher(search: Option<string>): User -> bool {
    (u: User) => UserMatches(u, search)
  }

  function UserNewestFirst(u: User): int {
    0 - u.createdAt
  }

  function MatchingUsers(db: Db, search: Option<string>): (r: seq<User>)
    ensures forall i :: 0 <= i < |r| ==> r[i] in db.users && UserMatches(r[i], search)
    ensures forall i :: 0 <= i < |db.users| && UserMatches(db.users[i], search) ==> db.users[i] in r
  {
    Filter(db.users, UserMatcher(search))
  }

  /** `listUsers`: a page of the matching users, newest first, 25 to a page. */
  function ListUsers(db: Db, page: Option<int>, search: Option<string>): (r: Result<Page<User>>)
    ensures r.Ok? ==>
      && |r.value.rows| <= UserPageSize
      && (forall i :: 0 <= i < |r.value.rows| ==> r.value.rows[i] in db.users && UserMatches(r.value.rows[i], search))
      && (forall i, j :: 0 <= i < j < |r.value.rows| ==> r.value.rows[i].createdAt >= r.value.rows[j].createdAt)
      && r.value.totalPages == CeilDiv(|MatchingUsers(db, search)|, UserPageSize)
    ensures r.Ok? ==> WindowPage(SortBy(MatchingUsers(db, search), UserNewestFirst), QueryPage(page), UserPageSize, r.value)
    ensures r.Err? <==> QueryPage(page) < 1
  {
    var matching := MatchingUsers(db, search);
    var ordered := SortBy(matching, UserNewestFirst);
    SortByElements(matching, UserNewestFirst);
    Paginate(ordered, page, UserPageSize)
  }

  /** Paging loses nobody: every matching user is on page `k / 25 + 1` for its place `k` in the order. */
  lemma EveryUserListed(db: Db, search: Option<string>, u: User)
    requires u in MatchingUsers(db, search)
    ensures exists n :: n >= 1 && ListUsers(db, Some(n), search).Ok? && u in ListUsers(db, Some(n), search).value.rows
  {
    var matching := MatchingUsers(db, search);
    var ordered := SortBy(matching, UserNewestFirst);
    SortByElements(matching, UserNewestFirst);
    var n := OnSomePage(ordered, UserPageSize, u);
    assert ListUsers(db, Some(n), search) == Paginate(ordered, Some(n), UserPageSize);
  }

  /** An absent or empty search lists every user. */
  lemma EmptyUserSearchKeepsAll(db: Db)
    ensures MatchingUsers(db, None) == db.users && MatchingUsers(db, Some("")) == db.users
  {
    FilterAll(db.users, UserMatcher(None));
    FilterAll(db.users, UserMatcher(Some("")));
  }

  /** Two words: a user matches only when both occur, each in the email or the name. */
  lemma TwoWordsNeedBoth(u: User, a: string, b: string)
    requires |a| > 0 && |b| > 0
    requires forall k :: 0 <= k < |a| ==> !Strings.IsJsWhitespace(a[k])
    requires forall k :: 0 <= k < |b| ==> !Strings.IsJsWhitespace(b[k])
    ensures UserMatches(u, Some(a + " " + b)) <==> WordMatches(u, a) && WordMatches(u, b)
  {
    var s := a + " " + b;
    assert s[0] == a[0] && s[|s| - 1] == b[|b| - 1];
    TrimNonBlankEnds(s);
    Strings.SplitPair(a, b, ' ');
    assert Words(s) == [a, b];
    assert Words(s)[0] == a && Words(s)[1] == b;
  }

  lemma TrimNonBlankEnds(s: string)
    requires |s| > 0 && !Strings.IsJsWhitespace(s[0]) && !Strings.IsJsWhitespace(s[|s| - 1])
    ensures Strings.Trim(s) == s
  {
  }
}

=== FILE: prompts.dfy ===
/**
  When the install prompt (src/components/pwa-install-prompt.tsx) and the
  notification prompt (src/components/notification-prompt.tsx) open, and
  what their buttons write. Each effect's delay before opening (2 s and
  1 s) is not modelled: "opens" means the timer is started.
 */
module Prompts {
  import opened Wrappers
  import Strings
  import Cookies

  const InstallCookie := "pwa-install-prompt-shown"
  const NotificationCookie := "notification-prompt-shown"

  lemma CookieNamesOk()
    ensures Cookies.NameOk(InstallCookie) && Cookies.NameOk(NotificationCookie)
  {
    assert forall k :: 0 <= k < |InstallCookie| ==> InstallCookie[k] != ';' && InstallCookie[k] != '=';
    assert forall k :: 0 <= k < |NotificationCookie| ==> NotificationCookie[k] != ';' && NotificationCookie[k] != '=';
  }

  /** `!cookieValue || cookieValue === "false"`: absent, empty or "false" lets a prompt show. */
  predicate ShouldShowCookie(v: Option<string>) {
    v.None? || v.value == "" || v.value == "false"
  }

  // ---------------------------------------------------------------------
  // The install prompt

  datatype Os = Ios | Android | OtherOs

  /** `getOS`: a substring test on the lower-cased user agent; no window means other. */
  function GetOs(userAgent: Option<string>): (r: Os)
    ensures userAgent.None? ==> r == OtherOs
    ensures userAgent.Some? ==> var ua := Strings.ToLower(userAgent.value);
      && (r == Ios <==> Strings.Contains(ua, "iphone") || Strings.Contains(ua, "ipad") || Strings.Contains(ua, "ipod"))
      && (r == Android <==> r != Ios && Strings.Contains(ua, "android"))
  {
    match userAgent
    case None => OtherOs
    case Some(s) =>
      var ua := Strings.ToLower(s);
      if Strings.Contains(ua, "iphone") || Strings.Contains(ua, "ipad") || Strings.Contains(ua, "ipod") then Ios
      else if Strings.Contains(ua, "android") then Android
      else OtherOs
  }

  /** An agent naming both an iPad and Android counts as iOS. */
  lemma IosBeforeAndroid(prefix: string, suffix: string)
    ensures GetOs(Some(prefix + "iPad; Android" + suffix)) == Ios
  {
    var s := prefix + "iPad; Android" + suffix;
    var ua := Strings.ToLower(s);
    var i := |prefix|;
    assert ua[i..][..4] == "ipad";
    assert "ipad" <= ua[i..];
    Strings.ContainsAt(ua, "ipad");
  }

  /** The environment the install prompt sees. */
  datatype InstallContext = InstallContext(loggedIn: bool, mobile: bool, standalone: bool, os: Os)

  /** Whether the drawer is rendered at all. */
  predicate InstallRenders(c: InstallContext) {
    c.mobile && c.loggedIn && !c.standalone && c.os != OtherOs
  }

  /** Whether the effect starts the timer that opens the drawer. */
  predicate InstallOpens(c: InstallContext, header: string) {
    c.loggedIn && c.mobile && !c.standalone && (c.os == Ios || c.os == Android)
    && ShouldShowCookie(Cookies.GetCookie(header, InstallCookie))
  }

  /** The drawer only opens where it is rendered. */
  lemma InstallOpensOnlyRendered(c: InstallContext, header: string)
    ensures InstallOpens(c, header) ==> InstallRenders(c)
  {
  }

  /** Writing "true" under a well-formed name: it reads back, and every other cookie stays. */
  lemma MarkShown(jar: seq<Cookies.Cookie>, n: string)
    requires Cookies.NameOk(n)
    ensures Cookies.WellFormed(jar) && Cookies.NamesUnique(jar) ==>
      && Cookies.GetCookie(Cookies.DocumentCookie(Cookies.Write(jar, n, "true")), n) == Some("true")
      && forall k :: 0 <= k < |Cookies.Write(jar, n, "true")| && Cookies.Write(jar, n, "true")[k].name != n ==>
           Cookies.Write(jar, n, "true")[k] in jar
  {
    if Cookies.WellFormed(jar) && Cookies.NamesUnique(jar) {
      Cookies.WriteThenRead(jar, n, "true");
      Cookies.WriteShape(jar, n, "true");
    }
  }

  /** `handleDismiss`: remember the prompt for a year and close it. */
  function Dismiss(jar: seq<Cookies.Cookie>): (r: (seq<Cookies.Cookie>, bool))
    ensures !r.1
    ensures Cookies.WellFormed(jar) && Cookies.NamesUnique(jar) ==>
      && Cookies.GetCookie(Cookies.DocumentCookie(r.0), InstallCookie) == Some("true")
      && forall k :: 0 <= k < |r.0| && r.0[k].name != InstallCookie ==> r.0[k] in jar
  {
    CookieNamesOk();
    MarkShown(jar, InstallCookie);
    (Cookies.Write(jar, InstallCookie, "true"), false)
  }

  datatype Outcome = Accepted | Declined

  /**
    `handleInstall`: without a deferred browser prompt nothing happens;
    otherwise the drawer closes, and the cookie is written only when the
    user accepted the browser's dialog.
   */
  function HandleInstall(jar: seq<Cookies.Cookie>, open: bool, deferred: bool, outcome: Outcome): (r: (seq<Cookies.Cookie>, bool))
    ensures !deferred ==> r == (jar, open)
    ensures deferred ==> !r.1
    ensures deferred && outcome == Accepted && Cookies.WellFormed(jar) && Cookies.NamesUnique(jar) ==>
      Cookies.GetCookie(Cookies.DocumentCookie(r.0), InstallCookie) == Some("true")
    ensures deferred && outcome == Declined ==> r.0 == jar
  {
    if !deferred then (jar, open)
    else if outcome == Accepted then Dismiss(jar)
    else (jar, false)
  }

  /** Once dismissed, the install prompt never opens again, whatever the context. */
  lemma DismissedNeverReopens(jar: seq<Cookies.Cookie>, c: InstallContext)
    requires Cookies.WellFormed(jar) && Cookies.NamesUnique(jar)
    ensures !InstallOpens(c, Cookies.DocumentCookie(Dismiss(jar).0))
  {
  }

  /** After an accepted install the prompt never opens again; after a declined one the cookie is untouched. */
  lemma InstalledNeverReopens(jar: seq<Cookies.Cookie>, c: InstallContext)
    requires Cookies.WellFormed(jar) && Cookies.NamesUnique(jar)
    ensures !InstallOpens(c, Cookies.DocumentCookie(HandleInstall(jar, true, true, Accepted).0))
  {
  }

  // ---------------------------------------------------------------------
  // The notification prompt

  /** `canShow`: on mobile only with a service-worker registration; always on desktop. */
  predicate CanShow(mobile: bool, hasRegistration: bool) {
    (mobile && hasRegistration) || !mobile
  }

  /**
    The registration the prompt reads from `usePushNotifications`: the
    hook keeps one internally but does not return it, so the prompt
    always sees none.
   */
  const HookReturnsRegistration := false

  datatype NotificationContext = NotificationContext(
    pushLoading: bool, loggedIn: bool, supported: bool, subscribed: bool, mobile: bool)

  /** The effect's condition, for a given answer to "is there a service-worker registration". */
  predicate OpensWith(c: NotificationContext, header: string, registered: bool) {
    !c.pushLoading && c.loggedIn
    && ShouldShowCookie(Cookies.GetCookie(header, NotificationCookie))
    && c.supported && !c.subscribed && CanShow(c.mobile, registered)
  }

  /** The prompt as written: it reads a registration the hook never hands out. */
  predicate NotificationOpens(c: NotificationContext, header: string) {
    OpensWith(c, header, HookReturnsRegistration)
  }

  /** As the hook is written, a phone never sees the notification prompt. */
  lemma MobileNeverOffered(c: NotificationContext, header: string)
    requires c.mobile
    ensures !NotificationOpens(c, header)
  {
  }

  /** The prompt with the hook returning the registration it holds. */
  predicate NotificationOpensFixed(c: NotificationContext, header: string, registered: bool) {
    OpensWith(c, header, registered)
  }

  /**
    With the registration returned, an installed app on a phone is offered
    the prompt, and a desktop browser sees exactly what it saw before.
   */
  lemma RegisteredPhoneOffered(c: NotificationContext, header: string, registered: bool)
    ensures c.mobile && registered ==>
      (NotificationOpensFixed(c, header, registered) <==>
        !c.pushLoading && c.loggedIn && c.supported && !c.subscribed
        && ShouldShowCookie(Cookies.GetCookie(header, NotificationCookie)))
    ensures !c.mobile ==> (NotificationOpensFixed(c, header, registered) <==> NotificationOpens(c, header))
    ensures c.mobile && !registered ==> !NotificationOpensFixed(c, header, registered)
  {
  }

  /** `canShow` reads as "desktop, or registered". */
  lemma CanShowMeaning(mobile: bool, hasRegistration: bool)
    ensures CanShow(mobile, hasRegistration) <==> !mobile || hasRegistration
  {
  }

  /** `handleConfirm`: the cookie is written whatever `subscribe` returned, and the dialog closes. */
  function Confirm(jar: seq<Cookies.Cookie>, subscribed: bool): (r: (seq<Cookies.Cookie>, bool))
    ensures !r.1 && r == Decline(jar)
  {
    Decline(jar)
  }

  /** `handleDecline`: remember the prompt for a year and close it. */
  function Decline(jar: seq<Cookies.Cookie>): (r: (seq<Cookies.Cookie>, bool))
    ensures !r.1
    ensures Cookies.WellFormed(jar) && Cookies.NamesUnique(jar) ==>
      && Cookies.GetCookie(Cookies.DocumentCookie(r.0), NotificationCookie) == Some("true")
      && forall k :: 0 <= k < |r.0| && r.0[k].name != NotificationCookie ==> r.0[k] in jar
  {
    CookieNamesOk();
    MarkShown(jar, NotificationCookie);
    (Cookies.Write(jar, NotificationCookie, "true"), false)
  }

  /** Either answer, and even a failed subscription, silences the prompt for good. */
  lemma AnsweredNeverReopens(jar: seq<Cookies.Cookie>, c: NotificationContext, subscribed: bool, registered: bool)
    requires Cookies.WellFormed(jar) && Cookies.NamesUnique(jar)
    ensures !NotificationOpensFixed(c, Cookies.DocumentCookie(Confirm(jar, subscribed).0), registered)
    ensures !NotificationOpensFixed(c, Cookies.DocumentCookie(Decline(jar).0), registered)
    ensures !NotificationOpens(c, Cookies.DocumentCookie(Confirm(jar, subscribed).0))
    ensures !NotificationOpens(c, Cookies.DocumentCookie(Decline(jar).0))
  {
  }
}

=== FILE: push.dfy ===
/**
  The push-subscription procedures (src/server/api/push/controller/ and
  src/schemas/push.ts). A subscription is identified by its endpoint: the
  store keeps at most one row per endpoint.
 */
module Push {
  import opened Wrappers
  import opened Sequences
  import opened Store

  datatype SubscribeInput = SubscribeInput(endpoint: string, p256dh: string, auth: string)

  /**
    `PushSubscriptionInputSchema`: the endpoint must be a URL, the keys any
    strings. What counts as a URL is a parameter.
   */
  function ValidateSubscribe(endpoint: string, p256dh: string, auth: string, isUrl: string -> bool): (r: Result<SubscribeInput>)
    ensures r.Ok? <==> isUrl(endpoint)
    ensures r.Ok? ==> r.value == SubscribeInput(endpoint, p256dh, auth)
    ensures r.Err? ==> r.code == BadRequest
  {
    if isUrl(endpoint) then Ok(SubscribeInput(endpoint, p256dh, auth)) else Err(BadRequest)
  }

  /** `UnsubscribePushInputSchema`. */
  function ValidateUnsubscribe(endpoint: string, isUrl: string -> bool): (r: Result<string>)
    ensures r.Ok? <==> isUrl(endpoint)
    ensures r.Ok? ==> r.value == endpoint
    ensures r.Err? ==> r.code == BadRequest
  {
    if isUrl(endpoint) then Ok(endpoint) else Err(BadRequest)
  }

  function EndpointIs(endpoint: string): PushSubscription -> bool {
    (p: PushSubscription) => p.endpoint == endpoint
  }

  function OtherEndpoint(endpoint: string): PushSubscription -> bool {
    (p: PushSubscription) => p.endpoint != endpoint
  }

  function OwnedBy(userId: Id): PushSubscription -> bool {
    (p: PushSubscription) => p.userId == userId
  }

  predicate HasEndpoint(db: Db, endpoint: string) {
    exists i :: 0 <= i < |db.subscriptions| && db.subscriptions[i].endpoint == endpoint
  }

  /** The row an endpoint names after a subscribe by `caller`. */
  predicate BoundTo(p: PushSubscription, caller: Id, input: SubscribeInput) {
    p.userId == caller && p.endpoint == input.endpoint && p.p256dh == input.p256dh && p.auth == input.auth
  }

  /**
    `subscribe`: an upsert on the endpoint. An existing row is rebound to
    the caller with the new keys and keeps its id; otherwise a row with a
    fresh id is added.
   */
  function Subscribe(db: Db, caller: Id, input: SubscribeInput): (r: Db)
    ensures r == db.(subscriptions := r.subscriptions)
    ensures HasEndpoint(r, input.endpoint)
    ensures var i := FindIndex(r.subscriptions, EndpointIs(input.endpoint));
      i.Some? && BoundTo(r.subscriptions[i.value], caller, input)
    ensures |r.subscriptions| == |db.subscriptions| + (if HasEndpoint(db, input.endpoint) then 0 else 1)
    ensures Filter(r.subscriptions, OtherEndpoint(input.endpoint)) == Filter(db.subscriptions, OtherEndpoint(input.endpoint))
    ensures Valid(db) ==> Valid(r)
  {
    var subs := db.subscriptions;
    match FindIndex(subs, EndpointIs(input.endpoint))
    case Some(i) =>
      var row := subs[i].(userId := caller, p256dh := input.p256dh, auth := input.auth);
      FindIndexUpdate(subs, EndpointIs(input.endpoint), i, row);
      FilterUpdateCount(subs, i, row, OtherEndpoint(input.endpoint));
      RebindKeepsValid(db, i, row);
      db.(subscriptions := subs[i := row])
    case None =>
      var row := PushSubscription(FreshId(IdsOf(subs, (p: PushSubscription) => p.id)), caller,
                                  input.endpoint, input.p256dh, input.auth);
      AppendFindsRow(subs, row);
      FilterConcat(subs, [row], OtherEndpoint(input.endpoint));
      AppendKeepsValid(db, row);
      db.(subscriptions := subs + [row])
  }

  lemma AppendFindsRow(subs: seq<PushSubscription>, row: PushSubscription)
    requires FindIndex(subs, EndpointIs(row.endpoint)).None?
    ensures FindIndex(subs + [row], EndpointIs(row.endpoint)) == Some(|subs|)
  {
    var s := subs + [row];
    assert forall k :: 0 <= k < |subs| ==> s[k] == subs[k];
    assert EndpointIs(row.endpoint)(s[|subs|]);
  }

  lemma RebindKeepsValid(db: Db, i: nat, row: PushSubscription)
    requires i < |db.subscriptions| && row.endpoint == db.subscriptions[i].endpoint
    ensures Valid(db) ==> Valid(db.(subscriptions := db.subscriptions[i := row]))
  {
    var s := db.subscriptions[i := row];
    assert forall k :: 0 <= k < |s| ==> s[k].endpoint == db.subscriptions[k].endpoint;
  }

  lemma AppendKeepsValid(db: Db, row: PushSubscription)
    requires FindIndex(db.subscriptions, EndpointIs(row.endpoint)).None?
    ensures Valid(db) ==> Valid(db.(subscriptions := db.subscriptions + [row]))
  {
    var s := db.subscriptions + [row];
    assert forall k :: 0 <= k < |db.subscriptions| ==> s[k] == db.subscriptions[k];
  }

  /** Subscribing twice with the same input is the same as subscribing once. */
  lemma SubscribeIdempotent(db: Db, caller: Id, input: SubscribeInput)
    ensures Subscribe(Subscribe(db, caller, input), caller, input) == Subscribe(db, caller, input)
  {
    var once := Subscribe(db, caller, input);
    var i := FindIndex(once.subscriptions, EndpointIs(input.endpoint)).value;
    var row := once.subscriptions[i];
    assert row.(userId := caller, p256dh := input.p256dh, auth := input.auth) == row;
    assert once.subscriptions[i := row] == once.subscriptions;
  }

  /** `unsubscribe`: delete the caller's rows with that endpoint; nobody else's. */
  function Unsubscribe(db: Db, caller: Id, endpoint: string): (r: Db)
    ensures r == db.(subscriptions := r.subscriptions)
    ensures forall i :: 0 <= i < |r.subscriptions| ==>
      r.subscriptions[i] in db.subscriptions
      && !(r.subscriptions[i].userId == caller && r.subscriptions[i].endpoint == endpoint)
    ensures forall i :: 0 <= i < |db.subscriptions| ==>
      (db.subscriptions[i].userId != caller || db.subscriptions[i].endpoint != endpoint)
      ==> db.subscriptions[i] in r.subscriptions
    ensures Valid(db) ==> Valid(r)
  {
    var keep := (p: PushSubscription) => !(p.userId == caller && p.endpoint == endpoint);
    FilterKeepsValid(db, keep);
    db.(subscriptions := Filter(db.subscriptions, keep))
  }

  lemma FilterKeepsValid(db: Db, keep: PushSubscription -> bool)
    ensures Valid(db) ==> Valid(db.(subscriptions := Filter(db.subscriptions, keep)))
  {
    if Valid(db) {
      FilterKeysUnique(db.subscriptions, keep, (p: PushSubscription) => p.endpoint);
    }
  }

  /** A second unsubscribe finds nothing more to delete. */
  lemma UnsubscribeIdempotent(db: Db, caller: Id, endpoint: string)
    ensures Unsubscribe(Unsubscribe(db, caller, endpoint), caller, endpoint) == Unsubscribe(db, caller, endpoint)
  {
    var keep := (p: PushSubscription) => !(p.userId == caller && p.endpoint == endpoint);
    FilterIdempotent(db.subscriptions, keep);
  }

  /** `getStatus`: how many subscriptions the caller has. */
  function SubscriptionCount(db: Db, caller: Id): (r: nat)
    ensures r == |set i | 0 <= i < |db.subscriptions| && db.subscriptions[i].userId == caller|
    ensures r <= |db.subscriptions|
    ensures r == 0 <==> forall i :: 0 <= i < |db.subscriptions| ==> db.subscriptions[i].userId != caller
  {
    OwnedRowsCounted(db.subscriptions, caller);
    FilterCountsIndices(db.subscriptions, OwnedBy(caller));
    var owned := set i | 0 <= i < |db.subscriptions| && db.subscriptions[i].userId == caller;
    assert IndicesWhere(db.subscriptions, OwnedBy(caller)) == owned;
    |Filter(db.subscriptions, OwnedBy(caller))|
  }

  lemma OwnedRowsCounted(s: seq<PushSubscription>, caller: Id)
    ensures (exists i :: 0 <= i < |s| && s[i].userId == caller) <==> |Filter(s, OwnedBy(caller))| > 0
  {
    if exists i :: 0 <= i < |s| && s[i].userId == caller {
      var i :| 0 <= i < |s| && s[i].userId == caller;
      FilterNonEmpty(s, i, OwnedBy(caller));
    } else {
      FilterNone(s, OwnedBy(caller));
    }
  }

  /** After subscribing, the caller has at least one subscription. */
  lemma SubscribedCountsAtLeastOne(db: Db, caller: Id, input: SubscribeInput)
    ensures SubscriptionCount(Subscribe(db, caller, input), caller) >= 1
  {
    var r := Subscribe(db, caller, input);
    var i := FindIndex(r.subscriptions, EndpointIs(input.endpoint)).value;
    assert r.subscriptions[i].userId == caller;
  }

  /** Subscribing a new endpoint adds one to the caller's count and leaves everybody else's. */
  lemma SubscribeFreshCount(db: Db, caller: Id, input: SubscribeInput, u: Id)
    requires !HasEndpoint(db, input.endpoint)
    ensures SubscriptionCount(Subscribe(db, caller, input), u)
         == SubscriptionCount(db, u) + (if u == caller then 1 else 0)
  {
    var s := db.subscriptions;
    var f := FindIndex(s, EndpointIs(input.endpoint));
    assert f.None?;
    var row := PushSubscription(FreshId(IdsOf(s, (p: PushSubscription) => p.id)), caller,
                                input.endpoint, input.p256dh, input.auth);
    assert Subscribe(db, caller, input).subscriptions == s + [row];
    FilterConcat(s, [row], OwnedBy(u));
  }

  /**
    Subscribing an endpoint that row `i` already holds moves it to the
    caller: the caller's count rises by one and the previous owner's falls
    by one, so nothing changes when the caller already owned it.
   */
  lemma SubscribeRebindCount(db: Db, caller: Id, input: SubscribeInput, i: nat, u: Id)
    requires Valid(db) && i < |db.subscriptions| && db.subscriptions[i].endpoint == input.endpoint
    ensures var owner := db.subscriptions[i].userId;
      SubscriptionCount(Subscribe(db, caller, input), u)
        == SubscriptionCount(db, u) + (if u == caller then 1 else 0) - (if u == owner then 1 else 0)
  {
    var s := db.subscriptions;
    var f := FindIndex(s, EndpointIs(input.endpoint));
    assert EndpointIs(input.endpoint)(s[i]);
    assert f.Some?;
    assert s[f.value].endpoint == s[i].endpoint;
    assert f.value == i;
    var row := s[i].(userId := caller, p256dh := input.p256dh, auth := input.auth);
    assert Subscribe(db, caller, input).subscriptions == s[i := row];
    FilterUpdateDelta(s, i, row, OwnedBy(u));
  }

  /**
    In a valid store, unsubscribing removes exactly the endpoint's row
    when the caller owns it, and lowers the caller's count by one; another
    user's row at that endpoint stays.
   */
  lemma UnsubscribeCount(db: Db, caller: Id, endpoint: string)
    requires Valid(db)
    ensures var owned := exists i :: 0 <= i < |db.subscriptions| && db.subscriptions[i].userId == caller
                                      && db.subscriptions[i].endpoint == endpoint;
      SubscriptionCount(Unsubscribe(db, caller, endpoint), caller)
        == SubscriptionCount(db, caller) - (if owned then 1 else 0)
  {
    UnsubscribeCountRows(db.subscriptions, caller, endpoint);
  }

  lemma UnsubscribeCountRows(s: seq<PushSubscription>, caller: Id, endpoint: string)
    requires KeysUnique(s, (p: PushSubscription) => p.endpoint)
    ensures var keep := (p: PushSubscription) => !(p.userId == caller && p.endpoint == endpoint);
      var owned := exists i :: 0 <= i < |s| && s[i].userId == caller && s[i].endpoint == endpoint;
      |Filter(Filter(s, keep), OwnedBy(caller))| == |Filter(s, OwnedBy(caller))| - (if owned then 1 else 0)
  {
    var keep := (p: PushSubscription) => !(p.userId == caller && p.endpoint == endpoint);
    var both := (p: PushSubscription) => p.userId == caller && p.endpoint == endpoint;
    CountSplit(s, keep, OwnedBy(caller), both);
    FilterSingleKey(s, both, (p: PushSubscription) => p.endpoint, endpoint);
    if exists i :: 0 <= i < |s| && s[i].userId == caller && s[i].endpoint == endpoint {
      var i :| 0 <= i < |s| && s[i].userId == caller && s[i].endpoint == endpoint;
      FilterNonEmpty(s, i, both);
    } else {
      FilterNone(s, both);
    }
  }

  /** The owned rows split into those the filter keeps and those it drops. */
  lemma {:induction false} CountSplit<T>(s: seq<T>, keep: T -> bool, own: T -> bool, both: T -> bool)
    requires forall p :: both(p) == (own(p) && !keep(p))
    ensures |Filter(Filter(s, keep), own)| + |Filter(s, both)| == |Filter(s, own)|
    decreases |s|
  {
    if |s| > 0 {
      CountSplit(s[1..], keep, own, both);
      var head := if keep(s[0]) then [s[0]] else [];
      assert Filter(s, keep) == head + Filter(s[1..], keep);
      FilterConcat(head, Filter(s[1..], keep), own);
    }
  }

  /**
    Subscribing and then unsubscribing the same endpoint leaves no row for
    it, and every other endpoint's row as it was before.
   */
  lemma SubscribeThenUnsubscribe(db: Db, caller: Id, input: SubscribeInput)
    requires Valid(db)
    ensures var r := Unsubscribe(Subscribe(db, caller, input), caller, input.endpoint);
      && !HasEndpoint(r, input.endpoint)
      && Filter(r.subscriptions, OtherEndpoint(input.endpoint)) == Filter(db.subscriptions, OtherEndpoint(input.endpoint))
  {
    var once := Subscribe(db, caller, input);
    var keep := (p: PushSubscription) => !(p.userId == caller && p.endpoint == input.endpoint);
    var s := once.subscriptions;
    var j := FindIndex(s, EndpointIs(input.endpoint)).value;
    assert forall k :: 0 <= k < |s| && s[k].endpoint == input.endpoint ==> k == j;
    OnlyBoundRow(s, j, caller, input, keep);
    FilterOfFilter(s, keep, OtherEndpoint(input.endpoint));
  }

  lemma OnlyBoundRow(s: seq<PushSubscription>, j: nat, caller: Id, input: SubscribeInput, keep: PushSubscription -> bool)
    requires j < |s| && BoundTo(s[j], caller, input)
    requires forall k :: 0 <= k < |s| && s[k].endpoint == input.endpoint ==> k == j
    requires forall p :: keep(p) == !(p.userId == caller && p.endpoint == input.endpoint)
    ensures forall k :: 0 <= k < |Filter(s, keep)| ==> Filter(s, keep)[k].endpoint != input.endpoint
  {
    forall k | 0 <= k < |Filter(s, keep)|
      ensures Filter(s, keep)[k].endpoint != input.endpoint
    {
      var x := Filter(s, keep)[k];
      assert x in s && keep(x);
    }
  }

  /** Dropping the endpoint's rows after the unsubscribe filter is the same as dropping them directly. */
  lemma {:induction false} FilterOfFilter(s: seq<PushSubscription>, keep: PushSubscription -> bool, other: PushSubscription -> bool)
    requires forall p :: other(p) ==> keep(p)
    ensures Filter(Filter(s, keep), other) == Filter(s, other)
    decreases |s|
  {
    if |s| > 0 {
      FilterOfFilter(s[1..], keep, other);
      if keep(s[0]) {
        assert Filter(s, keep) == [s[0]] + Filter(s[1..], keep);
        assert Filter(s, keep)[1..] == Filter(s[1..], keep);
      } else {
        assert Filter(s, keep) == Filter(s[1..], keep);
      }
    }
  }
}

=== FILE: push_client.dfy ===
/**
  The browser side of push notifications (`usePushNotifications` in
  src/hooks/use-push-notifications.ts).

  Every browser step the hook awaits is an input: the permission answer,
  the subscription the push manager hands back (or `None` when it
  throws), and whether each server call succeeds. A thrown error is
  caught by the hook and becomes the result `false`.
 */
module PushClient {
  import opened Wrappers
  import Base64
  import Push
  import Store

  datatype HookState = HookState(supported: bool, subscribed: bool, loading: bool, registration: bool)

  /**
    `checkSupport`: with support and a controlling service worker the
    registration is kept and the existing subscription is reported;
    loading ends either way.
   */
  function CheckSupport(supported: bool, controller: bool, existing: bool): (st: HookState)
    ensures !st.loading && st.supported == supported
    ensures st.registration <==> supported && controller
    ensures st.subscribed <==> supported && controller && existing
  {
    if supported && controller then HookState(true, existing, false, true)
    else HookState(supported, false, false, false)
  }

  /** What `subscription.toJSON()` offers. */
  datatype BrowserSubscription = BrowserSubscription(endpoint: Option<string>, p256dh: Option<string>, auth: Option<string>)

  datatype ServerCall = SubscribeCall(input: Push.SubscribeInput) | UnsubscribeCall(endpoint: string)

  /** One run of `subscribe` or `unsubscribe`: what it returned, the state after, and the server calls made. */
  datatype Run = Run(result: bool, state: HookState, askedPermission: bool, calls: seq<ServerCall>)

  /** JavaScript truthiness of an optional string. */
  predicate Truthy(v: Option<string>) {
    v.Some? && v.value != ""
  }

  predicate Complete(json: BrowserSubscription) {
    Truthy(json.endpoint) && Truthy(json.p256dh) && Truthy(json.auth)
  }

  /** `subscribe`. */
  function Subscribe(st: HookState, vapidKey: string, permission: string,
                     browser: Option<BrowserSubscription>, serverOk: bool): (r: Run)
    ensures r.result <==>
      && st.registration && vapidKey != "" && permission == "granted"
      && Base64.UrlBase64ToBytes(vapidKey).Some?
      && browser.Some? && Complete(browser.value) && serverOk
    ensures !r.result ==> r.state == st
    ensures r.result ==> r.state == st.(subscribed := true)
    ensures r.askedPermission <==> st.registration && vapidKey != ""
    ensures |r.calls| <= 1
    ensures |r.calls| == 1 ==>
      && browser.Some? && Complete(browser.value)
      && r.calls[0] == SubscribeCall(Push.SubscribeInput(browser.value.endpoint.value, browser.value.p256dh.value, browser.value.auth.value))
    ensures |r.calls| == 1 <==>
      && st.registration && vapidKey != "" && permission == "granted"
      && Base64.UrlBase64ToBytes(vapidKey).Some? && browser.Some? && Complete(browser.value)
  {
    if !st.registration || vapidKey == "" then Run(false, st, false, [])
    else if permission != "granted" then Run(false, st, true, [])
    else if Base64.UrlBase64ToBytes(vapidKey).None? then Run(false, st, true, [])
    else if browser.None? || !Complete(browser.value) then Run(false, st, true, [])
    else
      var json := browser.value;
      var call := SubscribeCall(Push.SubscribeInput(json.endpoint.value, json.p256dh.value, json.auth.value));
      if serverOk then Run(true, st.(subscribed := true), true, [call])
      else Run(false, st, true, [call])
  }

  /**
    A key published in the URL-safe alphabet without padding always gets
    past the decoding step.
   */
  lemma PublishedKeyDecodes(st: HookState, key: seq<Base64.Byte>, browser: BrowserSubscription)
    requires st.registration && |key| > 0 && Complete(browser)
    ensures Subscribe(st, Base64.UrlEncode(key), "granted", Some(browser), true).result
  {
    Base64.UrlRoundTrip(key);
  }

  /**
    The subscription the server is sent, stored for the calling user,
    gives that user at least one subscription.
   */
  lemma SubscribeCallRegisters(st: HookState, vapidKey: string, permission: string,
                               browser: Option<BrowserSubscription>, serverOk: bool,
                               db: Store.Db, caller: Store.Id)
    requires |Subscribe(st, vapidKey, permission, browser, serverOk).calls| == 1
    ensures var call := Subscribe(st, vapidKey, permission, browser, serverOk).calls[0];
      call.SubscribeCall? && Push.SubscriptionCount(Push.Subscribe(db, caller, call.input), caller) >= 1
  {
    var call := Subscribe(st, vapidKey, permission, browser, serverOk).calls[0];
    Push.SubscribedCountsAtLeastOne(db, caller, call.input);
  }

  /**
    `unsubscribe`. `current` is the push manager's subscription endpoint
    (`Err` when asking throws); `browserOk` is whether the browser's own
    unsubscribe succeeded.
   */
  function Unsubscribe(st: HookState, current: Result<Option<string>>, serverOk: bool, browserOk: bool): (r: Run)
    ensures r.result <==> st.registration && current.Ok? && (current.value.Some? ==> serverOk && browserOk)
    ensures r.result ==> r.state == st.(subscribed := false)
    ensures !r.result ==> r.state == st
    ensures !r.askedPermission
    ensures |r.calls| <= 1
    ensures |r.calls| == 1 <==> st.registration && current.Ok? && current.value.Some?
    ensures |r.calls| == 1 ==> r.calls[0] == UnsubscribeCall(current.value.value)
  {
    if !st.registration || current.Err? then Run(false, st, false, [])
    else match current.value
      case None => Run(true, st.(subscribed := false), false, [])
      case Some(endpoint) =>
        if !serverOk || !browserOk then Run(false, st, false, [UnsubscribeCall(endpoint)])
        else Run(true, st.(subscribed := false), false, [UnsubscribeCall(endpoint)])
  }

  /**
    When the server call succeeds but the browser's unsubscribe throws,
    the server has forgotten the endpoint while the hook still reports a
    subscription.
   */
  lemma ServerForgetsBrowserKeeps(st: HookState, endpoint: string)
    requires st.registration && st.subscribed
    ensures var r := Unsubscribe(st, Ok(Some(endpoint)), true, false);
      !r.result && r.state.subscribed && r.calls == [UnsubscribeCall(endpoint)]
  {
  }
}

=== FILE: query_params.dfy ===
/**
  The part of `URLSearchParams` the navigation components use: an ordered
  list of name/value pairs with `get`, `set` and `delete` as the URL
  Standard defines them. Serialising the list into a query string is not
  modelled.
 */
module QueryParams {
  import opened Wrappers
  import opened Sequences

  type Params = seq<(string, string)>

  predicate HasKey(ps: Params, k: string) {
    exists i :: 0 <= i < |ps| && ps[i].0 == k
  }

  function NotNamed(k: string): ((string, string)) -> bool {
    (p: (string, string)) => p.0 != k
  }

  /** `get`: the value of the first pair with that name, or null. */
  function Get(ps: Params, k: string): (r: Option<string>)
    ensures r.None? <==> !HasKey(ps, k)
    ensures r.Some? ==> (k, r.value) in ps
    decreases |ps|
  {
    if |ps| == 0 then None
    else if ps[0].0 == k then Some(ps[0].1)
    else
      var r := Get(ps[1..], k);
      assert HasKey(ps, k) <==> HasKey(ps[1..], k) by {
        if HasKey(ps, k) {
          var i :| 0 <= i < |ps| && ps[i].0 == k;
          assert ps[1..][i - 1] == ps[i];
        }
        if HasKey(ps[1..], k) {
          var i :| 0 <= i < |ps[1..]| && ps[1..][i].0 == k;
          assert ps[i + 1] == ps[1..][i];
        }
      }
      r
  }

  /** `delete`: every pair with that name goes; the others keep their order. */
  function Delete(ps: Params, k: string): (r: Params)
    ensures !HasKey(r, k)
    ensures r == Filter(ps, NotNamed(k))
  {
    Filter(ps, NotNamed(k))
  }

  /** The pairs with other names are the same after deleting `k`, so every other lookup is too. */
  lemma {:induction false} GetOthers(ps: Params, k: string, other: string)
    requires other != k
    ensures Get(Filter(ps, NotNamed(k)), other) == Get(ps, other)
    decreases |ps|
  {
    if |ps| > 0 {
      GetOthers(ps[1..], k, other);
      var rest := Filter(ps[1..], NotNamed(k));
      if ps[0].0 != k {
        assert Filter(ps, NotNamed(k)) == [ps[0]] + rest;
        assert ([ps[0]] + rest)[1..] == rest;
      } else {
        assert Filter(ps, NotNamed(k)) == [] + rest;
        assert [] + rest == rest;
      }
    }
  }

  /** Replace the first pair with name `k` and drop the later ones. */
  function SetFirst(ps: Params, k: string, v: string): (r: Params)
    requires HasKey(ps, k)
    ensures Get(r, k) == Some(v)
    ensures Filter(r, NotNamed(k)) == Filter(ps, NotNamed(k))
    decreases |ps|
  {
    if ps[0].0 == k then
      var rest := Filter(ps[1..], NotNamed(k));
      FilterIdempotent(ps[1..], NotNamed(k));
      assert ([(k, v)] + rest)[1..] == rest;
      [(k, v)] + rest
    else
      assert HasKey(ps[1..], k) by {
        var i :| 0 <= i < |ps| && ps[i].0 == k;
        assert ps[1..][i - 1] == ps[i];
      }
      var rest := SetFirst(ps[1..], k, v);
      assert ([ps[0]] + rest)[1..] == rest;
      [ps[0]] + rest
  }

  /**
    `set`: the first pair with that name takes the value and later ones are
    removed; without one, the pair is appended.
   */
  function Set(ps: Params, k: string, v: string): (r: Params)
    ensures Get(r, k) == Some(v)
    ensures Filter(r, NotNamed(k)) == Filter(ps, NotNamed(k))
  {
    if HasKey(ps, k) then SetFirst(ps, k, v)
    else
      FilterAppendRejected(ps, (k, v), NotNamed(k));
      assert Get(ps + [(k, v)], k) == Some(v) by {
        GetAppend(ps, k, v);
      }
      ps + [(k, v)]
  }

  lemma FilterAppendRejected<T>(s: seq<T>, x: T, p: T -> bool)
    requires !p(x)
    ensures Filter(s + [x], p) == Filter(s, p)
  {
    FilterConcat(s, [x], p);
    assert Filter([x], p) == [] + Filter([x][1..], p);
    assert [x][1..] == [];
    assert Filter(s, p) + [] == Filter(s, p);
  }

  lemma {:induction false} GetAppend(ps: Params, k: string, v: string)
    requires !HasKey(ps, k)
    ensures Get(ps + [(k, v)], k) == Some(v)
    decreases |ps|
  {
    if |ps| > 0 {
      GetAppend(ps[1..], k, v);
      assert (ps + [(k, v)])[1..] == ps[1..] + [(k, v)];
    }
  }

  /** Setting one name leaves every other name's value as it was. */
  lemma SetKeepsOthers(ps: Params, k: string, v: string, other: string)
    requires other != k
    ensures Get(Set(ps, k, v), other) == Get(ps, other)
  {
    GetOthers(Set(ps, k, v), k, other);
    GetOthers(ps, k, other);
  }

  /** Deleting one name leaves every other name's value as it was. */
  lemma DeleteKeepsOthers(ps: Params, k: string, other: string)
    requires other != k
    ensures Get(Delete(ps, k), other) == Get(ps, other)
  {
    GetOthers(ps, k, other);
  }

  lemma SetKeepsAllOthers(ps: Params, k: string, v: string)
    ensures forall other :: other != k ==> Get(Set(ps, k, v), other) == Get(ps, other)
  {
    forall other | other != k
      ensures Get(Set(ps, k, v), other) == Get(ps, other)
    {
      SetKeepsOthers(ps, k, v, other);
    }
  }

  lemma DeleteKeepsAllOthers(ps: Params, k: string)
    ensures forall other :: other != k ==> Get(Delete(ps, k), other) == Get(ps, other)
  {
    forall other | other != k
      ensures Get(Delete(ps, k), other) == Get(ps, other)
    {
      GetOthers(ps, k, other);
    }
  }
}

=== FILE: registration_schema.dfy ===
/**
  Input schemas of the registration procedures (src/schemas/registration.ts).

  A raw input holds the strings a client sends; validation either yields
  the typed input a controller works on or rejects the call with
  BAD_REQUEST before any controller code runs.
 */
module RegistrationSchema {
  import opened Wrappers
  import opened Store

  /** `registrationTypeEnum`: exactly the two stored names. */
  function ParseRegistrationType(s: string): (r: Option<RegistrationType>)
    ensures r.Some? ==> RegistrationTypeName(r.value) == s
    ensures forall t :: s == RegistrationTypeName(t) ==> r == Some(t)
  {
    if s == "ATTENDING" then Some(Attending)
    else if s == "NOT_ATTENDING" then Some(NotAttending)
    else None
  }

  /** `z.string().min(1)`. */
  predicate Required(s: string) {
    |s| >= 1
  }

  datatype RawCreate = RawCreate(eventId: string, regType: string, comment: Option<string>)
  datatype CreateInput = CreateInput(eventId: Id, regType: RegistrationType, comment: Option<string>)

  datatype RawUpdate = RawUpdate(id: string, regType: string, comment: Option<string>)
  datatype UpdateInput = UpdateInput(id: Id, regType: RegistrationType, comment: Option<string>)

  datatype RawAdminUpdate = RawAdminUpdate(userId: string, eventId: string, regType: string, comment: Option<string>)
  datatype AdminUpdateInput = AdminUpdateInput(userId: Id, eventId: Id, regType: RegistrationType, comment: Option<string>)

  datatype NotifyInput = NotifyInput(eventId: Id, teamId: Id)

  /** `createRegistrationSchema`; the comment is optional whatever the type. */
  function ValidateCreate(raw: RawCreate): (r: Result<CreateInput>)
    ensures r.Ok? <==> Required(raw.eventId) && (raw.regType == "ATTENDING" || raw.regType == "NOT_ATTENDING")
    ensures r.Ok? ==> r.value.eventId == raw.eventId && RegistrationTypeName(r.value.regType) == raw.regType
                      && r.value.comment == raw.comment
    ensures r.Err? ==> r.code == BadRequest
  {
    if !Required(raw.eventId) then Err(BadRequest)
    else match ParseRegistrationType(raw.regType)
      case None => Err(BadRequest)
      case Some(t) => Ok(CreateInput(raw.eventId, t, raw.comment))
  }

  /** `updateRegistrationSchema`. */
  function ValidateUpdate(raw: RawUpdate): (r: Result<UpdateInput>)
    ensures r.Ok? <==> Required(raw.id) && (raw.regType == "ATTENDING" || raw.regType == "NOT_ATTENDING")
    ensures r.Ok? ==> r.value.id == raw.id && RegistrationTypeName(r.value.regType) == raw.regType
                      && r.value.comment == raw.comment
    ensures r.Err? ==> r.code == BadRequest
  {
    if !Required(raw.id) then Err(BadRequest)
    else match ParseRegistrationType(raw.regType)
      case None => Err(BadRequest)
      case Some(t) => Ok(UpdateInput(raw.id, t, raw.comment))
  }

  /**
    A schema with one required id field: `getRegistrationByEventSchema`
    (the event id) and `deleteRegistrationSchema` (the registration id)
    both have this shape.
   */
  function ValidateId(id: string): (r: Result<Id>)
    ensures r.Ok? <==> |id| > 0
    ensures r.Ok? ==> r.value == id
    ensures r.Err? ==> r.code == BadRequest
  {
    if Required(id) then Ok(id) else Err(BadRequest)
  }

  /** `adminUpdateRegistrationSchema`. */
  function ValidateAdminUpdate(raw: RawAdminUpdate): (r: Result<AdminUpdateInput>)
    ensures r.Ok? <==> Required(raw.userId) && Required(raw.eventId)
                       && (raw.regType == "ATTENDING" || raw.regType == "NOT_ATTENDING")
    ensures r.Ok? ==> r.value.userId == raw.userId && r.value.eventId == raw.eventId
                      && RegistrationTypeName(r.value.regType) == raw.regType && r.value.comment == raw.comment
    ensures r.Err? ==> r.code == BadRequest
  {
    if !Required(raw.userId) || !Required(raw.eventId) then Err(BadRequest)
    else match ParseRegistrationType(raw.regType)
      case None => Err(BadRequest)
      case Some(t) => Ok(AdminUpdateInput(raw.userId, raw.eventId, t, raw.comment))
  }

  /** `notifyUnattendedEventRegistrationSchema`. */
  function ValidateNotify(eventId: string, teamId: string): (r: Result<NotifyInput>)
    ensures r.Ok? <==> |eventId| > 0 && |teamId| > 0
    ensures r.Ok? ==> r.value == NotifyInput(eventId, teamId)
    ensures r.Err? ==> r.code == BadRequest
  {
    if Required(eventId) && Required(teamId) then Ok(NotifyInput(eventId, teamId)) else Err(BadRequest)
  }

  /** A typed input, written back as strings, validates to itself. */
  lemma CreateRoundTrip(input: CreateInput)
    requires |input.eventId| > 0
    ensures ValidateCreate(RawCreate(input.eventId, RegistrationTypeName(input.regType), input.comment)) == Ok(input)
  {
  }

  lemma AdminUpdateRoundTrip(input: AdminUpdateInput)
    requires |input.userId| > 0 && |input.eventId| > 0
    ensures ValidateAdminUpdate(RawAdminUpdate(input.userId, input.eventId, RegistrationTypeName(input.regType), input.comment))
         == Ok(input)
  {
  }
}

=== FILE: registrations.dfy ===
/**
  The registration ledger: the registration service
  (src/services/registration.ts) and the controllers that read and write
  registrations on behalf of a caller.

  A registration records one user's answer (attending or not) for one
  event. The store keeps at most one registration per (user, event) pair;
  writing a second answer overwrites the first.
 */
module Registrations {
  import opened Wrappers
  import opened Sequences
  import opened Store
  import opened Access
  import opened RegistrationSchema

  /** A write returns the new store and the row the database returned. */
  datatype Written = Written(db: Db, row: Registration)

  /**
    The data of the `update` call: the new type, and the comment only when
    one is given (an `undefined` field leaves the column as it is).
   */
  function Reanswer(g: Registration, t: RegistrationType, comment: Option<string>): Registration {
    g.(regType := t, comment := if comment.Some? then comment else g.comment)
  }

  /** Overwrites the answer of the row at `i`, the first row of its pair. */
  function Overwrite(db: Db, i: nat, t: RegistrationType, comment: Option<string>): (r: Written)
    requires i < |db.registrations|
    ensures r.db == db.(registrations := db.registrations[i := r.row])
    ensures r.row == Reanswer(db.registrations[i], t, comment)
    ensures Valid(db) ==> Valid(r.db)
  {
    var row := Reanswer(db.registrations[i], t, comment);
    UpdateKeepsValid(db, i, row);
    Written(db.(registrations := db.registrations[i := row]), row)
  }

  /** Appends a new row for the pair, stamped `now`, with an id no row uses. */
  function Append(db: Db, userId: Id, eventId: Id, t: RegistrationType, comment: Option<string>, now: int): (r: Written)
    requires !HasRegistration(db, userId, eventId)
    ensures r.db == db.(registrations := db.registrations + [r.row])
    ensures IsRegistration(r.row, userId, eventId) && r.row.regType == t && r.row.comment == comment && r.row.createdAt == now
    ensures forall i :: 0 <= i < |db.registrations| ==> db.registrations[i].id != r.row.id
    ensures Valid(db) ==> Valid(r.db)
  {
    var row := Registration(FreshId(IdsOf(db.registrations, (g: Registration) => g.id)), userId, eventId, t, comment, now);
    AppendKeepsValid(db, row);
    Written(db.(registrations := db.registrations + [row]), row)
  }

  /**
    `createRegistration`: update the pair's registration when it exists,
    otherwise create one stamped `now` with a fresh id.
   */
  function CreateRegistration(db: Db, userId: Id, eventId: Id, t: RegistrationType, comment: Option<string>, now: int)
    : (r: Written)
    ensures r.db == db.(registrations := r.db.registrations)
    ensures r.row in r.db.registrations && IsRegistration(r.row, userId, eventId) && r.row.regType == t
    ensures comment.Some? ==> r.row.comment == comment
    ensures PairCount(r.db.registrations, userId, eventId)
         == if PairCount(db.registrations, userId, eventId) == 0 then 1 else PairCount(db.registrations, userId, eventId)
    ensures Filter(r.db.registrations, OtherThan(userId, eventId)) == Filter(db.registrations, OtherThan(userId, eventId))
    ensures !HasRegistration(db, userId, eventId) ==>
      (&& |r.db.registrations| == |db.registrations| + 1
       && r.row.createdAt == now && r.row.comment == comment
       && forall i :: 0 <= i < |db.registrations| ==> db.registrations[i].id != r.row.id)
    ensures HasRegistration(db, userId, eventId) ==> |r.db.registrations| == |db.registrations|
    ensures forall k :: 0 <= k < |r.db.registrations| ==>
      r.db.registrations[k] in db.registrations || IsRegistration(r.db.registrations[k], userId, eventId)
    ensures Valid(db) ==> Valid(r.db)
  {
    match FindRegistrationIndex(db, userId, eventId)
    case Some(i) =>
      var w := Overwrite(db, i, t, comment);
      OverwriteCounts(db.registrations, i, w.row, userId, eventId);
      assert w.db.registrations[i] == w.row;
      assert forall k :: 0 <= k < |w.db.registrations| && k != i ==> w.db.registrations[k] == db.registrations[k];
      w
    case None =>
      var w := Append(db, userId, eventId, t, comment, now);
      AppendCounts(db, w.row, userId, eventId);
      assert w.db.registrations[|db.registrations|] == w.row;
      assert w.row in w.db.registrations;
      w
  }

  lemma OverwriteCounts(rs: seq<Registration>, i: nat, row: Registration, userId: Id, eventId: Id)
    requires i < |rs| && IsRegistration(rs[i], userId, eventId) && IsRegistration(row, userId, eventId)
    ensures PairCount(rs[i := row], userId, eventId) == PairCount(rs, userId, eventId) >= 1
    ensures Filter(rs[i := row], OtherThan(userId, eventId)) == Filter(rs, OtherThan(userId, eventId))
  {
    FilterUpdateCount(rs, i, row, RegistrationOf(userId, eventId));
    FilterUpdateCount(rs, i, row, OtherThan(userId, eventId));
    FilterNonEmpty(rs, i, RegistrationOf(userId, eventId));
  }

  lemma AppendCounts(db: Db, row: Registration, userId: Id, eventId: Id)
    requires !HasRegistration(db, userId, eventId) && IsRegistration(row, userId, eventId)
    ensures PairCount(db.registrations, userId, eventId) == 0
    ensures PairCount(db.registrations + [row], userId, eventId) == 1
    ensures Filter(db.registrations + [row], OtherThan(userId, eventId)) == Filter(db.registrations, OtherThan(userId, eventId))
  {
    var rs := db.registrations;
    FilterConcat(rs, [row], RegistrationOf(userId, eventId));
    FilterConcat(rs, [row], OtherThan(userId, eventId));
    FilterNone(rs, RegistrationOf(userId, eventId));
    assert Filter([row], OtherThan(userId, eventId)) == [] + Filter([], OtherThan(userId, eventId));
    assert Filter([row], RegistrationOf(userId, eventId)) == [row] + Filter([], RegistrationOf(userId, eventId));
  }

  /** Overwriting a row with one of the same id and pair keeps the store valid. */
  lemma UpdateKeepsValid(db: Db, i: nat, row: Registration)
    requires i < |db.registrations|
    requires row.id == db.registrations[i].id && RegistrationKey(row) == RegistrationKey(db.registrations[i])
    ensures Valid(db) ==> Valid(db.(registrations := db.registrations[i := row]))
  {
    var db' := db.(registrations := db.registrations[i := row]);
    if Valid(db) {
      assert forall k :: 0 <= k < |db.registrations| ==> RegistrationKey(db'.registrations[k]) == RegistrationKey(db.registrations[k]);
      assert forall k :: 0 <= k < |db.registrations| ==> db'.registrations[k].id == db.registrations[k].id;
      assert MembersReferenceRows(db');
    }
  }

  /** Appending a row with an unused id and an unused pair keeps the store valid. */
  lemma AppendKeepsValid(db: Db, row: Registration)
    requires forall i :: 0 <= i < |db.registrations| ==> db.registrations[i].id != row.id
    requires !HasRegistration(db, row.userId, row.eventId)
    ensures Valid(db) ==> Valid(db.(registrations := db.registrations + [row]))
  {
    var db' := db.(registrations := db.registrations + [row]);
    if Valid(db) {
      assert forall k :: 0 <= k < |db.registrations| ==> db'.registrations[k] == db.registrations[k];
      assert forall k :: 0 <= k < |db.registrations| ==> RegistrationKey(db.registrations[k]) != RegistrationKey(row);
      assert MembersReferenceRows(db');
    }
  }

  /** `getRegistrationByUserAndEvent`: the pair's registration, if any. */
  function GetRegistrationByUserAndEvent(db: Db, userId: Id, eventId: Id): (r: Option<Registration>)
    ensures r.Some? ==> r.value in db.registrations && IsRegistration(r.value, userId, eventId)
    ensures r.None? <==> !HasRegistration(db, userId, eventId)
    ensures RegistrationsUnique(db.registrations) ==>
      forall i :: 0 <= i < |db.registrations| && IsRegistration(db.registrations[i], userId, eventId) ==>
        r == Some(db.registrations[i])
  {
    match FindRegistrationIndex(db, userId, eventId)
    case None => None
    case Some(i) =>
      assert RegistrationsUnique(db.registrations) ==>
        forall k :: 0 <= k < |db.registrations| && IsRegistration(db.registrations[k], userId, eventId) ==> k == i;
      Some(db.registrations[i])
  }

  /** The first index of a pair stays the first index after that row is overwritten or appended. */
  lemma FirstIndexAfterWrite(db: Db, userId: Id, eventId: Id, t: RegistrationType, comment: Option<string>, now: int)
    ensures var w := CreateRegistration(db, userId, eventId, t, comment, now);
      && FindRegistrationIndex(w.db, userId, eventId).Some?
      && w.row == w.db.registrations[FindRegistrationIndex(w.db, userId, eventId).value]
      && w.db.registrations == w.db.registrations[FindRegistrationIndex(w.db, userId, eventId).value := w.row]
      && (FindRegistrationIndex(db, userId, eventId).Some? ==>
            FindRegistrationIndex(w.db, userId, eventId) == FindRegistrationIndex(db, userId, eventId))
      && (FindRegistrationIndex(db, userId, eventId).None? ==>
            FindRegistrationIndex(w.db, userId, eventId) == Some(|db.registrations|))
  {
    var w := CreateRegistration(db, userId, eventId, t, comment, now);
    IndexAfterWrite(db, w.db, w.row, userId, eventId);
  }

  /** The search for a pair, after its first row is replaced by `row` or `row` is appended. */
  lemma IndexAfterWrite(db: Db, db': Db, row: Registration, userId: Id, eventId: Id)
    requires IsRegistration(row, userId, eventId)
    requires var f := FindRegistrationIndex(db, userId, eventId);
      if f.Some? then db'.registrations == db.registrations[f.value := row]
      else db'.registrations == db.registrations + [row]
    ensures var f := FindRegistrationIndex(db, userId, eventId);
      && FindRegistrationIndex(db', userId, eventId) == Some(if f.Some? then f.value else |db.registrations|)
      && row == db'.registrations[FindRegistrationIndex(db', userId, eventId).value]
  {
    match FindRegistrationIndex(db, userId, eventId)
    case Some(i) =>
      FindIndexUpdate(db.registrations, RegistrationOf(userId, eventId), i, row);
    case None =>
      FindIndexAppendMatch(db.registrations, RegistrationOf(userId, eventId), row);
  }

  /** Read-your-write: after the upsert the pair's registration is the row returned. */
  lemma CreateThenGet(db: Db, userId: Id, eventId: Id, t: RegistrationType, comment: Option<string>, now: int)
    ensures var w := CreateRegistration(db, userId, eventId, t, comment, now);
      GetRegistrationByUserAndEvent(w.db, userId, eventId) == Some(w.row)
  {
    FirstIndexAfterWrite(db, userId, eventId, t, comment, now);
  }

  /**
    Answering twice with the same answer is the same as answering once,
    whenever the second answer is given: the second write leaves the store
    and the returned row as the first write left them.
   */
  lemma CreateRegistrationIdempotent(db: Db, userId: Id, eventId: Id, t: RegistrationType, comment: Option<string>, now: int, later: int)
    ensures var w := CreateRegistration(db, userId, eventId, t, comment, now);
      CreateRegistration(w.db, userId, eventId, t, comment, later) == w
  {
    var w := CreateRegistration(db, userId, eventId, t, comment, now);
    FirstIndexAfterWrite(db, userId, eventId, t, comment, now);
    var j := FindRegistrationIndex(w.db, userId, eventId).value;
    assert Reanswer(w.row, t, comment) == w.row;
  }

  /** The update keeps the row's identity, and keeps its comment when none is given. */
  lemma CreateRegistrationKeepsIdentity(db: Db, userId: Id, eventId: Id, t: RegistrationType, comment: Option<string>, now: int)
    requires GetRegistrationByUserAndEvent(db, userId, eventId).Some?
    ensures var prev := GetRegistrationByUserAndEvent(db, userId, eventId).value;
      var w := CreateRegistration(db, userId, eventId, t, comment, now);
      && w.row.id == prev.id && w.row.createdAt == prev.createdAt
      && (comment.None? ==> w.row.comment == prev.comment)
  {
  }

  /**
    `getRegistrationsByEvent`: the event's registrations, oldest first; rows
    created at the same instant keep the store's order.
   */
  function GetRegistrationsByEvent(db: Db, eventId: Id): (r: seq<Registration>)
    ensures forall i :: 0 <= i < |r| ==> r[i] in db.registrations && r[i].eventId == eventId
    ensures forall i :: 0 <= i < |db.registrations| && db.registrations[i].eventId == eventId ==> db.registrations[i] in r
    ensures forall i, j :: 0 <= i < j < |r| ==> r[i].createdAt <= r[j].createdAt
    ensures multiset(r) == multiset(EventRegistrations(db, eventId))
  {
    var r := SortBy(EventRegistrations(db, eventId), (g: Registration) => g.createdAt);
    assert forall i :: 0 <= i < |r| ==> r[i] in multiset(EventRegistrations(db, eventId));
    assert forall i :: 0 <= i < |db.registrations| && db.registrations[i].eventId == eventId ==>
      db.registrations[i] in multiset(r);
    r
  }

  /**
    `deleteRegistration`: only the owner can delete a registration. The row
    must carry both the id and the caller's user id; otherwise the service
    throws, which reaches the client as an internal error.
   */
  function DeleteRegistration(db: Db, id: Id, userId: Id): (r: Result<Db>)
    ensures r.Ok? <==> exists i :: 0 <= i < |db.registrations| && db.registrations[i].id == id && db.registrations[i].userId == userId
    ensures r.Err? ==> r.code == InternalError
    ensures r.Ok? ==> r.value == db.(registrations := r.value.registrations)
    ensures r.Ok? ==> forall i :: 0 <= i < |r.value.registrations| ==> r.value.registrations[i].id != id
    ensures r.Ok? ==> forall i :: 0 <= i < |db.registrations| && db.registrations[i].id != id ==> db.registrations[i] in r.value.registrations
    ensures r.Ok? ==> forall i :: 0 <= i < |r.value.registrations| ==> r.value.registrations[i] in db.registrations
    ensures r.Ok? && Valid(db) ==> Valid(r.value) && |r.value.registrations| == |db.registrations| - 1
  {
    var rs := db.registrations;
    match FindIndex(rs, (g: Registration) => g.id == id && g.userId == userId)
    case None => Err(InternalError)
    case Some(k) =>
      var rest := Filter(rs, (g: Registration) => g.id != id);
      var db' := db.(registrations := rest);
      if Valid(db) then
        DeleteKeepsValid(db, id, k);
        Ok(db')
      else Ok(db')
  }

  lemma DeleteKeepsValid(db: Db, id: Id, k: nat)
    requires Valid(db) && k < |db.registrations| && db.registrations[k].id == id
    ensures var db' := db.(registrations := Filter(db.registrations, (g: Registration) => g.id != id));
      Valid(db') && |db'.registrations| == |db.registrations| - 1
  {
    var rs := db.registrations;
    var same := (g: Registration) => g.id == id;
    var other := (g: Registration) => g.id != id;
    var db' := db.(registrations := Filter(rs, other));
    FilterKeysUnique(rs, other, (g: Registration) => g.id);
    FilterKeysUnique(rs, other, RegistrationKey);
    FilterPartition(rs, same, other);
    FilterNonEmpty(rs, k, same);
    FilterSingleKey(rs, same, (g: Registration) => g.id, id);
    assert MembersReferenceRows(db');
  }

  /** A registration whose row belongs to someone else cannot be deleted. */
  lemma OnlyOwnerDeletes(db: Db, id: Id, userId: Id, k: nat)
    requires Valid(db) && k < |db.registrations| && db.registrations[k].id == id && db.registrations[k].userId != userId
    ensures DeleteRegistration(db, id, userId) == Err(InternalError)
  {
  }

  datatype Counts = Counts(attending: nat, notAttending: nat)

  /** The number of the event's registrations carrying type `t`. */
  function CountOfType(db: Db, eventId: Id, t: RegistrationType): nat {
    |Filter(EventRegistrations(db, eventId), (g: Registration) => g.regType == t)|
  }

  /**
    `getRegistrationCountsByEvent`: registrations grouped by type; a type
    without a group counts as zero.
   */
  function GetRegistrationCountsByEvent(db: Db, eventId: Id): (r: Counts)
    ensures r.attending == |Filter(db.registrations, (g: Registration) => g.eventId == eventId && g.regType == Attending)|
    ensures r.notAttending == |Filter(db.registrations, (g: Registration) => g.eventId == eventId && g.regType == NotAttending)|
    ensures r.attending + r.notAttending == |EventRegistrations(db, eventId)|
    ensures r.attending == 0 <==> !HasAnswerOfType(db, eventId, Attending)
    ensures r.notAttending == 0 <==> !HasAnswerOfType(db, eventId, NotAttending)
  {
    var es := EventRegistrations(db, eventId);
    CountIsTableCount(db, eventId, Attending);
    CountIsTableCount(db, eventId, NotAttending);
    FilterPartition(es, (g: Registration) => g.regType == Attending, (g: Registration) => g.regType == NotAttending);
    CountZeroIff(db, eventId, Attending);
    CountZeroIff(db, eventId, NotAttending);
    Counts(CountOfType(db, eventId, Attending), CountOfType(db, eventId, NotAttending))
  }

  /** The per-type count of the event's rows is the count of the whole table's rows with that event and type. */
  lemma CountIsTableCount(db: Db, eventId: Id, t: RegistrationType)
    ensures CountOfType(db, eventId, t)
         == |Filter(db.registrations, (g: Registration) => g.eventId == eventId && g.regType == t)|
  {
    FilterFilter(db.registrations, (g: Registration) => g.eventId == eventId, (g: Registration) => g.regType == t,
                 (g: Registration) => g.eventId == eventId && g.regType == t);
  }

  /** Some registration for the event carries type `t`. */
  predicate HasAnswerOfType(db: Db, eventId: Id, t: RegistrationType) {
    exists i :: 0 <= i < |db.registrations| && db.registrations[i].eventId == eventId && db.registrations[i].regType == t
  }

  /** A type counts zero exactly when no registration for the event carries it. */
  lemma CountZeroIff(db: Db, eventId: Id, t: RegistrationType)
    ensures CountOfType(db, eventId, t) == 0 <==> !HasAnswerOfType(db, eventId, t)
  {
    var es := EventRegistrations(db, eventId);
    var p := (g: Registration) => g.regType == t;
    if HasAnswerOfType(db, eventId, t) {
      var i :| 0 <= i < |db.registrations| && db.registrations[i].eventId == eventId && db.registrations[i].regType == t;
      assert db.registrations[i] in es;
      var j :| 0 <= j < |es| && es[j] == db.registrations[i];
      FilterNonEmpty(es, j, p);
    } else {
      forall j | 0 <= j < |es|
        ensures !p(es[j])
      {
        assert es[j] in db.registrations;
      }
      FilterNone(es, p);
    }
  }

  /** The self-service create procedure: the caller always answers for themself. */
  function RegisterSelf(db: Db, caller: User, input: CreateInput, now: int): (r: Written)
    ensures r.row.userId == caller.id && r.row.eventId == input.eventId && r.row.regType == input.regType
    ensures GetRegistrationByUserAndEvent(r.db, caller.id, input.eventId) == Some(r.row)
  {
    CreateThenGet(db, caller.id, input.eventId, input.regType, input.comment, now);
    CreateRegistration(db, caller.id, input.eventId, input.regType, input.comment, now)
  }

  /** The self-service delete procedure: deletes only the caller's own registration. */
  function DeleteOwn(db: Db, caller: User, id: Id): (r: Result<Db>)
    ensures r.Ok? <==> exists i :: 0 <= i < |db.registrations| && db.registrations[i].id == id && db.registrations[i].userId == caller.id
    ensures r.Err? ==> r.code == InternalError
  {
    DeleteRegistration(db, id, caller.id)
  }

  /**
    The admin update: the event must exist, the caller must be a superadmin
    or an ADMIN/SUBADMIN of the event's team, and the target user must be a
    member of that team. Then the same upsert as the self-service path
    runs; neither the clock nor any deadline is consulted.
   */
  function AdminUpdate(db: Db, caller: User, input: AdminUpdateInput, now: int): (r: Result<Written>)
    ensures !EventExists(db, input.eventId) ==> r == Err(NotFound)
    ensures r.Err? ==> r.code in {NotFound, Forbidden}
    ensures MembershipsUnique(db.members) ==>
      (r.Ok? <==>
        (&& FindEvent(db, input.eventId).Some?
         && (caller.isAdmin || HoldsRole(db, caller, FindEvent(db, input.eventId).value.teamId, [Admin, Subadmin]))
         && HasMembership(db, input.userId, FindEvent(db, input.eventId).value.teamId)))
    ensures MembershipsUnique(db.members) && FindEvent(db, input.eventId).Some? ==>
      var teamId := FindEvent(db, input.eventId).value.teamId;
      (r == Err(Forbidden) <==> !caller.isAdmin && !HoldsRole(db, caller, teamId, [Admin, Subadmin]))
    ensures r.Ok? ==>
      r.value.row.userId == input.userId && r.value.row.eventId == input.eventId && r.value.row.regType == input.regType
      && GetRegistrationByUserAndEvent(r.value.db, input.userId, input.eventId) == Some(r.value.row)
      && Filter(r.value.db.registrations, OtherThan(input.userId, input.eventId))
         == Filter(db.registrations, OtherThan(input.userId, input.eventId))
    ensures r.Ok? && Valid(db) ==> Valid(r.value.db)
  {
    match FindEvent(db, input.eventId)
    case None => Err(NotFound)
    case Some(event) =>
      match HasTeamAccessMiddleware(db, caller, event.teamId, [Admin, Subadmin])
      case Fail(code) => Err(code)
      case Pass =>
        if FindMembership(db, input.userId, event.teamId).None? then Err(NotFound)
        else
          CreateThenGet(db, input.userId, input.eventId, input.regType, input.comment, now);
          Ok(CreateRegistration(db, input.userId, input.eventId, input.regType, input.comment, now))
  }

  /** Whether an admin update is accepted does not depend on when it is made. */
  lemma AdminUpdateIgnoresClock(db: Db, caller: User, input: AdminUpdateInput, now: int, later: int)
    ensures AdminUpdate(db, caller, input, now).Ok? == AdminUpdate(db, caller, input, later).Ok?
    ensures AdminUpdate(db, caller, input, now).Err? ==> AdminUpdate(db, caller, input, now) == AdminUpdate(db, caller, input, later)
  {
  }

  /** The store with every event's registration deadline replaced. */
  function WithDeadlines(db: Db, deadline: Option<int>): (r: Db)
    ensures r == db.(events := r.events) && |r.events| == |db.events|
    ensures forall i :: 0 <= i < |db.events| ==> r.events[i] == db.events[i].(registrationDeadline := deadline)
  {
    db.(events := seq(|db.events|, i requires 0 <= i < |db.events| => db.events[i].(registrationDeadline := deadline)))
  }

  /** The access check and the membership lookup read only the memberships. */
  lemma AccessReadsMembersOnly(db: Db, db': Db, user: User, teamId: Id, userId: Id, roles: seq<TeamRole>)
    requires db'.members == db.members
    ensures HasTeamAccessMiddleware(db', user, teamId, roles) == HasTeamAccessMiddleware(db, user, teamId, roles)
    ensures FindMembership(db', userId, teamId) == FindMembership(db, userId, teamId)
  {
  }

  /** Replacing the deadlines moves no event and changes no event's team. */
  lemma FindEventWithDeadlines(db: Db, eventId: Id, deadline: Option<int>)
    ensures FindEvent(WithDeadlines(db, deadline), eventId).Some? == FindEvent(db, eventId).Some?
    ensures FindEvent(db, eventId).Some? ==>
      FindEvent(WithDeadlines(db, deadline), eventId).value.teamId == FindEvent(db, eventId).value.teamId
  {
    var db' := WithDeadlines(db, deadline);
    var p := (e: TeamEvent) => e.id == eventId;
    var a := FindIndex(db.events, p);
    var b := FindIndex(db'.events, p);
    assert forall i :: 0 <= i < |db.events| ==> p(db'.events[i]) == p(db.events[i]);
    if a.Some? {
      assert b.Some?;
      assert b.value == a.value;
    } else {
      assert b.None?;
    }
  }

  /** Deadlines play no part in the admin update: whatever they are, the outcome is the same. */
  lemma AdminUpdateIgnoresDeadlines(db: Db, caller: User, input: AdminUpdateInput, now: int, deadline: Option<int>)
    ensures AdminUpdate(WithDeadlines(db, deadline), caller, input, now).Ok? == AdminUpdate(db, caller, input, now).Ok?
    ensures AdminUpdate(db, caller, input, now).Err? ==>
      AdminUpdate(WithDeadlines(db, deadline), caller, input, now) == AdminUpdate(db, caller, input, now)
  {
    var db' := WithDeadlines(db, deadline);
    FindEventWithDeadlines(db, input.eventId, deadline);
    if FindEvent(db, input.eventId).Some? {
      var teamId := FindEvent(db, input.eventId).value.teamId;
      AccessReadsMembersOnly(db, db', caller, teamId, input.userId, [Admin, Subadmin]);
    }
  }

  const AllRoles: seq<TeamRole> := [Admin, Subadmin, Member]

  /** The predicate of the filter: the member has no registration for the event. */
  function Unanswered(db: Db, eventId: Id): Membership -> bool {
    (m: Membership) => !HasRegistration(db, m.userId, eventId)
  }

  function Answered(db: Db, eventId: Id): Membership -> bool {
    (m: Membership) => HasRegistration(db, m.userId, eventId)
  }

  /** The members of the team who have not answered for the event, in store order. */
  function NonResponders(db: Db, teamId: Id, eventId: Id): (r: seq<Membership>)
    ensures forall i :: 0 <= i < |r| ==> r[i] in db.members && r[i].teamId == teamId && !HasRegistration(db, r[i].userId, eventId)
    ensures forall i :: 0 <= i < |db.members| && db.members[i].teamId == teamId && !HasRegistration(db, db.members[i].userId, eventId) ==>
        db.members[i] in r
    ensures Subsequence(r, TeamMembers(db, teamId))
  {
    var r := Filter(TeamMembers(db, teamId), Unanswered(db, eventId));
    FilterSubsequence(TeamMembers(db, teamId), Unanswered(db, eventId));
    assert forall i :: 0 <= i < |db.members| && db.members[i].teamId == teamId ==> db.members[i] in TeamMembers(db, teamId);
    r
  }

  function Responders(db: Db, teamId: Id, eventId: Id): seq<Membership> {
    Filter(TeamMembers(db, teamId), Answered(db, eventId))
  }

  /**
    The get-non-responded procedure: the event must exist and the caller must
    be a superadmin or hold any role in the event's team.
   */
  function GetNonResponded(db: Db, caller: User, eventId: Id): (r: Result<seq<Membership>>)
    ensures !EventExists(db, eventId) ==> r == Err(NotFound)
    ensures r.Err? ==> r.code in {NotFound, Forbidden}
    ensures MembershipsUnique(db.members) && FindEvent(db, eventId).Some? ==>
      (r.Ok? <==> caller.isAdmin || HasMembership(db, caller.id, FindEvent(db, eventId).value.teamId))
    ensures r.Ok? ==>
      FindEvent(db, eventId).Some? &&
      var teamId := FindEvent(db, eventId).value.teamId;
      && (forall i :: 0 <= i < |r.value| ==>
            r.value[i] in db.members && r.value[i].teamId == teamId && !HasRegistration(db, r.value[i].userId, eventId))
      && (forall i :: 0 <= i < |db.members| && db.members[i].teamId == teamId && !HasRegistration(db, db.members[i].userId, eventId) ==>
              db.members[i] in r.value)
      && Subsequence(r.value, TeamMembers(db, teamId))
  {
    match FindEvent(db, eventId)
    case None => Err(NotFound)
    case Some(event) =>
      AllRolesIsMembership(db, caller, event.teamId);
      match HasTeamAccessMiddleware(db, caller, event.teamId, AllRoles)
      case Fail(code) => Err(code)
      case Pass => Ok(NonResponders(db, event.teamId, eventId))
  }

  /** Every role is in the list, so holding any role is the same as being a member. */
  lemma AllRolesIsMembership(db: Db, user: User, teamId: Id)
    ensures HoldsRole(db, user, teamId, AllRoles) <==> HasMembership(db, user.id, teamId)
  {
    if HasMembership(db, user.id, teamId) {
      var i :| 0 <= i < |db.members| && IsMembership(db.members[i], user.id, teamId);
      var role := db.members[i].role;
      assert role == AllRoles[0] || role == AllRoles[1] || role == AllRoles[2];
    }
  }

  /** Every member of the team either has answered or is listed as not having answered. */
  lemma NonRespondersPartition(db: Db, teamId: Id, eventId: Id)
    ensures |NonResponders(db, teamId, eventId)| + |Responders(db, teamId, eventId)| == |TeamMembers(db, teamId)|
    ensures multiset(NonResponders(db, teamId, eventId)) + multiset(Responders(db, teamId, eventId))
         == multiset(TeamMembers(db, teamId))
  {
    FilterPartition(TeamMembers(db, teamId), Unanswered(db, eventId), Answered(db, eventId));
  }

  /** A registration by someone outside the team does not change who is listed. */
  lemma OutsiderRegistrationIrrelevant(db: Db, teamId: Id, eventId: Id, g: Registration)
    requires !HasMembership(db, g.userId, teamId)
    ensures var db' := db.(registrations := db.registrations + [g]);
      NonResponders(db', teamId, eventId) == NonResponders(db, teamId, eventId)
  {
    var db' := db.(registrations := db.registrations + [g]);
    var ms := TeamMembers(db, teamId);
    assert TeamMembers(db', teamId) == ms;
    forall i | 0 <= i < |ms|
      ensures Unanswered(db', eventId)(ms[i]) == Unanswered(db, eventId)(ms[i])
    {
      assert ms[i] in db.members;
      if HasRegistration(db', ms[i].userId, eventId) {
        var k :| 0 <= k < |db'.registrations| && IsRegistration(db'.registrations[k], ms[i].userId, eventId);
        assert k < |db.registrations|;
        assert db.registrations[k] == db'.registrations[k];
      }
      if HasRegistration(db, ms[i].userId, eventId) {
        var k :| 0 <= k < |db.registrations| && IsRegistration(db.registrations[k], ms[i].userId, eventId);
        assert db'.registrations[k] == db.registrations[k];
      }
    }
    FilterCongruent(ms, Unanswered(db', eventId), Unanswered(db, eventId));
  }

  /** Every registration for the event is by a member of the team. */
  predicate AnsweredByMembers(db: Db, eventId: Id, teamId: Id) {
    forall i :: 0 <= i < |db.registrations| && db.registrations[i].eventId == eventId ==>
      HasMembership(db, db.registrations[i].userId, teamId)
  }

  /**
    Response accounting: when every registration for the event is by a
    member of the team, the attending, not-attending and non-responded
    counts add up to the team's size.
   */
  lemma {:induction false} ResponseAccounting(db: Db, teamId: Id, eventId: Id)
    requires Valid(db)
    requires AnsweredByMembers(db, eventId, teamId)
    ensures var c := GetRegistrationCountsByEvent(db, eventId);
      c.attending + c.notAttending + |NonResponders(db, teamId, eventId)| == |TeamMembers(db, teamId)|
  {
    var ms := TeamMembers(db, teamId);
    var rs := EventRegistrations(db, eventId);
    var answered := Responders(db, teamId, eventId);
    var mUser := (m: Membership) => m.userId;
    var gUser := (g: Registration) => g.userId;
    assert |answered| == |KeySet(answered, mUser)| by {
      TeamMembersDistinctUsers(db, teamId);
      FilterKeysUnique(ms, Answered(db, eventId), mUser);
      DistinctKeysCard(answered, mUser);
    }
    assert |rs| == |KeySet(rs, gUser)| by {
      EventRegistrationsDistinctUsers(db, eventId);
      DistinctKeysCard(rs, gUser);
    }
    assert KeySet(answered, mUser) == KeySet(rs, gUser) by {
      RespondersAreRegistrants(db, teamId, eventId);
      RegistrantsAreResponders(db, teamId, eventId);
    }
    NonRespondersPartition(db, teamId, eventId);
  }

  lemma RespondersAreRegistrants(db: Db, teamId: Id, eventId: Id)
    ensures KeySet(Responders(db, teamId, eventId), (m: Membership) => m.userId)
         <= KeySet(EventRegistrations(db, eventId), (g: Registration) => g.userId)
  {
    var rs := EventRegistrations(db, eventId);
    var answered := Responders(db, teamId, eventId);
    var from := KeySet(answered, (m: Membership) => m.userId);
    forall u | u in from
      ensures u in KeySet(rs, (g: Registration) => g.userId)
    {
      var i :| 0 <= i < |answered| && answered[i].userId == u;
      assert Answered(db, eventId)(answered[i]);
      var k :| 0 <= k < |db.registrations| && IsRegistration(db.registrations[k], u, eventId);
      assert db.registrations[k] in rs;
      var j :| 0 <= j < |rs| && rs[j] == db.registrations[k];
      assert rs[j].userId == u;
    }
  }

  lemma RegistrantsAreResponders(db: Db, teamId: Id, eventId: Id)
    requires AnsweredByMembers(db, eventId, teamId)
    ensures KeySet(EventRegistrations(db, eventId), (g: Registration) => g.userId)
         <= KeySet(Responders(db, teamId, eventId), (m: Membership) => m.userId)
  {
    var ms := TeamMembers(db, teamId);
    var rs := EventRegistrations(db, eventId);
    var answered := Responders(db, teamId, eventId);
    var from := KeySet(rs, (g: Registration) => g.userId);
    forall u | u in from
      ensures u in KeySet(answered, (m: Membership) => m.userId)
    {
      var j :| 0 <= j < |rs| && rs[j].userId == u;
      assert rs[j] in db.registrations;
      var k :| 0 <= k < |db.registrations| && db.registrations[k] == rs[j];
      assert HasRegistration(db, u, eventId);
      assert HasMembership(db, u, teamId);
      var n :| 0 <= n < |db.members| && IsMembership(db.members[n], u, teamId);
      assert db.members[n] in ms;
      var mi :| 0 <= mi < |ms| && ms[mi] == db.members[n];
      assert Answered(db, eventId)(ms[mi]);
      assert ms[mi] in answered;
      var ai :| 0 <= ai < |answered| && answered[ai] == ms[mi];
      assert answered[ai].userId == u;
    }
  }

  /** The recipients are exactly the emails of the members who get a reminder. */
  lemma RecipientsAreReminded(db: Db, teamId: Id, eventId: Id, emails: seq<string>)
    requires emails == EmailsOf(db, NonResponders(db, teamId, eventId))
    ensures forall k :: 0 <= k < |emails| ==> ReminderAddress(db, teamId, eventId, emails[k])
    ensures forall i :: 0 <= i < |db.members| && Reminded(db, teamId, eventId, db.members[i]) ==>
      EmailOf(db, db.members[i].userId) in emails
  {
    var ms := NonResponders(db, teamId, eventId);
    forall k | 0 <= k < |emails|
      ensures ReminderAddress(db, teamId, eventId, emails[k])
    {
      var i := RecipientSource(db, teamId, eventId, ms, k);
      assert emails[k] == EmailOf(db, ms[k].userId);
      assert 0 <= i < |db.members| && Reminded(db, teamId, eventId, db.members[i])
             && EmailOf(db, db.members[i].userId) == emails[k];
    }
    forall i | 0 <= i < |db.members| && Reminded(db, teamId, eventId, db.members[i])
      ensures EmailOf(db, db.members[i].userId) in emails
    {
      var k :| 0 <= k < |ms| && ms[k] == db.members[i];
      assert emails[k] == EmailOf(db, db.members[i].userId);
    }
  }

  /** The email belongs to some reminded member of the store. */
  predicate ReminderAddress(db: Db, teamId: Id, eventId: Id, email: string) {
    exists i :: 0 <= i < |db.members| && Reminded(db, teamId, eventId, db.members[i])
                && EmailOf(db, db.members[i].userId) == email
  }

  /** The k-th non-responder is a reminded row of the store. */
  lemma RecipientSource(db: Db, teamId: Id, eventId: Id, ms: seq<Membership>, k: int) returns (i: int)
    requires ms == NonResponders(db, teamId, eventId) && 0 <= k < |ms|
    ensures 0 <= i < |db.members| && db.members[i] == ms[k] && Reminded(db, teamId, eventId, db.members[i])
  {
    assert ms[k] in db.members && ms[k].teamId == teamId && !HasRegistration(db, ms[k].userId, eventId);
    i :| 0 <= i < |db.members| && db.members[i] == ms[k];
  }

  /** A member of the team with no registration for the event gets a reminder. */
  predicate Reminded(db: Db, teamId: Id, eventId: Id, m: Membership) {
    m.teamId == teamId && !HasRegistration(db, m.userId, eventId)
  }

  /**
    The notify procedure: only a superadmin or an ADMIN of the given team may
    send reminders; the event must exist, but it is not checked to belong to
    that team. The result is the recipient list of the reminder email.
   */
  function NotifyRecipients(db: Db, caller: User, input: NotifyInput): (r: Result<seq<string>>)
    ensures MembershipsUnique(db.members) ==>
      (r == Err(Forbidden) <==> !caller.isAdmin && !HoldsRole(db, caller, input.teamId, [Admin]))
    ensures r.Err? ==> r.code in {NotFound, Forbidden}
    ensures (caller.isAdmin || HoldsRole(db, caller, input.teamId, [Admin])) && MembershipsUnique(db.members) ==>
      (r.Ok? <==> EventExists(db, input.eventId))
    ensures r.Ok? ==> |r.value| == |NonResponders(db, input.teamId, input.eventId)|
    ensures r.Ok? ==>
      forall k :: 0 <= k < |r.value| ==> ReminderAddress(db, input.teamId, input.eventId, r.value[k])
    ensures r.Ok? ==>
      forall k :: 0 <= k < |r.value| ==>
        r.value[k] == EmailOf(db, NonResponders(db, input.teamId, input.eventId)[k].userId)
    ensures r.Ok? ==>
      forall i :: 0 <= i < |db.members| && Reminded(db, input.teamId, input.eventId, db.members[i]) ==>
        EmailOf(db, db.members[i].userId) in r.value
  {
    match HasTeamAccessMiddleware(db, caller, input.teamId, [Admin])
    case Fail(code) => Err(code)
    case Pass =>
      if FindEvent(db, input.eventId).None? then Err(NotFound)
      else
        var ms := NonResponders(db, input.teamId, input.eventId);
        var emails := EmailsOf(db, ms);
        RecipientsAreReminded(db, input.teamId, input.eventId, emails);
        Ok(emails)
  }

  /** A SUBADMIN, however senior otherwise, cannot send reminders. */
  lemma SubadminCannotNotify(db: Db, caller: User, input: NotifyInput, i: nat)
    requires MembershipsUnique(db.members) && !caller.isAdmin
    requires i < |db.members| && IsMembership(db.members[i], caller.id, input.teamId) && db.members[i].role == Subadmin
    ensures NotifyRecipients(db, caller, input) == Err(Forbidden)
  {
    FindMembershipUnique(db, caller.id, input.teamId, i);
    PassOnlyWithRole(db, caller, input.teamId, [Admin], db.members[i]);
    assert HasTeamAccessMiddleware(db, caller, input.teamId, [Admin]) == Fail(Forbidden);
  }

  /** One team "t" with one member "u1", an outsider "u2", and one event "e" of the team. */
  function SmallTeam(): (db: Db)
    ensures Valid(db)
  {
    var db := Db([User("u1", false, "a@x", "A", 0), User("u2", false, "b@x", "B", 0)],
                 [Team("t", "T", None)],
                 [Membership("m", "u1", "t", Member, 0)],
                 [TeamEvent("e", "t", "E", Training, 0, None, None, None, None)],
                 [], []);
    assert db.users[0].id == "u1" && db.teams[0].id == "t";
    assert UserExists(db, "u1") && TeamExists(db, "t");
    db
  }

  /**
    The self-service create procedure does not check membership, so an
    outsider's answer is counted by the event's totals while every member
    is still listed as not having answered: the three counts then exceed
    the team's size.
   */
  lemma OutsiderBreaksAccounting()
    ensures var db := RegisterSelf(SmallTeam(), User("u2", false, "b@x", "B", 0), CreateInput("e", Attending, None), 0).db;
      var c := GetRegistrationCountsByEvent(db, "e");
      && Valid(db)
      && c.attending + c.notAttending + |NonResponders(db, "t", "e")| == |TeamMembers(db, "t")| + 1
  {
    var w := RegisterSelf(SmallTeam(), User("u2", false, "b@x", "B", 0), CreateInput("e", Attending, None), 0);
    OutsiderStore();
    OneOutsiderCounts(w.db, w.row);
  }

  /** The small team's store after the outsider's answer: the member rows as before and one registration. */
  lemma OutsiderStore()
    ensures var w := RegisterSelf(SmallTeam(), User("u2", false, "b@x", "B", 0), CreateInput("e", Attending, None), 0);
      && Valid(w.db)
      && w.db.members == [Membership("m", "u1", "t", Member, 0)]
      && w.db.registrations == [w.row]
      && w.row.userId == "u2" && w.row.eventId == "e"
  {
    var db0 := SmallTeam();
    var w := RegisterSelf(db0, User("u2", false, "b@x", "B", 0), CreateInput("e", Attending, None), 0);
    assert FindRegistrationIndex(db0, "u2", "e").None?;
    assert db0.registrations == [];
  }

  /** With one member "u1" and one answer by "u2", the answer counts and "u1" is still a non-responder. */
  lemma OneOutsiderCounts(db: Db, g: Registration)
    requires db.members == [Membership("m", "u1", "t", Member, 0)] && db.registrations == [g]
    requires g.userId == "u2" && g.eventId == "e"
    ensures var c := GetRegistrationCountsByEvent(db, "e");
      c.attending + c.notAttending + |NonResponders(db, "t", "e")| == |TeamMembers(db, "t")| + 1
  {
    var m := db.members[0];
    assert TeamMembers(db, "t") == [m] by {
      assert Filter(db.members, (n: Membership) => n.teamId == "t") == [m] + Filter([], (n: Membership) => n.teamId == "t");
    }
    assert !HasRegistration(db, "u1", "e");
    assert NonResponders(db, "t", "e") == [m] by {
      assert Unanswered(db, "e")(m);
      assert Filter([m], Unanswered(db, "e")) == [m] + Filter([], Unanswered(db, "e"));
    }
    assert EventRegistrations(db, "e") == [g] by {
      assert Filter([g], (r: Registration) => r.eventId == "e")
          == [g] + Filter([], (r: Registration) => r.eventId == "e");
    }
  }

  /**
    Self-registration as evidently intended: the caller must be a member of
    the event's team, and the event must exist.
   */
  function RegisterAsMember(db: Db, caller: User, input: CreateInput, now: int): (r: Result<Written>)
    ensures r.Ok? <==> FindEvent(db, input.eventId).Some? && HasMembership(db, caller.id, FindEvent(db, input.eventId).value.teamId)
    ensures !EventExists(db, input.eventId) ==> r == Err(NotFound)
    ensures r.Err? ==> r.code in {NotFound, Forbidden}
    ensures r.Ok? ==> r.value == RegisterSelf(db, caller, input, now)
  {
    match FindEvent(db, input.eventId)
    case None => Err(NotFound)
    case Some(event) =>
      if !HasMembership(db, caller.id, event.teamId) then Err(Forbidden)
      else Ok(RegisterSelf(db, caller, input, now))
  }

  /** In a valid store, looking up an event by its own id finds that event. */
  lemma FindEventUnique(db: Db, ev: TeamEvent)
    requires Valid(db) && ev in db.events
    ensures FindEvent(db, ev.id) == Some(ev)
  {
    var p := (e: TeamEvent) => e.id == ev.id;
    var i :| 0 <= i < |db.events| && db.events[i] == ev;
    var j := FindIndex(db.events, p);
    assert j.Some?;
    assert j.value == i;
  }

  /**
    The corrected procedure keeps every event answered only by its team's
    members, so the response accounting keeps holding.
   */
  lemma RegisterAsMemberKeepsAccounting(db: Db, caller: User, input: CreateInput, now: int, ev: TeamEvent)
    requires Valid(db) && ev in db.events && AnsweredByMembers(db, ev.id, ev.teamId)
    requires RegisterAsMember(db, caller, input, now).Ok?
    ensures var db' := RegisterAsMember(db, caller, input, now).value.db;
      Valid(db') && AnsweredByMembers(db', ev.id, ev.teamId)
  {
    var db' := RegisterAsMember(db, caller, input, now).value.db;
    FindEventUnique(db, ev);
    assert db'.members == db.members;
    forall k | 0 <= k < |db'.registrations| && db'.registrations[k].eventId == ev.id
      ensures HasMembership(db', db'.registrations[k].userId, ev.teamId)
    {
      var g := db'.registrations[k];
      if g in db.registrations {
        var j :| 0 <= j < |db.registrations| && db.registrations[j] == g;
        assert HasMembership(db, g.userId, ev.teamId);
      } else {
        assert IsRegistration(g, caller.id, input.eventId);
        assert FindEvent(db, input.eventId) == Some(ev);
      }
    }
  }
}

=== FILE: search_input.dfy ===
/**
  The search box of the listings (src/components/navigation/search-input.tsx).

  The 500 ms debounce is not modelled: `Settled` is what happens once the
  typed value has settled.
 */
module SearchInput {
  import opened Wrappers
  import opened QueryParams
  import opened UriCodec

  /**
    The initial box content: "" when the `search` parameter is absent or
    empty, otherwise `decodeURIComponent` of it. `get` has already decoded
    the query string once, so this decodes a second time; `None` is the
    URIError that second decode throws.
   */
  function DefaultValue(ps: Params): (r: Option<string>)
    ensures Get(ps, "search").None? || Get(ps, "search") == Some("") ==> r == Some("")
    ensures Get(ps, "search").Some? && '%' !in Get(ps, "search").value ==> r == Get(ps, "search")
    ensures r.None? ==> Get(ps, "search").Some? && '%' in Get(ps, "search").value
  {
    match Get(ps, "search")
    case None => Some("")
    case Some(v) => if v != "" then DecodeUri(v) else Some("")
  }

  /** The initial box content as evidently intended: the parameter as `get` returns it, or "". */
  function DefaultValueFixed(ps: Params): (r: string)
    ensures Get(ps, "search").Some? ==> r == Get(ps, "search").value
    ensures Get(ps, "search").None? ==> r == ""
  {
    Get(ps, "search").GetOr("")
  }

  /** `onSearch`: back to the first page, with the new search. */
  function OnSearch(ps: Params, search: string): (r: Params)
    ensures Get(r, "page") == Some("1") && Get(r, "search") == Some(search)
    ensures forall k :: k != "page" && k != "search" ==> Get(r, k) == Get(ps, k)
  {
    var withPage := Set(ps, "page", "1");
    SetKeepsAllOthers(ps, "page", "1");
    SetKeepsAllOthers(withPage, "search", search);
    SetKeepsOthers(withPage, "search", search, "page");
    Set(withPage, "search", search)
  }

  /** `removeSearch`: only the search goes; the page stays. */
  function RemoveSearch(ps: Params): (r: Params)
    ensures Get(r, "search").None?
    ensures forall k :: k != "search" ==> Get(r, k) == Get(ps, k)
  {
    DeleteKeepsAllOthers(ps, "search");
    Delete(ps, "search")
  }

  /** The effect of a settled value: a non-empty value searches, an empty one removes the search. */
  function Settled(ps: Params, value: string): (r: Params)
    ensures value != "" ==> Get(r, "search") == Some(value) && Get(r, "page") == Some("1")
    ensures value == "" ==> Get(r, "search").None? && Get(r, "page") == Get(ps, "page")
    ensures forall k :: k != "page" && k != "search" ==> Get(r, k) == Get(ps, k)
  {
    if value != "" then OnSearch(ps, value) else RemoveSearch(ps)
  }

  /**
    After a settled search, the box shows the same text on reload only as
    long as the text has no `%`: the second decode turns "a%20b" into
    "a b" and throws on "100%".
   */
  lemma PlainSearchRoundTrip(ps: Params, value: string)
    requires '%' !in value
    ensures DefaultValue(Settled(ps, value)) == Some(value)
  {
  }

  lemma PercentSearchBreaksReload(ps: Params)
    ensures DefaultValue(Settled(ps, "100%")) == None
    ensures DefaultValue(Settled(ps, "a%20b")) == Some("a b")
  {
    TrailingPercentThrows();
    EscapeDecodedTwice();
  }

  /** `decodeURIComponent("100%")` throws: the last `%` has no hex digits after it. */
  lemma TrailingPercentThrows()
    ensures DecodeUri("100%") == None
  {
    assert DecodeOne("%") == None;
    assert DecodeUri("%") == None;
    assert DecodeUri("0%") == None;
    assert DecodeUri("00%") == None;
  }

  /** `decodeURIComponent("a%20b")` is "a b". */
  lemma EscapeDecodedTwice()
    ensures DecodeUri("a%20b") == Some("a b")
  {
    assert EscapedByte("%20b", 0) == Some(32);
    assert DecodeOne("%20b") == Some((' ', 3));
    assert "%20b"[3..] == "b";
    assert DecodeUri("b") == Some("b");
    assert [' '] + "b" == " b" && ['a'] + " b" == "a b";
    assert DecodeUri("%20b") == Some(" b");
    PlainHead('a', "%20b");
    assert "a%20b" == ['a'] + "%20b";
    assert DecodeUri(['a'] + "%20b") == Some(['a'] + " b");
  }

  /** A character other than `%` is copied and decoding goes on after it. */
  lemma PlainHead(c: char, t: string)
    requires c != '%'
    ensures DecodeUri([c] + t) == (if DecodeUri(t).Some? then Some([c] + DecodeUri(t).value) else None)
  {
    assert ([c] + t)[1..] == t;
  }

  /** With the single decode, reloading after any settled search shows the same text again. */
  lemma SettledRoundTrip(ps: Params, value: string)
    ensures DefaultValueFixed(Settled(ps, value)) == value
  {
  }
}

=== FILE: sequences.dfy ===
/**
  Sequence helpers: filtering and a stable sort by an integer key.

  The store's `orderBy` clauses and JavaScript's `Array.prototype.sort`
  (stable since ES2019) are both modelled by `SortBy`.
 */
module Sequences {
  import opened Wrappers

  function Filter<T>(s: seq<T>, p: T -> bool): (r: seq<T>)
    ensures |r| <= |s|
    ensures forall i :: 0 <= i < |r| ==> r[i] in s && p(r[i])
    ensures forall i :: 0 <= i < |s| && p(s[i]) ==> s[i] in r
    decreases |s|
  {
    if |s| == 0 then []
    else (if p(s[0]) then [s[0]] else []) + Filter(s[1..], p)
  }

  /** `idx` maps each element of `r`, in strictly increasing positions, onto an equal element of `s`. */
  ghost predicate Embeds<T>(r: seq<T>, s: seq<T>, idx: seq<nat>) {
    && |idx| == |r|
    && (forall i :: 0 <= i < |idx| ==> idx[i] < |s| && r[i] == s[idx[i]])
    && (forall i, j :: 0 <= i < j < |idx| ==> idx[i] < idx[j])
  }

  /** `r` is `s` with some elements dropped and the rest left in their order. */
  ghost predicate Subsequence<T>(r: seq<T>, s: seq<T>) {
    exists idx :: Embeds(r, s, idx)
  }

  /** Each index moved one place on. */
  function Shift(idx: seq<nat>): (r: seq<nat>)
    ensures |r| == |idx| && forall i :: 0 <= i < |idx| ==> r[i] == idx[i] + 1
  {
    seq(|idx|, i requires 0 <= i < |idx| => idx[i] + 1)
  }

  /** An embedding into `t` is, shifted, an embedding into `[x] + t`. */
  lemma EmbedsShift<T>(r: seq<T>, x: T, t: seq<T>, idx: seq<nat>)
    requires Embeds(r, t, idx)
    ensures Embeds(r, [x] + t, Shift(idx))
  {
    var js := Shift(idx);
    forall i | 0 <= i < |js|
      ensures js[i] < |[x] + t| && r[i] == ([x] + t)[js[i]]
    {
      assert ([x] + t)[idx[i] + 1] == t[idx[i]];
    }
  }

  /** A shifted embedding extends by mapping a new head onto the head. */
  lemma EmbedsCons<T>(r: seq<T>, x: T, t: seq<T>, idx: seq<nat>)
    requires Embeds(r, [x] + t, Shift(idx))
    ensures Embeds([x] + r, [x] + t, [0] + Shift(idx))
  {
    var js := [0] + Shift(idx);
    forall i, j | 0 <= i < j < |js|
      ensures js[i] < js[j]
    {
      if i > 0 {
        assert js[i] == Shift(idx)[i - 1] && js[j] == Shift(idx)[j - 1];
      }
    }
    forall i | 0 <= i < |js|
      ensures js[i] < |[x] + t| && ([x] + r)[i] == ([x] + t)[js[i]]
    {
      if i > 0 {
        assert js[i] == Shift(idx)[i - 1];
      }
    }
  }

  /** Filtering keeps the relative order of the elements it keeps. */
  lemma {:induction false} FilterEmbeds<T>(s: seq<T>, p: T -> bool) returns (idx: seq<nat>)
    ensures Embeds(Filter(s, p), s, idx)
    decreases |s|
  {
    if |s| == 0 {
      idx := [];
    } else {
      var rest := FilterEmbeds(s[1..], p);
      assert s == [s[0]] + s[1..];
      EmbedsShift(Filter(s[1..], p), s[0], s[1..], rest);
      if p(s[0]) {
        EmbedsCons(Filter(s[1..], p), s[0], s[1..], rest);
        idx := [0] + Shift(rest);
      } else {
        idx := Shift(rest);
      }
    }
  }

  lemma FilterSubsequence<T>(s: seq<T>, p: T -> bool)
    ensures Subsequence(Filter(s, p), s)
  {
    var idx := FilterEmbeds(s, p);
  }

  lemma {:induction false} FilterConcat<T>(a: seq<T>, b: seq<T>, p: T -> bool)
    ensures Filter(a + b, p) == Filter(a, p) + Filter(b, p)
    decreases |a|
  {
    if |a| == 0 {
      assert a + b == b;
    } else {
      assert (a + b)[0] == a[0];
      assert (a + b)[1..] == a[1..] + b;
      FilterConcat(a[1..], b, p);
    }
  }

  /** Filtering twice by the same predicate changes nothing. */
  lemma {:induction false} FilterIdempotent<T>(s: seq<T>, p: T -> bool)
    ensures Filter(Filter(s, p), p) == Filter(s, p)
    decreases |s|
  {
    if |s| > 0 {
      FilterIdempotent(s[1..], p);
      FilterConcat(if p(s[0]) then [s[0]] else [], Filter(s[1..], p), p);
    }
  }

  /** A filter that keeps every element returns the sequence itself. */
  lemma {:induction false} FilterAll<T>(s: seq<T>, p: T -> bool)
    requires forall i :: 0 <= i < |s| ==> p(s[i])
    ensures Filter(s, p) == s
    decreases |s|
  {
    if |s| > 0 {
      FilterAll(s[1..], p);
    }
  }

  /** A filter that keeps nothing returns the empty sequence. */
  lemma {:induction false} FilterNone<T>(s: seq<T>, p: T -> bool)
    requires forall i :: 0 <= i < |s| ==> !p(s[i])
    ensures Filter(s, p) == []
    decreases |s|
  {
    if |s| > 0 {
      FilterNone(s[1..], p);
    }
  }

  /** Filters that agree on every element of `s` give the same result. */
  lemma {:induction false} FilterCongruent<T>(s: seq<T>, p: T -> bool, q: T -> bool)
    requires forall i :: 0 <= i < |s| ==> p(s[i]) == q(s[i])
    ensures Filter(s, p) == Filter(s, q)
    decreases |s|
  {
    if |s| > 0 {
      FilterCongruent(s[1..], p, q);
    }
  }

  /** Splitting by a predicate and its negation partitions the elements. */
  lemma FilterPartition<T>(s: seq<T>, p: T -> bool, q: T -> bool)
    requires forall i :: 0 <= i < |s| ==> q(s[i]) == !p(s[i])
    ensures |Filter(s, p)| + |Filter(s, q)| == |s|
    ensures multiset(Filter(s, p)) + multiset(Filter(s, q)) == multiset(s)
  {
    forall x
      ensures (multiset(Filter(s, p)) + multiset(Filter(s, q)))[x] == multiset(s)[x]
    {
      FilterCount(s, p, x);
      FilterCount(s, q, x);
      if x in multiset(s) {
        var i :| 0 <= i < |s| && s[i] == x;
      }
    }
    assert multiset(Filter(s, p)) + multiset(Filter(s, q)) == multiset(s);
    assert |multiset(Filter(s, p))| == |Filter(s, p)|;
  }

  /** Filtering by `p` and then by `q` is filtering once by their conjunction `pq`. */
  lemma {:induction false} FilterFilter<T>(s: seq<T>, p: T -> bool, q: T -> bool, pq: T -> bool)
    requires forall i :: 0 <= i < |s| ==> pq(s[i]) == (p(s[i]) && q(s[i]))
    ensures Filter(Filter(s, p), q) == Filter(s, pq)
    decreases |s|
  {
    if |s| > 0 {
      FilterFilter(s[1..], p, q, pq);
      FilterConcat(if p(s[0]) then [s[0]] else [], Filter(s[1..], p), q);
    }
  }

  lemma {:induction false} FilterMultiset<T>(s: seq<T>, p: T -> bool)
    ensures multiset(Filter(s, p)) <= multiset(s)
    decreases |s|
  {
    if |s| > 0 {
      FilterMultiset(s[1..], p);
      assert s == [s[0]] + s[1..];
    }
  }

  /** Filtering keeps every copy of an element `p` accepts and no copy of one it rejects. */
  lemma {:induction false} FilterCount<T>(s: seq<T>, p: T -> bool, x: T)
    ensures multiset(Filter(s, p))[x] == if p(x) then multiset(s)[x] else 0
    decreases |s|
  {
    if |s| > 0 {
      FilterCount(s[1..], p, x);
      assert s == [s[0]] + s[1..];
    }
  }

  /** `findFirst`/`find`: the index of the first element satisfying `p`. */
  function FindIndex<T>(s: seq<T>, p: T -> bool): (r: Option<nat>)
    ensures r.Some? ==> r.value < |s| && p(s[r.value])
    ensures r.Some? ==> forall k :: 0 <= k < r.value ==> !p(s[k])
    ensures r.None? ==> forall k :: 0 <= k < |s| ==> !p(s[k])
    decreases |s|
  {
    if |s| == 0 then None
    else if p(s[0]) then Some(0)
    else match FindIndex(s[1..], p)
      case None => None
      case Some(i) => Some(i + 1)
  }

  /** Replacing the first match by another match leaves the first match where it was. */
  lemma {:induction false} FindIndexUpdate<T>(s: seq<T>, p: T -> bool, i: nat, x: T)
    requires FindIndex(s, p) == Some(i) && p(x)
    ensures FindIndex(s[i := x], p) == Some(i)
    decreases |s|
  {
    if i > 0 {
      assert s[i := x][1..] == s[1..][i - 1 := x];
      FindIndexUpdate(s[1..], p, i - 1, x);
    }
  }

  /** Appending a match to a sequence without one makes the new element the first match. */
  lemma {:induction false} FindIndexAppendMatch<T>(s: seq<T>, p: T -> bool, x: T)
    requires FindIndex(s, p).None? && p(x)
    ensures FindIndex(s + [x], p) == Some(|s|)
    decreases |s|
  {
    if |s| > 0 {
      assert (s + [x])[1..] == s[1..] + [x];
      FindIndexAppendMatch(s[1..], p, x);
    } else {
      assert (s + [x])[0] == x;
    }
  }

  /** Replacing an element the search skips by another it skips leaves the search's answer. */
  lemma {:induction false} FindIndexUpdateOther<T>(s: seq<T>, p: T -> bool, i: nat, x: T)
    requires i < |s| && !p(s[i]) && !p(x)
    ensures FindIndex(s[i := x], p) == FindIndex(s, p)
    decreases |s|
  {
    if i > 0 {
      assert s[i := x][1..] == s[1..][i - 1 := x];
      FindIndexUpdateOther(s[1..], p, i - 1, x);
    } else {
      assert s[i := x][1..] == s[1..];
    }
  }

  /** Appending an element the search skips leaves the search's answer. */
  lemma {:induction false} FindIndexAppendOther<T>(s: seq<T>, p: T -> bool, x: T)
    requires !p(x)
    ensures FindIndex(s + [x], p) == FindIndex(s, p)
    decreases |s|
  {
    if |s| > 0 {
      assert (s + [x])[1..] == s[1..] + [x];
      FindIndexAppendOther(s[1..], p, x);
    } else {
      assert FindIndex([x], p) == FindIndex([x][1..], p) == None;
    }
  }

  /** Sorting keeps exactly the same elements. */
  lemma SortByElements<T>(s: seq<T>, key: T -> int)
    ensures forall i :: 0 <= i < |SortBy(s, key)| ==> SortBy(s, key)[i] in s
    ensures forall i :: 0 <= i < |s| ==> s[i] in SortBy(s, key)
  {
    var r := SortBy(s, key);
    forall i | 0 <= i < |r| ensures r[i] in s {
      assert r[i] in multiset(r);
    }
    forall i | 0 <= i < |s| ensures s[i] in r {
      assert s[i] in multiset(s);
    }
  }

  // ---------------------------------------------------------------------
  // Keys and counting

  /** No two elements share a key. */
  predicate KeysUnique<T, K(==)>(s: seq<T>, key: T -> K) {
    forall i, j :: 0 <= i < j < |s| ==> key(s[i]) != key(s[j])
  }

  function KeySet<T, K>(s: seq<T>, key: T -> K): set<K> {
    set i | 0 <= i < |s| :: key(s[i])
  }

  /** With distinct keys, there are as many keys as elements. */
  lemma {:induction false} DistinctKeysCard<T, K>(s: seq<T>, key: T -> K)
    requires KeysUnique(s, key)
    ensures |KeySet(s, key)| == |s|
    decreases |s|
  {
    if |s| > 0 {
      DistinctKeysCard(s[1..], key);
      var rest := KeySet(s[1..], key);
      assert KeySet(s, key) == {key(s[0])} + rest by {
        forall k | k in KeySet(s, key)
          ensures k in {key(s[0])} + rest
        {
          var i :| 0 <= i < |s| && key(s[i]) == k;
          if i > 0 {
            assert key(s[1..][i - 1]) == k;
          }
        }
      }
      assert key(s[0]) !in rest;
    }
  }

  /** A subset has no more elements than its superset. */
  lemma {:induction false} SubsetCard<K>(a: set<K>, b: set<K>)
    requires a <= b
    ensures |a| <= |b|
    decreases |a|
  {
    if a != {} {
      var x :| x in a;
      SubsetCard(a - {x}, b - {x});
    }
  }

  /** Filtering keeps keys distinct. */
  lemma {:induction false} FilterKeysUnique<T, K>(s: seq<T>, p: T -> bool, key: T -> K)
    requires KeysUnique(s, key)
    ensures KeysUnique(Filter(s, p), key)
    ensures KeySet(Filter(s, p), key) <= KeySet(s, key)
    decreases |s|
  {
    if |s| > 0 {
      FilterKeysUnique(s[1..], p, key);
      var rest := Filter(s[1..], p);
      assert key(s[0]) !in KeySet(s[1..], key);
      forall i | 0 <= i < |rest|
        ensures key(rest[i]) in KeySet(s[1..], key)
      {
        assert rest[i] in s[1..];
      }
      forall k | k in KeySet(Filter(s, p), key)
        ensures k in KeySet(s, key)
      {
        var i :| 0 <= i < |Filter(s, p)| && key(Filter(s, p)[i]) == k;
        assert Filter(s, p)[i] in s;
      }
    }
  }

  /** Replacing an element by one the filter treats alike keeps the count. */
  lemma {:induction false} FilterUpdateCount<T>(s: seq<T>, i: nat, x: T, p: T -> bool)
    requires i < |s| && p(x) == p(s[i])
    ensures |Filter(s[i := x], p)| == |Filter(s, p)|
    ensures !p(x) ==> Filter(s[i := x], p) == Filter(s, p)
    decreases |s|
  {
    if i > 0 {
      assert s[i := x][1..] == s[1..][i - 1 := x];
      FilterUpdateCount(s[1..], i - 1, x, p);
    } else {
      assert s[i := x][1..] == s[1..];
    }
  }

  /** Replacing element `i` by `x` moves the count by what the filter says of the two. */
  lemma {:induction false} FilterUpdateDelta<T>(s: seq<T>, i: nat, x: T, p: T -> bool)
    requires i < |s|
    ensures |Filter(s[i := x], p)| + (if p(s[i]) then 1 else 0) == |Filter(s, p)| + (if p(x) then 1 else 0)
    decreases |s|
  {
    if i > 0 {
      assert s[i := x][1..] == s[1..][i - 1 := x];
      FilterUpdateDelta(s[1..], i - 1, x, p);
    } else {
      assert s[i := x][1..] == s[1..];
    }
  }

  /** The filter keeps as many elements as there are indices whose element satisfies `p`. */
  lemma {:induction false} FilterCountsIndices<T>(s: seq<T>, p: T -> bool)
    ensures |Filter(s, p)| == |IndicesWhere(s, p)|
    decreases |s|
  {
    if |s| > 0 {
      var init := s[..|s| - 1];
      var x := s[|s| - 1];
      assert s == init + [x];
      FilterConcat(init, [x], p);
      FilterCountsIndices(init, p);
      IndicesSnoc(init, x, p);
    }
  }

  /** The indices whose element satisfies `p`. */
  function IndicesWhere<T>(s: seq<T>, p: T -> bool): set<int> {
    set i | 0 <= i < |s| && p(s[i])
  }

  /** Appending `x` adds its index to the satisfying indices exactly when `p(x)`. */
  lemma IndicesSnoc<T>(init: seq<T>, x: T, p: T -> bool)
    ensures |IndicesWhere(init + [x], p)| == |IndicesWhere(init, p)| + |Filter([x], p)|
  {
    var last: set<int> := if p(x) then {|init|} else {};
    IndicesSnocSet(init, x, p);
    assert IndicesWhere(init, p) !! last;
    assert |Filter([x], p)| == |last|;
  }

  lemma IndicesSnocSet<T>(init: seq<T>, x: T, p: T -> bool)
    ensures IndicesWhere(init + [x], p) == IndicesWhere(init, p) + (if p(x) then {|init|} else {})
  {
    var s := init + [x];
    var before := IndicesWhere(init, p);
    var last: set<int> := if p(x) then {|init|} else {};
    forall i | i in IndicesWhere(s, p) ensures i in before + last {
      if i < |init| {
        assert init[i] == s[i];
      }
    }
    forall i | i in before ensures i in IndicesWhere(s, p) {
      assert init[i] == s[i];
    }
  }

  /** With distinct keys, a filter that keeps only one key value keeps at most one element. */
  lemma {:induction false} FilterSingleKey<T, K>(s: seq<T>, p: T -> bool, key: T -> K, k: K)
    requires KeysUnique(s, key)
    requires forall i :: 0 <= i < |s| && p(s[i]) ==> key(s[i]) == k
    ensures |Filter(s, p)| <= 1
    decreases |s|
  {
    if |s| > 0 {
      if p(s[0]) {
        forall i | 0 <= i < |s[1..]|
          ensures !p(s[1..][i])
        {
          assert s[1..][i] == s[i + 1];
        }
        FilterNone(s[1..], p);
      } else {
        FilterSingleKey(s[1..], p, key, k);
      }
    }
  }

  /** An element the filter keeps makes the result non-empty. */
  lemma FilterNonEmpty<T>(s: seq<T>, i: nat, p: T -> bool)
    requires i < |s| && p(s[i])
    ensures |Filter(s, p)| >= 1
  {
    assert s[i] in Filter(s, p);
  }

  /** Removing the element at index `i`. */
  function RemoveAt<T>(s: seq<T>, i: nat): (r: seq<T>)
    requires i < |s|
    ensures |r| == |s| - 1
    ensures forall k :: 0 <= k < i ==> r[k] == s[k]
    ensures forall k :: i <= k < |r| ==> r[k] == s[k + 1]
  {
    s[..i] + s[i + 1..]
  }

  // ---------------------------------------------------------------------
  // Stable sort by key

  predicate SortedBy<T>(s: seq<T>, key: T -> int) {
    forall i, j :: 0 <= i < j < |s| ==> key(s[i]) <= key(s[j])
  }

  /** Inserts `x` before the first element whose key is not smaller. */
  function InsertBy<T>(x: T, s: seq<T>, key: T -> int): (r: seq<T>)
    requires SortedBy(s, key)
    ensures SortedBy(r, key)
    ensures multiset(r) == multiset{x} + multiset(s)
    ensures |r| == |s| + 1
    ensures forall i :: 0 <= i < |r| ==> r[i] == x || r[i] in s
    decreases |s|
  {
    if |s| == 0 || key(x) <= key(s[0]) then
      ConsSorted(x, s, key);
      [x] + s
    else
      var t := InsertBy(x, s[1..], key);
      assert forall i :: 0 <= i < |t| ==> key(s[0]) <= key(t[i]) by {
        forall i | 0 <= i < |t|
          ensures key(s[0]) <= key(t[i])
        {
          if t[i] != x {
            var k :| 0 <= k < |s[1..]| && s[1..][k] == t[i];
            assert s[k + 1] == t[i];
          }
        }
      }
      ConsSorted(s[0], t, key);
      assert s == [s[0]] + s[1..];
      [s[0]] + t
  }

  /** A head no greater than the first element of a sorted sequence keeps it sorted. */
  lemma ConsSorted<T>(h: T, t: seq<T>, key: T -> int)
    requires SortedBy(t, key) && (|t| == 0 || key(h) <= key(t[0]))
    ensures SortedBy([h] + t, key)
  {
    var r := [h] + t;
    forall i, j | 0 <= i < j < |r|
      ensures key(r[i]) <= key(r[j])
    {
      if i == 0 {
        assert r[j] == t[j - 1];
        if j > 1 {
          assert key(t[0]) <= key(t[j - 1]);
        }
      } else {
        assert r[i] == t[i - 1] && r[j] == t[j - 1];
      }
    }
  }

  /** Insertion sort, ascending by `key`; elements with equal keys keep their order. */
  function SortBy<T>(s: seq<T>, key: T -> int): (r: seq<T>)
    ensures SortedBy(r, key)
    ensures multiset(r) == multiset(s)
    ensures |r| == |s|
    decreases |s|
  {
    if |s| == 0 then []
    else
      var r := InsertBy(s[0], SortBy(s[1..], key), key);
      assert s == [s[0]] + s[1..];
      r
  }

  /** On the elements of `s`, `p` holds exactly of those whose key is `k`. */
  predicate SelectsKey<T>(s: seq<T>, p: T -> bool, key: T -> int, k: int) {
    forall i :: 0 <= i < |s| ==> p(s[i]) == (key(s[i]) == k)
  }

  lemma {:induction false} InsertByFilter<T>(x: T, s: seq<T>, key: T -> int, k: int, p: T -> bool)
    requires SortedBy(s, key) && SelectsKey(s, p, key, k) && p(x) == (key(x) == k)
    ensures Filter(InsertBy(x, s, key), p) == (if p(x) then [x] else []) + Filter(s, p)
    decreases |s|
  {
    var px := if p(x) then [x] else [];
    if |s| == 0 || key(x) <= key(s[0]) {
      assert InsertBy(x, s, key) == [x] + s;
      assert ([x] + s)[0] == x && ([x] + s)[1..] == s;
    } else {
      var rest := s[1..];
      assert SelectsKey(rest, p, key, k) by {
        forall i | 0 <= i < |rest|
          ensures p(rest[i]) == (key(rest[i]) == k)
        {
          assert rest[i] == s[i + 1];
        }
      }
      InsertByFilter(x, rest, key, k, p);
      var t := InsertBy(x, rest, key);
      var p0 := if p(s[0]) then [s[0]] else [];
      assert InsertBy(x, s, key) == [s[0]] + t;
      assert ([s[0]] + t)[0] == s[0] && ([s[0]] + t)[1..] == t;
      assert Filter([s[0]] + t, p) == p0 + Filter(t, p);
      assert Filter(s, p) == p0 + Filter(rest, p);
      var f := Filter(rest, p);
      assert p(s[0]) == (key(s[0]) == k);
      if p(s[0]) {
        assert px == [];
        assert px + f == f;
        assert px + (p0 + f) == p0 + f;
      } else {
        assert p0 == [];
        assert p0 + f == f;
        assert p0 + (px + f) == px + f;
      }
    }
  }

  /**
    Stability: among elements with any one key value, the sorted sequence
    keeps the order of the input.
   */
  lemma {:induction false} SortByStable<T>(s: seq<T>, key: T -> int, k: int, p: T -> bool)
    requires SelectsKey(s, p, key, k)
    ensures Filter(SortBy(s, key), p) == Filter(s, p)
    decreases |s|
  {
    if |s| > 0 {
      var rest := s[1..];
      assert SelectsKey(rest, p, key, k) by {
        forall i | 0 <= i < |rest|
          ensures p(rest[i]) == (key(rest[i]) == k)
        {
          assert rest[i] == s[i + 1];
        }
      }
      SortByStable(rest, key, k, p);
      var sorted := SortBy(rest, key);
      assert SelectsKey(sorted, p, key, k) by {
        forall i | 0 <= i < |sorted|
          ensures p(sorted[i]) == (key(sorted[i]) == k)
        {
          assert sorted[i] in multiset(rest);
          var j :| 0 <= j < |rest| && rest[j] == sorted[i];
        }
      }
      InsertByFilter(s[0], sorted, key, k, p);
    }
  }
}

=== FILE: sidebar.dfy ===
/**
  Active-item matching in the admin sidebar
  (src/app/admin/_components/main-group.tsx).
 */
module Sidebar {
  import opened Wrappers

  datatype Item = Item(title: string, url: string)

  const Items: seq<Item> := [Item("Oversikt", "/admin"), Item("Brukere", "/admin/brukere"), Item("Lag", "/admin/lag")]

  /** The overview is active on its exact path; every other item on any path starting with its url. */
  predicate IsActive(pathname: string, item: Item) {
    if item.url == "/admin" then pathname == item.url else item.url <= pathname
  }

  /** The item highlighted for a path, if any. */
  function ActiveItem(pathname: string): (r: Option<Item>)
    ensures r.Some? ==> r.value in Items && IsActive(pathname, r.value)
    ensures r.None? <==> forall i :: 0 <= i < |Items| ==> !IsActive(pathname, Items[i])
  {
    if IsActive(pathname, Items[0]) then Some(Items[0])
    else if IsActive(pathname, Items[1]) then Some(Items[1])
    else if IsActive(pathname, Items[2]) then Some(Items[2])
    else None
  }

  /** No path highlights two items. */
  lemma AtMostOneActive(pathname: string)
    ensures forall i, j :: 0 <= i < j < |Items| ==> !(IsActive(pathname, Items[i]) && IsActive(pathname, Items[j]))
  {
    forall i, j | 0 <= i < j < |Items|
      ensures !(IsActive(pathname, Items[i]) && IsActive(pathname, Items[j]))
    {
      if IsActive(pathname, Items[1]) {
        assert pathname[7] == 'b';
        assert "/admin/lag"[7] == 'l';
      }
    }
  }

  /** A page under the user list activates that item and not the overview. */
  lemma UserPagesActivateUsers(rest: string)
    ensures ActiveItem("/admin/brukere" + rest) == Some(Items[1])
  {
    assert "/admin/brukere" <= "/admin/brukere" + rest;
    assert "/admin/brukere" + rest != "/admin" by {
      assert |"/admin/brukere" + rest| > |"/admin"|;
    }
  }

  /** Matching is by string prefix, not by path segment. */
  lemma PrefixNotSegment()
    ensures ActiveItem("/admin/lagx") == Some(Items[2])
  {
    assert "/admin/lag" <= "/admin/lagx";
    assert !("/admin/brukere" <= "/admin/lagx") by {
      assert "/admin/lagx"[7] != "/admin/brukere"[7];
    }
  }
}

=== FILE: store.dfy ===
/**
  The database the server talks to, as an immutable value.

  Every table is a sequence of rows in the order the database returns them
  when a query has no `orderBy`. `Valid` collects the unique constraints
  the controllers rely on: row ids, the (user, team) pair of a membership,
  the (user, event) pair of a registration and the endpoint of a push
  subscription, plus the memberships' references to users and teams.
 */
module Store {
  import opened Wrappers
  import opened Sequences
  import Strings

  type Id = string

  // ---------------------------------------------------------------------
  // Enumerations and their names in the database

  datatype TeamRole = Admin | Subadmin | Member

  function RoleName(r: TeamRole): string {
    match r
    case Admin => "ADMIN"
    case Subadmin => "SUBADMIN"
    case Member => "USER"
  }

  /** The database's enum column: only the three role names are stored. */
  function ParseRole(s: string): (r: Option<TeamRole>)
    ensures r.Some? ==> RoleName(r.value) == s
    ensures forall role :: s == RoleName(role) ==> r == Some(role)
  {
    if s == "ADMIN" then Some(Admin)
    else if s == "SUBADMIN" then Some(Subadmin)
    else if s == "USER" then Some(Member)
    else None
  }

  datatype EventType = Training | Match | Social | Other

  function EventTypeName(t: EventType): string {
    match t
    case Training => "TRAINING"
    case Match => "MATCH"
    case Social => "SOCIAL"
    case Other => "OTHER"
  }

  function ParseEventType(s: string): (r: Option<EventType>)
    ensures r.Some? ==> EventTypeName(r.value) == s
    ensures forall t :: s == EventTypeName(t) ==> r == Some(t)
  {
    if s == "TRAINING" then Some(Training)
    else if s == "MATCH" then Some(Match)
    else if s == "SOCIAL" then Some(Social)
    else if s == "OTHER" then Some(Other)
    else None
  }

  datatype RegistrationType = Attending | NotAttending

  function RegistrationTypeName(t: RegistrationType): string {
    match t
    case Attending => "ATTENDING"
    case NotAttending => "NOT_ATTENDING"
  }

  // ---------------------------------------------------------------------
  // Rows

  datatype User = User(id: Id, isAdmin: bool, email: string, name: string, createdAt: int)

  datatype Team = Team(id: Id, name: string, slug: Option<string>)

  datatype Membership = Membership(id: Id, userId: Id, teamId: Id, role: TeamRole, createdAt: int)

  /** Times are milliseconds; the deadline column exists but no code path sets or reads it. */
  datatype TeamEvent = TeamEvent(
    id: Id,
    teamId: Id,
    name: string,
    eventType: EventType,
    startAt: int,
    endAt: Option<int>,
    location: Option<string>,
    note: Option<string>,
    registrationDeadline: Option<int>)

  datatype Registration = Registration(
    id: Id,
    userId: Id,
    eventId: Id,
    regType: RegistrationType,
    comment: Option<string>,
    createdAt: int)

  datatype PushSubscription = PushSubscription(
    id: Id,
    userId: Id,
    endpoint: string,
    p256dh: string,
    auth: string)

  datatype Db = Db(
    users: seq<User>,
    teams: seq<Team>,
    members: seq<Membership>,
    events: seq<TeamEvent>,
    registrations: seq<Registration>,
    subscriptions: seq<PushSubscription>)

  // ---------------------------------------------------------------------
  // Constraints

  /** The compound unique key `userId_teamId` of a membership. */
  function MembershipKey(m: Membership): (Id, Id) {
    (m.userId, m.teamId)
  }

  /** The compound unique key `userId_eventId` of a registration. */
  function RegistrationKey(g: Registration): (Id, Id) {
    (g.userId, g.eventId)
  }

  predicate MembershipsUnique(ms: seq<Membership>) {
    KeysUnique(ms, MembershipKey)
  }

  predicate RegistrationsUnique(rs: seq<Registration>) {
    KeysUnique(rs, RegistrationKey)
  }

  predicate UserExists(db: Db, id: Id) {
    exists i :: 0 <= i < |db.users| && db.users[i].id == id
  }

  predicate TeamExists(db: Db, id: Id) {
    exists i :: 0 <= i < |db.teams| && db.teams[i].id == id
  }

  predicate MembersReferenceRows(db: Db) {
    forall i :: 0 <= i < |db.members| ==> UserExists(db, db.members[i].userId) && TeamExists(db, db.members[i].teamId)
  }

  predicate Valid(db: Db) {
    && KeysUnique(db.users, (u: User) => u.id)
    && KeysUnique(db.teams, (t: Team) => t.id)
    && KeysUnique(db.members, (m: Membership) => m.id)
    && KeysUnique(db.events, (e: TeamEvent) => e.id)
    && KeysUnique(db.registrations, (r: Registration) => r.id)
    && KeysUnique(db.subscriptions, (p: PushSubscription) => p.endpoint)
    && MembershipsUnique(db.members)
    && RegistrationsUnique(db.registrations)
    && MembersReferenceRows(db)
  }

  // ---------------------------------------------------------------------
  // Fresh ids (the database generates a new unique id for each row)

  function MaxLength(ids: seq<Id>): (m: nat)
    ensures forall i :: 0 <= i < |ids| ==> |ids[i]| <= m
    decreases |ids|
  {
    if |ids| == 0 then 0
    else
      var rest := MaxLength(ids[1..]);
      if |ids[0]| > rest then |ids[0]| else rest
  }

  /** An id no existing row uses: longer than all of them. */
  function FreshId(ids: seq<Id>): (r: Id)
    ensures |r| > 0
    ensures forall i :: 0 <= i < |ids| ==> ids[i] != r
  {
    Strings.Repeat('c', MaxLength(ids) + 1)
  }

  function IdsOf<T>(s: seq<T>, id: T -> Id): (r: seq<Id>)
    ensures |r| == |s| && forall i :: 0 <= i < |s| ==> r[i] == id(s[i])
  {
    seq(|s|, i requires 0 <= i < |s| => id(s[i]))
  }

  // ---------------------------------------------------------------------
  // Lookups (`findUnique` / `findFirst`)

  function FindUser(db: Db, id: Id): (r: Option<User>)
    ensures r.Some? ==> r.value in db.users && r.value.id == id
    ensures r.None? <==> !UserExists(db, id)
  {
    match FindIndex(db.users, (u: User) => u.id == id)
    case None => None
    case Some(i) => Some(db.users[i])
  }

  function TeamIdIs(id: Id): Team -> bool {
    (t: Team) => t.id == id
  }

  /** `getTeam`: the team with that id, or nothing. */
  function FindTeam(db: Db, id: Id): (r: Option<Team>)
    ensures r.Some? ==> r.value in db.teams && r.value.id == id
    ensures r.None? <==> !TeamExists(db, id)
  {
    match FindIndex(db.teams, TeamIdIs(id))
    case None => None
    case Some(i) => Some(db.teams[i])
  }

  predicate IsMembership(m: Membership, userId: Id, teamId: Id) {
    m.userId == userId && m.teamId == teamId
  }

  predicate HasMembership(db: Db, userId: Id, teamId: Id) {
    exists i :: 0 <= i < |db.members| && IsMembership(db.members[i], userId, teamId)
  }

  function MembershipOf(userId: Id, teamId: Id): Membership -> bool {
    (m: Membership) => IsMembership(m, userId, teamId)
  }

  /** The membership row of `userId` in `teamId`, if any. */
  function FindMembership(db: Db, userId: Id, teamId: Id): (r: Option<Membership>)
    ensures r.Some? ==> r.value in db.members && IsMembership(r.value, userId, teamId)
    ensures r.None? <==> !HasMembership(db, userId, teamId)
  {
    match FindIndex(db.members, MembershipOf(userId, teamId))
    case None => None
    case Some(i) => Some(db.members[i])
  }

  /** Under the unique constraint, the membership found is the only one for the pair. */
  lemma FindMembershipUnique(db: Db, userId: Id, teamId: Id, i: nat)
    requires MembershipsUnique(db.members)
    requires i < |db.members| && IsMembership(db.members[i], userId, teamId)
    ensures FindMembership(db, userId, teamId) == Some(db.members[i])
  {
    var r := FindIndex(db.members, MembershipOf(userId, teamId));
    assert r.Some?;
    assert r.value == i;
  }

  function FindMembershipById(db: Db, id: Id): (r: Option<Membership>)
    ensures r.Some? ==> r.value in db.members && r.value.id == id
    ensures r.None? ==> forall i :: 0 <= i < |db.members| ==> db.members[i].id != id
  {
    match FindIndex(db.members, (m: Membership) => m.id == id)
    case None => None
    case Some(i) => Some(db.members[i])
  }

  predicate EventExists(db: Db, id: Id) {
    exists i :: 0 <= i < |db.events| && db.events[i].id == id
  }

  function EventIdIs(id: Id): TeamEvent -> bool {
    (e: TeamEvent) => e.id == id
  }

  function FindEvent(db: Db, id: Id): (r: Option<TeamEvent>)
    ensures r.Some? ==> r.value in db.events && r.value.id == id
    ensures r.None? <==> !EventExists(db, id)
  {
    match FindIndex(db.events, EventIdIs(id))
    case None => None
    case Some(i) => Some(db.events[i])
  }

  predicate IsRegistration(r: Registration, userId: Id, eventId: Id) {
    r.userId == userId && r.eventId == eventId
  }

  predicate HasRegistration(db: Db, userId: Id, eventId: Id) {
    exists i :: 0 <= i < |db.registrations| && IsRegistration(db.registrations[i], userId, eventId)
  }

  function RegistrationOf(userId: Id, eventId: Id): Registration -> bool {
    (g: Registration) => IsRegistration(g, userId, eventId)
  }

  function OtherThan(userId: Id, eventId: Id): Registration -> bool {
    (g: Registration) => !IsRegistration(g, userId, eventId)
  }

  /** Index of the registration of `userId` for `eventId`, if any. */
  function FindRegistrationIndex(db: Db, userId: Id, eventId: Id): (r: Option<nat>)
    ensures r.Some? ==> r.value < |db.registrations| && IsRegistration(db.registrations[r.value], userId, eventId)
    ensures r.Some? ==> forall k :: 0 <= k < r.value ==> !IsRegistration(db.registrations[k], userId, eventId)
    ensures r.None? <==> !HasRegistration(db, userId, eventId)
  {
    FindIndex(db.registrations, RegistrationOf(userId, eventId))
  }

  /** The number of registrations for the pair. */
  function PairCount(rs: seq<Registration>, userId: Id, eventId: Id): nat {
    |Filter(rs, RegistrationOf(userId, eventId))|
  }

  /** Under the unique constraint a pair has at most one registration. */
  lemma {:induction false} UniquePairCount(rs: seq<Registration>, userId: Id, eventId: Id)
    requires RegistrationsUnique(rs)
    ensures PairCount(rs, userId, eventId) <= 1
    decreases |rs|
  {
    var p := RegistrationOf(userId, eventId);
    if |rs| > 0 {
      UniquePairCount(rs[1..], userId, eventId);
      if p(rs[0]) {
        FilterNone(rs[1..], p);
      }
    }
  }

  // ---------------------------------------------------------------------
  // Queries shared by several controllers

  /** `teamMember.findMany({ where: { teamId } })`. */
  function TeamMembers(db: Db, teamId: Id): (r: seq<Membership>)
    ensures forall i :: 0 <= i < |r| ==> r[i] in db.members && r[i].teamId == teamId
    ensures forall i :: 0 <= i < |db.members| && db.members[i].teamId == teamId ==> db.members[i] in r
  {
    Filter(db.members, (m: Membership) => m.teamId == teamId)
  }

  /** `registration.findMany({ where: { eventId } })`. */
  function EventRegistrations(db: Db, eventId: Id): (r: seq<Registration>)
    ensures forall i :: 0 <= i < |r| ==> r[i] in db.registrations && r[i].eventId == eventId
    ensures forall i :: 0 <= i < |db.registrations| && db.registrations[i].eventId == eventId ==> db.registrations[i] in r
  {
    Filter(db.registrations, (g: Registration) => g.eventId == eventId)
  }

  /** Within one team, members are distinct users. */
  lemma TeamMembersDistinctUsers(db: Db, teamId: Id)
    requires MembershipsUnique(db.members)
    ensures KeysUnique(TeamMembers(db, teamId), (m: Membership) => m.userId)
  {
    FilterKeysUnique(db.members, (m: Membership) => m.teamId == teamId, MembershipKey);
  }

  /** Within one event, registrations are by distinct users. */
  lemma EventRegistrationsDistinctUsers(db: Db, eventId: Id)
    requires RegistrationsUnique(db.registrations)
    ensures KeysUnique(EventRegistrations(db, eventId), (g: Registration) => g.userId)
  {
    FilterKeysUnique(db.registrations, (g: Registration) => g.eventId == eventId, RegistrationKey);
  }

  /** `teamEvent.findMany({ where: { teamId } })`. */
  function TeamEvents(db: Db, teamId: Id): (r: seq<TeamEvent>)
    ensures forall i :: 0 <= i < |r| ==> r[i] in db.events && r[i].teamId == teamId
    ensures forall i :: 0 <= i < |db.events| && db.events[i].teamId == teamId ==> db.events[i] in r
  {
    Filter(db.events, (e: TeamEvent) => e.teamId == teamId)
  }

  // ---------------------------------------------------------------------
  // Fields of a joined user row (every membership references a user)

  function EmailOf(db: Db, userId: Id): string {
    match FindUser(db, userId)
    case Some(u) => u.email
    case None => ""
  }

  function NameOf(db: Db, userId: Id): string {
    match FindUser(db, userId)
    case Some(u) => u.name
    case None => ""
  }

  /** The emails of the members' users, in the members' order. */
  function EmailsOf(db: Db, ms: seq<Membership>): (r: seq<string>)
    ensures |r| == |ms| && forall k :: 0 <= k < |ms| ==> r[k] == EmailOf(db, ms[k].userId)
  {
    seq(|ms|, k requires 0 <= k < |ms| => EmailOf(db, ms[k].userId))
  }
}

=== FILE: strings.dfy ===
/**
  String operations the TypeScript code relies on: `toLowerCase`,
  `includes`/`contains`, `startsWith`, `split` and `join` with a string
  separator, `trim`, `String(n)`, `padStart(2, "0")` and `Number(s)`.
 */
module Strings {
  import opened Wrappers

  // ---------------------------------------------------------------------
  // Case folding

  predicate IsUpper(c: char) {
    'A' <= c <= 'Z'
  }

  /** Lower-cases ASCII letters; every other character is kept. */
  function LowerChar(c: char): char {
    if IsUpper(c) then (c as int + 32) as char else c
  }

  function ToLower(s: string): (r: string)
    ensures |r| == |s|
    ensures forall i :: 0 <= i < |s| ==> r[i] == LowerChar(s[i])
  {
    seq(|s|, i requires 0 <= i < |s| => LowerChar(s[i]))
  }

  /** Folding twice is folding once, and a folded string has no upper-case letter left. */
  lemma ToLowerIdempotent(s: string)
    ensures ToLower(ToLower(s)) == ToLower(s)
    ensures forall i :: 0 <= i < |s| ==> !IsUpper(ToLower(s)[i])
  {
  }

  // ---------------------------------------------------------------------
  // Substrings

  /** `s.includes(sub)`: some suffix of `s` starts with `sub`. */
  predicate Contains(s: string, sub: string)
    decreases |s|
  {
    sub <= s || (|s| > 0 && Contains(s[1..], sub))
  }

  /** Case-insensitive `contains`, as the store's insensitive search mode does it. */
  predicate ContainsInsensitive(s: string, sub: string) {
    Contains(ToLower(s), ToLower(sub))
  }

  /** `Contains` means an occurrence at some position. */
  lemma {:induction false} ContainsAt(s: string, sub: string)
    ensures Contains(s, sub) <==> exists i :: 0 <= i <= |s| && sub <= s[i..]
    decreases |s|
  {
    assert s[0..] == s;
    if |s| > 0 {
      ContainsAt(s[1..], sub);
      if Contains(s, sub) && !(sub <= s) {
        var i :| 0 <= i <= |s[1..]| && sub <= s[1..][i..];
        assert s[1..][i..] == s[i + 1..];
        assert 0 <= i + 1 <= |s| && sub <= s[i + 1..];
      }
      if exists i :: 0 <= i <= |s| && sub <= s[i..] {
        var i :| 0 <= i <= |s| && sub <= s[i..];
        if i > 0 {
          assert s[1..][i - 1..] == s[i..];
          assert Contains(s[1..], sub);
        }
      }
    }
  }

  /** The empty string occurs in every string. */
  lemma ContainsEmpty(s: string)
    ensures Contains(s, "")
  {
  }

  /** A single character occurs iff it is one of the string's characters. */
  lemma {:induction false} ContainsChar(s: string, c: char)
    ensures Contains(s, [c]) <==> c in s
    decreases |s|
  {
    if |s| > 0 {
      ContainsChar(s[1..], c);
      assert s == [s[0]] + s[1..];
    }
  }

  // ---------------------------------------------------------------------
  // split / join with a non-empty string separator

  /**
    `s.split(sep)` for a non-empty separator: occurrences are taken left to
    right without overlap, and the pieces between them are returned.
   */
  function Split(s: string, sep: string): (parts: seq<string>)
    requires |sep| > 0
    ensures |parts| > 0
    decreases |s|
  {
    if |s| == 0 then [""]
    else if sep <= s then [""] + Split(s[|sep|..], sep)
    else
      var rest := Split(s[1..], sep);
      [[s[0]] + rest[0]] + rest[1..]
  }

  /** `parts.join(sep)`. */
  function Join(parts: seq<string>, sep: string): string
    requires |parts| > 0
    decreases |parts|
  {
    if |parts| == 1 then parts[0] else parts[0] + sep + Join(parts[1..], sep)
  }

  lemma JoinConsHead(a: string, parts: seq<string>, sep: string)
    requires |parts| > 0
    ensures Join([a + parts[0]] + parts[1..], sep) == a + Join(parts, sep)
  {
    var q := [a + parts[0]] + parts[1..];
    if |parts| > 1 {
      assert q[1..] == parts[1..];
    }
  }

  /** Joining the pieces of a split with the same separator gives the string back. */
  lemma {:induction false} SplitJoin(s: string, sep: string)
    requires |sep| > 0
    ensures Join(Split(s, sep), sep) == s
    decreases |s|
  {
    if |s| == 0 {
    } else if sep <= s {
      SplitJoin(s[|sep|..], sep);
      var rest := Split(s[|sep|..], sep);
      assert ([""] + rest)[1..] == rest;
      assert s == sep + s[|sep|..];
    } else {
      var rest := Split(s[1..], sep);
      SplitJoin(s[1..], sep);
      JoinConsHead([s[0]], rest, sep);
      assert s == [s[0]] + s[1..];
    }
  }

  /** The first piece of a split is a prefix of the string. */
  lemma {:induction false} SplitHeadPrefix(s: string, sep: string)
    requires |sep| > 0
    ensures Split(s, sep)[0] <= s
    decreases |s|
  {
    if |s| > 0 && !(sep <= s) {
      SplitHeadPrefix(s[1..], sep);
    }
  }

  /** No piece of a split contains the separator. */
  lemma {:induction false} SplitPiecesFree(s: string, sep: string)
    requires |sep| > 0
    ensures forall k :: 0 <= k < |Split(s, sep)| ==> !Contains(Split(s, sep)[k], sep)
    decreases |s|
  {
    var parts := Split(s, sep);
    if |s| == 0 {
      assert parts == [""];
      assert !Contains("", sep);
    } else if sep <= s {
      SplitPiecesFree(s[|sep|..], sep);
      var rest := Split(s[|sep|..], sep);
      assert parts == [""] + rest;
      forall k | 0 <= k < |parts|
        ensures !Contains(parts[k], sep)
      {
        if k > 0 {
          assert parts[k] == rest[k - 1];
        }
      }
    } else {
      SplitPiecesFree(s[1..], sep);
      SplitHeadPrefix(s[1..], sep);
      var rest := Split(s[1..], sep);
      var head := [s[0]] + rest[0];
      assert parts == [head] + rest[1..];
      assert head <= s by {
        assert s == [s[0]] + s[1..];
      }
      assert !(sep <= head);
      assert head[1..] == rest[0];
      assert !Contains(head, sep);
      forall k | 0 <= k < |parts|
        ensures !Contains(parts[k], sep)
      {
        if k > 0 {
          assert parts[k] == rest[k];
        }
      }
    }
  }

  /** A string without the separator character splits into itself alone. */
  lemma {:induction false} SplitFree(b: string, c: char)
    requires c !in b
    ensures Split(b, [c]) == [b]
    decreases |b|
  {
    if |b| > 0 {
      assert b[0] != c;
      assert !([c] <= b);
      SplitFree(b[1..], c);
      assert [b[0]] + b[1..] == b;
    }
  }

  /** Two pieces joined by one separator character split back into the two pieces. */
  lemma {:induction false} SplitPair(a: string, b: string, c: char)
    requires c !in a && c !in b
    ensures Split(a + [c] + b, [c]) == [a, b]
    decreases |a|
  {
    var s := a + [c] + b;
    if |a| == 0 {
      assert s == [c] + b;
      assert [c] <= s;
      assert s[1..] == b;
      SplitFree(b, c);
    } else {
      assert s[0] == a[0] && a[0] != c;
      assert !([c] <= s);
      assert s[1..] == a[1..] + [c] + b;
      SplitPair(a[1..], b, c);
      assert [a[0]] + a[1..] == a;
    }
  }

  // ---------------------------------------------------------------------
  // trim

  /** The characters `String.prototype.trim` removes (ECMAScript WhiteSpace and LineTerminator). */
  predicate IsJsWhitespace(c: char) {
    || c == ' ' || c == '\t' || c == '\n' || c == '\r'
    || c == '\U{000B}' || c == '\U{000C}' || c == '\U{00A0}' || c == '\U{1680}'
    || ('\U{2000}' <= c <= '\U{200A}')
    || c == '\U{2028}' || c == '\U{2029}' || c == '\U{202F}' || c == '\U{205F}'
    || c == '\U{3000}' || c == '\U{FEFF}'
  }

  predicate IsBlank(s: string) {
    forall i :: 0 <= i < |s| ==> IsJsWhitespace(s[i])
  }

  function TrimStart(s: string): string
    decreases |s|
  {
    if |s| > 0 && IsJsWhitespace(s[0]) then TrimStart(s[1..]) else s
  }

  function TrimEnd(s: string): string
    decreases |s|
  {
    if |s| > 0 && IsJsWhitespace(s[|s| - 1]) then TrimEnd(s[..|s| - 1]) else s
  }

  function Trim(s: string): string {
    TrimEnd(TrimStart(s))
  }

  lemma {:induction false} TrimStartEmptyIffBlank(s: string)
    ensures TrimStart(s) == "" <==> IsBlank(s)
    decreases |s|
  {
    if |s| > 0 && IsJsWhitespace(s[0]) {
      TrimStartEmptyIffBlank(s[1..]);
      assert IsBlank(s) <==> IsBlank(s[1..]) by {
        if IsBlank(s[1..]) {
          forall i | 0 <= i < |s|
            ensures IsJsWhitespace(s[i])
          {
            if i > 0 {
              assert s[i] == s[1..][i - 1];
            }
          }
        }
      }
    }
  }

  lemma {:induction false} TrimEndEmptyIffBlank(s: string)
    ensures TrimEnd(s) == "" <==> IsBlank(s)
    decreases |s|
  {
    if |s| > 0 && IsJsWhitespace(s[|s| - 1]) {
      TrimEndEmptyIffBlank(s[..|s| - 1]);
      assert IsBlank(s) <==> IsBlank(s[..|s| - 1]) by {
        if IsBlank(s[..|s| - 1]) {
          forall i | 0 <= i < |s|
            ensures IsJsWhitespace(s[i])
          {
            if i < |s| - 1 {
              assert s[i] == s[..|s| - 1][i];
            }
          }
        }
      }
    }
  }

  lemma {:induction false} TrimStartKeepsNonBlank(s: string)
    ensures IsBlank(TrimStart(s)) ==> IsBlank(s)
    decreases |s|
  {
    TrimStartEmptyIffBlank(s);
    TrimStartEmptyIffBlank(TrimStart(s));
    TrimStartFixpoint(s);
  }

  lemma {:induction false} TrimStartFixpoint(s: string)
    ensures TrimStart(TrimStart(s)) == TrimStart(s)
    decreases |s|
  {
    if |s| > 0 && IsJsWhitespace(s[0]) {
      TrimStartFixpoint(s[1..]);
    }
  }

  /** `s.trim()` is empty exactly when every character of `s` is whitespace. */
  lemma TrimEmptyIffBlank(s: string)
    ensures Trim(s) == "" <==> IsBlank(s)
  {
    TrimEndEmptyIffBlank(TrimStart(s));
    TrimStartEmptyIffBlank(s);
    TrimStartKeepsNonBlank(s);
    if IsBlank(s) {
      assert TrimStart(s) == "";
    }
  }

  // ---------------------------------------------------------------------
  // Decimal numbers

  predicate IsDigit(c: char) {
    '0' <= c <= '9'
  }

  predicate AllDigits(s: string) {
    forall i :: 0 <= i < |s| ==> IsDigit(s[i])
  }

  function DigitChar(d: nat): (c: char)
    requires d < 10
    ensures IsDigit(c) && c as int - '0' as int == d
  {
    ('0' as int + d) as char
  }

  /** `String(n)` for a non-negative integer: decimal digits, no leading zero. */
  function NatToString(n: nat): (r: string)
    ensures |r| > 0 && AllDigits(r)
    ensures (|r| == 1) <==> n < 10
    ensures r[0] == '0' ==> n == 0
    decreases n
  {
    if n < 10 then [DigitChar(n)] else NatToString(n / 10) + [DigitChar(n % 10)]
  }

  /** The value of a string of decimal digits. */
  function DigitsValue(s: string): nat
    requires AllDigits(s)
    decreases |s|
  {
    if |s| == 0 then 0
    else DigitsValue(s[..|s| - 1]) * 10 + (s[|s| - 1] as int - '0' as int)
  }

  /** Printing a number in decimal and reading it back gives the number. */
  lemma {:induction false} NatToStringRoundTrip(n: nat)
    ensures DigitsValue(NatToString(n)) == n
    decreases n
  {
    if n >= 10 {
      NatToStringRoundTrip(n / 10);
      var r := NatToString(n);
      assert r[..|r| - 1] == NatToString(n / 10);
    }
  }

  /** Leading zeros do not change a digit string's value. */
  lemma {:induction false} LeadingZero(s: string)
    requires AllDigits(s)
    ensures AllDigits("0" + s) && DigitsValue("0" + s) == DigitsValue(s)
    decreases |s|
  {
    if |s| > 0 {
      var t := "0" + s;
      assert t[..|t| - 1] == "0" + s[..|s| - 1];
      LeadingZero(s[..|s| - 1]);
    }
  }

  /** `String(i)` for any integer. */
  function IntToString(i: int): (r: string)
    ensures |r| > 0
  {
    if i < 0 then "-" + NatToString(-i) else NatToString(i)
  }

  /** `n.toString().padStart(2, "0")`. */
  function Pad2(n: nat): (r: string)
    ensures |r| >= 2 && AllDigits(r)
    ensures n < 100 ==> |r| == 2
  {
    if n < 10 then "0" + NatToString(n) else NatToString(n)
  }

  /** A two-digit padding reads back as the number it was built from. */
  lemma Pad2RoundTrip(n: nat)
    ensures DigitsValue(Pad2(n)) == n
  {
    NatToStringRoundTrip(n);
    if n < 10 {
      LeadingZero(NatToString(n));
    }
  }

  /**
    `Number(s)` restricted to the shapes this model meets: the empty string
    is 0, a string of decimal digits is its value, anything else is NaN
    (`None`).
   */
  function JsNumber(s: string): Option<nat> {
    if |s| == 0 then Some(0)
    else if AllDigits(s) then Some(DigitsValue(s))
    else None
  }

  // ---------------------------------------------------------------------
  // Repetition

  function Repeat(c: char, n: nat): (r: string)
    ensures |r| == n && forall i :: 0 <= i < n ==> r[i] == c
  {
    seq(n, _ => c)
  }
}

=== FILE: teams.dfy ===
/**
  Team and membership lifecycle: the superadmin-only team procedures
  (src/server/api/team/controller/), the role change of one membership
  (src/server/api/team/membership/controller/update.ts) and the sync of
  the caller's memberships from the external organisation
  (src/server/api/me/team/membership/controller/sync.ts).

  An absent slug in the input is the ORM's `undefined`: as a filter clause
  it matches nothing, and as update data it leaves the column unchanged.
 */
module Teams {
  import opened Wrappers
  import opened Sequences
  import opened Store
  import opened Access

  // ---------------------------------------------------------------------
  // Team procedures

  /** `CreateTeamInputSchema`; the update procedure takes the same fields plus the id. */
  datatype TeamInput = TeamInput(name: string, slug: Option<string>)

  datatype UpdateTeamInput = UpdateTeamInput(id: Id, name: string, slug: Option<string>)

  function ValidateTeam(name: string, slug: Option<string>): (r: Result<TeamInput>)
    ensures r.Ok? <==> |name| >= 1 && (slug.None? || |slug.value| >= 1)
    ensures r.Ok? ==> r.value == TeamInput(name, slug)
    ensures r.Err? ==> r.code == BadRequest
  {
    if |name| >= 1 && (slug.None? || |slug.value| >= 1) then Ok(TeamInput(name, slug)) else Err(BadRequest)
  }

  /** The duplicate filter `OR: [{ name }, { slug }]`; an absent slug clause matches nothing. */
  predicate Clashes(t: Team, name: string, slug: Option<string>) {
    t.name == name || (slug.Some? && t.slug == slug)
  }

  predicate AnyClash(teams: seq<Team>, name: string, slug: Option<string>) {
    exists i :: 0 <= i < |teams| && Clashes(teams[i], name, slug)
  }

  /** Team names are distinct and so are the slugs that are present. */
  predicate NamesAndSlugsDistinct(teams: seq<Team>) {
    forall i, j :: 0 <= i < j < |teams| ==>
      teams[i].name != teams[j].name && (teams[i].slug.Some? ==> teams[i].slug != teams[j].slug)
  }

  /** The create procedure: a superadmin adds a team whose name and slug are both unused. */
  function CreateTeam(db: Db, caller: User, input: TeamInput): (r: Result<Db>)
    ensures r == Err(Forbidden) <==> !caller.isAdmin
    ensures r == Err(Conflict) <==> caller.isAdmin && AnyClash(db.teams, input.name, input.slug)
    ensures r.Ok? <==> caller.isAdmin && !AnyClash(db.teams, input.name, input.slug)
    ensures r.Ok? ==>
      && r.value == db.(teams := r.value.teams)
      && |r.value.teams| == |db.teams| + 1 && r.value.teams[..|db.teams|] == db.teams
      && r.value.teams[|db.teams|].name == input.name && r.value.teams[|db.teams|].slug == input.slug
      && !TeamExists(db, r.value.teams[|db.teams|].id)
    ensures r.Ok? && Valid(db) ==> Valid(r.value)
  {
    if !caller.isAdmin then Err(Forbidden)
    else if AnyClash(db.teams, input.name, input.slug) then Err(Conflict)
    else
      var team := Team(FreshId(IdsOf(db.teams, (t: Team) => t.id)), input.name, input.slug);
      var db' := db.(teams := db.teams + [team]);
      assert db'.teams[..|db.teams|] == db.teams;
      AppendTeamKeepsValid(db, team);
      Ok(db')
  }

  lemma AppendTeamKeepsValid(db: Db, team: Team)
    requires forall i :: 0 <= i < |db.teams| ==> db.teams[i].id != team.id
    ensures Valid(db) ==> Valid(db.(teams := db.teams + [team]))
  {
    var db' := db.(teams := db.teams + [team]);
    if Valid(db) {
      assert forall k :: 0 <= k < |db.teams| ==> db'.teams[k] == db.teams[k];
      forall i | 0 <= i < |db.members|
        ensures TeamExists(db', db.members[i].teamId)
      {
        var k :| 0 <= k < |db.teams| && db.teams[k].id == db.members[i].teamId;
        assert db'.teams[k].id == db.members[i].teamId;
      }
      assert MembersReferenceRows(db');
    }
  }

  /** Creating the same team twice: the second call is refused with CONFLICT. */
  lemma CreateTwiceConflicts(db: Db, caller: User, input: TeamInput)
    requires CreateTeam(db, caller, input).Ok?
    ensures CreateTeam(CreateTeam(db, caller, input).value, caller, input) == Err(Conflict)
  {
    var db' := CreateTeam(db, caller, input).value;
    assert Clashes(db'.teams[|db.teams|], input.name, input.slug);
  }

  /** Team creation keeps names and present slugs distinct. */
  lemma CreateKeepsNamesDistinct(db: Db, caller: User, input: TeamInput)
    requires NamesAndSlugsDistinct(db.teams) && CreateTeam(db, caller, input).Ok?
    ensures NamesAndSlugsDistinct(CreateTeam(db, caller, input).value.teams)
  {
    var teams := CreateTeam(db, caller, input).value.teams;
    forall i, j | 0 <= i < j < |teams|
      ensures teams[i].name != teams[j].name && (teams[i].slug.Some? ==> teams[i].slug != teams[j].slug)
    {
      assert teams[i] == db.teams[i];
      if j < |db.teams| {
        assert teams[j] == db.teams[j];
      } else {
        assert !Clashes(db.teams[i], input.name, input.slug);
      }
    }
  }

  /**
    The change test `name !== existing.name || slug !== existing.slug`: an
    absent input slug differs from every stored value, null included.
   */
  predicate Changes(t: Team, input: UpdateTeamInput) {
    input.name != t.name || input.slug.None? || input.slug != t.slug
  }

  /** Another team (a different id) clashing with the new name or slug. */
  predicate OtherClash(teams: seq<Team>, input: UpdateTeamInput) {
    exists i :: 0 <= i < |teams| && teams[i].id != input.id && Clashes(teams[i], input.name, input.slug)
  }

  function Renamed(t: Team, input: UpdateTeamInput): Team {
    t.(name := input.name, slug := if input.slug.Some? then input.slug else t.slug)
  }

  /**
    The update procedure: a superadmin renames an existing team; when the
    name or slug changes, another team already holding either is a CONFLICT.
   */
  function UpdateTeam(db: Db, caller: User, input: UpdateTeamInput): (r: Result<Db>)
    ensures r == Err(Forbidden) <==> !caller.isAdmin
    ensures r == Err(NotFound) <==> caller.isAdmin && !TeamExists(db, input.id)
    ensures r == Err(Conflict) <==>
      && caller.isAdmin && FindTeam(db, input.id).Some?
      && Changes(FindTeam(db, input.id).value, input) && OtherClash(db.teams, input)
    ensures r.Ok? ==>
      && r.value == db.(teams := r.value.teams)
      && |r.value.teams| == |db.teams|
      && FindTeam(db, input.id).Some?
      && FindTeam(r.value, input.id) == Some(Renamed(FindTeam(db, input.id).value, input))
      && forall i :: 0 <= i < |db.teams| && db.teams[i].id != input.id ==> r.value.teams[i] == db.teams[i]
    ensures r.Ok? && Valid(db) ==> Valid(r.value)
  {
    if !caller.isAdmin then Err(Forbidden)
    else
      match FindIndex(db.teams, TeamIdIs(input.id))
      case None => Err(NotFound)
      case Some(i) =>
        if Changes(db.teams[i], input) && OtherClash(db.teams, input) then Err(Conflict)
        else
          var team := Renamed(db.teams[i], input);
          RenameKeepsValid(db, i, team);
          FindIndexUpdate(db.teams, TeamIdIs(input.id), i, team);
          Ok(db.(teams := db.teams[i := team]))
  }

  lemma RenameKeepsValid(db: Db, i: nat, team: Team)
    requires i < |db.teams| && team.id == db.teams[i].id
    ensures Valid(db) ==> Valid(db.(teams := db.teams[i := team]))
  {
    var db' := db.(teams := db.teams[i := team]);
    if Valid(db) {
      assert forall k :: 0 <= k < |db.teams| ==> db'.teams[k].id == db.teams[k].id;
      forall m | 0 <= m < |db.members|
        ensures TeamExists(db', db.members[m].teamId)
      {
        var k :| 0 <= k < |db.teams| && db.teams[k].id == db.members[m].teamId;
        assert db'.teams[k].id == db.members[m].teamId;
      }
      assert MembersReferenceRows(db');
    }
  }

  /** Saving a team unchanged never conflicts, whatever the other teams are called. */
  lemma UnchangedSaveSucceeds(db: Db, caller: User, t: Team)
    requires caller.isAdmin && t.slug.Some? && FindTeam(db, t.id) == Some(t)
    ensures UpdateTeam(db, caller, UpdateTeamInput(t.id, t.name, t.slug)).Ok?
  {
  }

  /** Renames keep names and present slugs distinct. */
  lemma UpdateKeepsNamesDistinct(db: Db, caller: User, input: UpdateTeamInput)
    requires Valid(db) && NamesAndSlugsDistinct(db.teams) && UpdateTeam(db, caller, input).Ok?
    ensures NamesAndSlugsDistinct(UpdateTeam(db, caller, input).value.teams)
  {
    var teams := UpdateTeam(db, caller, input).value.teams;
    var i := FindIndex(db.teams, TeamIdIs(input.id)).value;
    assert teams == db.teams[i := Renamed(db.teams[i], input)];
    forall a, b | 0 <= a < b < |teams|
      ensures teams[a].name != teams[b].name && (teams[a].slug.Some? ==> teams[a].slug != teams[b].slug)
    {
      if a == i {
        assert db.teams[b].id != input.id;
        assert !Changes(db.teams[i], input) || !Clashes(db.teams[b], input.name, input.slug);
      } else if b == i {
        assert db.teams[a].id != input.id;
        assert !Changes(db.teams[i], input) || !Clashes(db.teams[a], input.name, input.slug);
      }
    }
  }

  predicate HasMembers(db: Db, teamId: Id) {
    exists i :: 0 <= i < |db.members| && db.members[i].teamId == teamId
  }

  /** The delete procedure: a superadmin removes an existing team that has no members. */
  function DeleteTeam(db: Db, caller: User, id: Id): (r: Result<Db>)
    ensures r == Err(Forbidden) <==> !caller.isAdmin
    ensures r == Err(NotFound) <==> caller.isAdmin && !TeamExists(db, id)
    ensures r == Err(Conflict) <==> caller.isAdmin && TeamExists(db, id) && HasMembers(db, id)
    ensures r.Ok? ==>
      && r.value == db.(teams := r.value.teams)
      && !TeamExists(r.value, id)
      && (forall i :: 0 <= i < |db.teams| && db.teams[i].id != id ==> db.teams[i] in r.value.teams)
      && (forall i :: 0 <= i < |r.value.teams| ==> r.value.teams[i] in db.teams)
    ensures r.Ok? && Valid(db) ==> Valid(r.value) && |r.value.teams| == |db.teams| - 1
  {
    if !caller.isAdmin then Err(Forbidden)
    else if FindTeam(db, id).None? then Err(NotFound)
    else if HasMembers(db, id) then Err(Conflict)
    else
      var db' := db.(teams := Filter(db.teams, (t: Team) => t.id != id));
      DeleteTeamKeepsValid(db, id);
      Ok(db')
  }

  lemma DeleteTeamKeepsValid(db: Db, id: Id)
    requires TeamExists(db, id) && !HasMembers(db, id)
    ensures var db' := db.(teams := Filter(db.teams, (t: Team) => t.id != id));
      Valid(db) ==> Valid(db') && |db'.teams| == |db.teams| - 1
  {
    var p := (t: Team) => t.id != id;
    var db' := db.(teams := Filter(db.teams, p));
    if Valid(db) {
      FilterKeysUnique(db.teams, p, (t: Team) => t.id);
      forall m | 0 <= m < |db.members|
        ensures TeamExists(db', db.members[m].teamId)
      {
        var k :| 0 <= k < |db.teams| && db.teams[k].id == db.members[m].teamId;
        assert p(db.teams[k]);
        assert db.teams[k] in db'.teams;
      }
      assert MembersReferenceRows(db');
      var k :| 0 <= k < |db.teams| && db.teams[k].id == id;
      var q := (t: Team) => t.id == id;
      FilterPartition(db.teams, p, q);
      FilterSingleKey(db.teams, q, (t: Team) => t.id, id);
      FilterNonEmpty(db.teams, k, q);
    }
  }

  // ---------------------------------------------------------------------
  // Role change of one membership

  datatype RoleInput = RoleInput(membershipId: Id, teamId: Id, role: string)

  /**
    The membership role update: an ADMIN of `input.teamId` (or a
    superadmin) sets the role of the membership with the given id, written
    through its (user, team) key. The role string is cast without a check,
    so a name outside the enumeration is refused by the store.
   */
  function UpdateRole(db: Db, caller: User, input: RoleInput): (r: Result<Db>)
    ensures MembershipsUnique(db.members) ==>
      (r == Err(Forbidden) <==> !caller.isAdmin && !HoldsRole(db, caller, input.teamId, [Admin]))
    ensures HasTeamAccessMiddleware(db, caller, input.teamId, [Admin]).Pass? ==>
      (r == Err(NotFound) <==> FindMembershipById(db, input.membershipId).None?)
    ensures HasTeamAccessMiddleware(db, caller, input.teamId, [Admin]).Pass? &&
            FindMembershipById(db, input.membershipId).Some? ==>
      (r.Ok? <==> ParseRole(input.role).Some?)
    ensures r.Ok? ==>
      && r.value == db.(members := r.value.members)
      && |r.value.members| == |db.members|
      && (forall i :: 0 <= i < |db.members| ==>
            && r.value.members[i].id == db.members[i].id
            && MembershipKey(r.value.members[i]) == MembershipKey(db.members[i])
            && r.value.members[i].createdAt == db.members[i].createdAt)
      && (forall i :: 0 <= i < |db.members| && r.value.members[i] != db.members[i] ==>
            RoleName(r.value.members[i].role) == input.role)
    ensures r.Ok? && Valid(db) ==>
      && Valid(r.value)
      && FindMembershipById(r.value, input.membershipId).Some?
      && RoleName(FindMembershipById(r.value, input.membershipId).value.role) == input.role
      && forall i :: 0 <= i < |db.members| && db.members[i].id != input.membershipId ==> r.value.members[i] == db.members[i]
  {
    match HasTeamAccessMiddleware(db, caller, input.teamId, [Admin])
    case Fail(code) => Err(code)
    case Pass =>
      match FindMembershipById(db, input.membershipId)
      case None => Err(NotFound)
      case Some(m) =>
        match ParseRole(input.role)
        case None => Err(InternalError)
        case Some(role) =>
          var i := FindMembershipIndex(db, m.userId, m.teamId);
          SetRoleShape(db, i, role);
          SetRoleKeepsValid(db, i, role);
          SetRoleFindsById(db, i, role, input.membershipId);
          Ok(db.(members := db.members[i := db.members[i].(role := role)]))
  }

  /** Setting one row's role keeps every row's id, key and creation time, and changes no other row. */
  lemma SetRoleShape(db: Db, i: nat, role: TeamRole)
    requires i < |db.members|
    ensures var db' := db.(members := db.members[i := db.members[i].(role := role)]);
      && db' == db.(members := db'.members)
      && |db'.members| == |db.members|
      && (forall k :: 0 <= k < |db.members| ==>
            && db'.members[k].id == db.members[k].id
            && MembershipKey(db'.members[k]) == MembershipKey(db.members[k])
            && db'.members[k].createdAt == db.members[k].createdAt)
      && (forall k :: 0 <= k < |db.members| && db'.members[k] != db.members[k] ==>
            k == i && db'.members[k].role == role)
  {
  }

  /** The index `update({ where: { userId_teamId } })` writes to, for a pair that has a membership. */
  function FindMembershipIndex(db: Db, userId: Id, teamId: Id): (i: nat)
    requires HasMembership(db, userId, teamId)
    ensures i < |db.members| && IsMembership(db.members[i], userId, teamId)
    ensures FindMembership(db, userId, teamId) == Some(db.members[i])
  {
    var r := FindIndex(db.members, MembershipOf(userId, teamId));
    assert r.Some?;
    r.value
  }

  lemma SetRoleKeepsValid(db: Db, i: nat, role: TeamRole)
    requires i < |db.members|
    ensures Valid(db) ==> Valid(db.(members := db.members[i := db.members[i].(role := role)]))
  {
    var db' := db.(members := db.members[i := db.members[i].(role := role)]);
    if Valid(db) {
      assert forall k :: 0 <= k < |db.members| ==> MembershipKey(db'.members[k]) == MembershipKey(db.members[k]);
      assert forall k :: 0 <= k < |db.members| ==> db'.members[k].id == db.members[k].id;
      assert MembersReferenceRows(db');
    }
  }

  /** Under unique ids and pairs, the row written is the row the id names. */
  lemma SetRoleFindsById(db: Db, i: nat, role: TeamRole, id: Id)
    requires i < |db.members|
    requires FindMembershipById(db, id).Some? && MembershipKey(FindMembershipById(db, id).value) == MembershipKey(db.members[i])
    ensures var db' := db.(members := db.members[i := db.members[i].(role := role)]);
      Valid(db) ==>
        && db.members[i].id == id
        && FindMembershipById(db', id) == Some(db.members[i].(role := role))
        && forall k :: 0 <= k < |db.members| && db.members[k].id != id ==> db'.members[k] == db.members[k]
  {
    var db' := db.(members := db.members[i := db.members[i].(role := role)]);
    if Valid(db) {
      var m := FindMembershipById(db, id).value;
      var j :| 0 <= j < |db.members| && db.members[j] == m;
      assert MembershipKey(db.members[j]) == MembershipKey(db.members[i]);
      assert j == i;
      var f := FindIndex(db'.members, (x: Membership) => x.id == id);
      assert db'.members[i].id == id;
      assert f.Some?;
      assert f.value == i;
    }
  }

  /**
    The membership's own team is never compared with `input.teamId`: an
    ADMIN of one team can change roles in any other team.
   */
  lemma UpdateRoleReachesOtherTeams(db: Db, caller: User, input: RoleInput, m: Membership)
    requires Valid(db) && m in db.members && m.id == input.membershipId && m.teamId != input.teamId
    requires HoldsRole(db, caller, input.teamId, [Admin]) && ParseRole(input.role).Some?
    ensures UpdateRole(db, caller, input).Ok?
  {
  }

  /** The role update as evidently intended: the membership must belong to the checked team. */
  function UpdateRoleChecked(db: Db, caller: User, input: RoleInput): (r: Result<Db>)
    ensures r.Ok? ==> UpdateRole(db, caller, input) == r
    ensures r.Ok? ==>
      && FindMembershipById(db, input.membershipId).Some?
      && FindMembershipById(db, input.membershipId).value.teamId == input.teamId
    ensures r.Ok? && MembershipsUnique(db.members) ==>
      caller.isAdmin || HoldsRole(db, caller, FindMembershipById(db, input.membershipId).value.teamId, [Admin])
  {
    match FindMembershipById(db, input.membershipId)
    case None => Err(NotFound)
    case Some(m) =>
      if m.teamId != input.teamId then Err(NotFound)
      else UpdateRole(db, caller, input)
  }

  // ---------------------------------------------------------------------
  // Sync from the external organisation

  /** One entry of the external membership list: the group's slug and the membership type. */
  datatype ExternalMembership = ExternalMembership(groupSlug: string, membershipType: string)

  /** "MEMBER" becomes USER; every other type becomes ADMIN. */
  function MapRole(membershipType: string): (r: TeamRole)
    ensures r == Member <==> membershipType == "MEMBER"
    ensures r != Subadmin
  {
    if membershipType == "MEMBER" then Member else Admin
  }

  function SlugIs(slug: string): Team -> bool {
    (t: Team) => t.slug == Some(slug)
  }

  /** The first team whose slug is the given one. */
  function FindTeamBySlug(db: Db, slug: string): (r: Option<Team>)
    ensures r.Some? ==> r.value in db.teams && r.value.slug == Some(slug)
    ensures r.None? <==> forall i :: 0 <= i < |db.teams| ==> db.teams[i].slug != Some(slug)
  {
    match FindIndex(db.teams, SlugIs(slug))
    case None => None
    case Some(i) => Some(db.teams[i])
  }

  /** The memberships only change in their roles and by rows appended for `userId`. */
  predicate Grows(db: Db, db': Db, userId: Id) {
    && db' == db.(members := db'.members)
    && |db.members| <= |db'.members|
    && (forall i :: 0 <= i < |db.members| ==>
          && db'.members[i].id == db.members[i].id
          && MembershipKey(db'.members[i]) == MembershipKey(db.members[i])
          && (db.members[i].userId != userId ==> db'.members[i] == db.members[i]))
    && (forall i :: |db.members| <= i < |db'.members| ==> db'.members[i].userId == userId)
  }

  lemma GrowsTransitive(a: Db, b: Db, c: Db, userId: Id)
    requires Grows(a, b, userId) && Grows(b, c, userId)
    ensures Grows(a, c, userId)
  {
  }

  lemma GrowsKeepsMemberships(db: Db, db': Db, userId: Id, teamId: Id)
    requires Grows(db, db', userId) && HasMembership(db, userId, teamId)
    ensures HasMembership(db', userId, teamId)
  {
    var i :| 0 <= i < |db.members| && IsMembership(db.members[i], userId, teamId);
    assert IsMembership(db'.members[i], userId, teamId);
  }

  /**
    One entry of the sync, for the caller `userId`: an unknown slug is
    skipped; an existing membership gets the mapped role if it differs; a
    missing one is created with the mapped role.
   */
  function SyncOne(db: Db, userId: Id, e: ExternalMembership, now: int): (r: Db)
    ensures Grows(db, r, userId)
    ensures FindTeamBySlug(db, e.groupSlug).None? ==> r == db
    ensures FindTeamBySlug(db, e.groupSlug).Some? ==>
      var teamId := FindTeamBySlug(db, e.groupSlug).value.id;
      && HasMembership(r, userId, teamId)
      && FindMembership(r, userId, teamId).value.role == MapRole(e.membershipType)
    ensures Valid(db) && UserExists(db, userId) ==> Valid(r)
  {
    match FindTeamBySlug(db, e.groupSlug)
    case None => db
    case Some(team) =>
      var role := MapRole(e.membershipType);
      if HasMembership(db, userId, team.id) then
        var i := FindMembershipIndex(db, userId, team.id);
        if db.members[i].role != role then
          var db' := db.(members := db.members[i := db.members[i].(role := role)]);
          SetRoleKeepsValid(db, i, role);
          SetRoleFinds(db, i, role, userId, team.id);
          db'
        else db
      else
        var m := Membership(FreshId(IdsOf(db.members, (x: Membership) => x.id)), userId, team.id, role, now);
        var db' := db.(members := db.members + [m]);
        AppendMemberKeepsValid(db, m);
        AppendMemberFinds(db, m);
        db'
  }

  lemma SetRoleFinds(db: Db, i: nat, role: TeamRole, userId: Id, teamId: Id)
    requires HasMembership(db, userId, teamId) && i == FindMembershipIndex(db, userId, teamId)
    ensures FindMembership(db.(members := db.members[i := db.members[i].(role := role)]), userId, teamId)
         == Some(db.members[i].(role := role))
  {
    FindIndexUpdate(db.members, MembershipOf(userId, teamId), i, db.members[i].(role := role));
  }

  lemma AppendMemberFinds(db: Db, m: Membership)
    requires !HasMembership(db, m.userId, m.teamId)
    ensures FindMembership(db.(members := db.members + [m]), m.userId, m.teamId) == Some(m)
  {
    var db' := db.(members := db.members + [m]);
    assert db'.members[|db.members|] == m;
    assert forall k :: 0 <= k < |db.members| ==> db'.members[k] == db.members[k];
    var f := FindIndex(db'.members, MembershipOf(m.userId, m.teamId));
    assert f.Some?;
    assert f.value == |db.members|;
  }

  lemma AppendMemberKeepsValid(db: Db, m: Membership)
    requires forall i :: 0 <= i < |db.members| ==> db.members[i].id != m.id
    requires !HasMembership(db, m.userId, m.teamId)
    requires TeamExists(db, m.teamId)
    ensures Valid(db) && UserExists(db, m.userId) ==> Valid(db.(members := db.members + [m]))
  {
    var db' := db.(members := db.members + [m]);
    if Valid(db) && UserExists(db, m.userId) {
      assert forall k :: 0 <= k < |db.members| ==> db'.members[k] == db.members[k];
      assert forall k :: 0 <= k < |db.members| ==> MembershipKey(db.members[k]) != MembershipKey(m);
      assert MembersReferenceRows(db');
    }
  }

  /** The id of the local team an entry names, if any. */
  function SlugTeam(db: Db, e: ExternalMembership): Option<Id> {
    match FindTeamBySlug(db, e.groupSlug)
    case None => None
    case Some(t) => Some(t.id)
  }

  /** No entry names local team `t`. */
  predicate Unlisted(db: Db, es: seq<ExternalMembership>, t: Id) {
    forall k :: 0 <= k < |es| ==> SlugTeam(db, es[k]) != Some(t)
  }

  /** No entry after `j` names the same local team as entry `j`. */
  predicate LastForTeam(db: Db, es: seq<ExternalMembership>, j: nat)
    requires j < |es|
  {
    forall k :: j < k < |es| ==> SlugTeam(db, es[k]) != SlugTeam(db, es[j])
  }

  /** The entries in order; each sees the writes of the ones before it. */
  function SyncAll(db: Db, userId: Id, es: seq<ExternalMembership>, now: int): (r: Db)
    ensures Grows(db, r, userId)
    ensures forall j :: 0 <= j < |es| && FindTeamBySlug(db, es[j].groupSlug).Some? ==>
      HasMembership(r, userId, FindTeamBySlug(db, es[j].groupSlug).value.id)
    ensures forall j :: 0 <= j < |es| && SlugTeam(db, es[j]).Some? && LastForTeam(db, es, j) ==>
      && FindMembership(r, userId, SlugTeam(db, es[j]).value).Some?
      && FindMembership(r, userId, SlugTeam(db, es[j]).value).value.role == MapRole(es[j].membershipType)
    ensures forall t :: Unlisted(db, es, t) ==> FindMembership(r, userId, t) == FindMembership(db, userId, t)
    ensures Valid(db) && UserExists(db, userId) ==> Valid(r)
    decreases |es|
  {
    if |es| == 0 then db
    else
      var db1 := SyncOne(db, userId, es[0], now);
      var r := SyncAll(db1, userId, es[1..], now);
      GrowsTransitive(db, db1, r, userId);
      SyncAllReaches(db, db1, r, userId, es, now);
      SyncAllKeeps(db, db1, r, userId, es, now);
      SyncAllRoles(db, db1, r, userId, es, now);
      assert Valid(db) && UserExists(db, userId) ==> UserExists(db1, userId);
      r
  }

  /** The last entry for a team decides the caller's role there. */
  lemma SyncAllRoles(db: Db, db1: Db, r: Db, userId: Id, es: seq<ExternalMembership>, now: int)
    requires |es| > 0 && db1 == SyncOne(db, userId, es[0], now)
    requires forall t :: Unlisted(db1, es[1..], t) ==> FindMembership(r, userId, t) == FindMembership(db1, userId, t)
    requires forall j :: 0 <= j < |es| - 1 && SlugTeam(db1, es[1..][j]).Some? && LastForTeam(db1, es[1..], j) ==>
      && FindMembership(r, userId, SlugTeam(db1, es[1..][j]).value).Some?
      && FindMembership(r, userId, SlugTeam(db1, es[1..][j]).value).value.role == MapRole(es[1..][j].membershipType)
    ensures forall j :: 0 <= j < |es| && SlugTeam(db, es[j]).Some? && LastForTeam(db, es, j) ==>
      && FindMembership(r, userId, SlugTeam(db, es[j]).value).Some?
      && FindMembership(r, userId, SlugTeam(db, es[j]).value).value.role == MapRole(es[j].membershipType)
  {
    assert db1.teams == db.teams;
    assert forall e :: SlugTeam(db1, e) == SlugTeam(db, e);
    forall j | 0 <= j < |es| && SlugTeam(db, es[j]).Some? && LastForTeam(db, es, j)
      ensures && FindMembership(r, userId, SlugTeam(db, es[j]).value).Some?
              && FindMembership(r, userId, SlugTeam(db, es[j]).value).value.role == MapRole(es[j].membershipType)
    {
      if j == 0 {
        var t := SlugTeam(db, es[0]).value;
        assert Unlisted(db1, es[1..], t) by {
          forall k | 0 <= k < |es[1..]|
            ensures SlugTeam(db1, es[1..][k]) != Some(t)
          {
            assert es[1..][k] == es[k + 1];
          }
        }
      } else {
        assert es[1..][j - 1] == es[j];
        assert LastForTeam(db1, es[1..], j - 1) by {
          forall k | j - 1 < k < |es[1..]|
            ensures SlugTeam(db1, es[1..][k]) != SlugTeam(db1, es[1..][j - 1])
          {
            assert es[1..][k] == es[k + 1];
          }
        }
      }
    }
  }

  /** Entries that name other teams leave the caller's memberships of those teams as they were. */
  lemma SyncAllKeeps(db: Db, db1: Db, r: Db, userId: Id, es: seq<ExternalMembership>, now: int)
    requires |es| > 0 && db1 == SyncOne(db, userId, es[0], now)
    requires forall t :: Unlisted(db1, es[1..], t) ==> FindMembership(r, userId, t) == FindMembership(db1, userId, t)
    ensures forall t :: Unlisted(db, es, t) ==> FindMembership(r, userId, t) == FindMembership(db, userId, t)
  {
    assert db1.teams == db.teams;
    forall t | Unlisted(db, es, t)
      ensures FindMembership(r, userId, t) == FindMembership(db, userId, t)
    {
      SyncOneKeepsOthers(db, userId, es[0], now, t);
      assert Unlisted(db1, es[1..], t) by {
        forall k | 0 <= k < |es[1..]|
          ensures SlugTeam(db1, es[1..][k]) != Some(t)
        {
          assert es[1..][k] == es[k + 1];
          assert SlugTeam(db1, es[k + 1]) == SlugTeam(db, es[k + 1]);
        }
      }
    }
  }

  /** An entry for another team leaves the caller's membership of team `t` as it was. */
  lemma SyncOneKeepsOthers(db: Db, userId: Id, e: ExternalMembership, now: int, t: Id)
    requires SlugTeam(db, e) != Some(t)
    ensures FindMembership(SyncOne(db, userId, e, now), userId, t) == FindMembership(db, userId, t)
  {
    var p := MembershipOf(userId, t);
    match FindTeamBySlug(db, e.groupSlug)
    case None =>
    case Some(team) =>
      var role := MapRole(e.membershipType);
      if HasMembership(db, userId, team.id) {
        var i := FindMembershipIndex(db, userId, team.id);
        var x := db.members[i].(role := role);
        FindIndexUpdateOther(db.members, p, i, x);
      } else {
        var m := Membership(FreshId(IdsOf(db.members, (x: Membership) => x.id)), userId, team.id, role, now);
        FindIndexAppendOther(db.members, p, m);
        var f := FindIndex(db.members, p);
        if f.Some? {
          assert (db.members + [m])[f.value] == db.members[f.value];
        }
      }
  }

  lemma SyncAllReaches(db: Db, db1: Db, r: Db, userId: Id, es: seq<ExternalMembership>, now: int)
    requires |es| > 0 && db1 == SyncOne(db, userId, es[0], now) && Grows(db1, r, userId)
    requires forall j :: 0 <= j < |es| - 1 && FindTeamBySlug(db1, es[1..][j].groupSlug).Some? ==>
      HasMembership(r, userId, FindTeamBySlug(db1, es[1..][j].groupSlug).value.id)
    ensures forall j :: 0 <= j < |es| && FindTeamBySlug(db, es[j].groupSlug).Some? ==>
      HasMembership(r, userId, FindTeamBySlug(db, es[j].groupSlug).value.id)
  {
    assert db1.teams == db.teams;
    forall j | 0 <= j < |es| && FindTeamBySlug(db, es[j].groupSlug).Some?
      ensures HasMembership(r, userId, FindTeamBySlug(db, es[j].groupSlug).value.id)
    {
      if j == 0 {
        GrowsKeepsMemberships(db1, r, userId, FindTeamBySlug(db, es[0].groupSlug).value.id);
      } else {
        assert es[1..][j - 1] == es[j];
      }
    }
  }

  /**
    The sync procedure: a missing external answer is BAD_REQUEST; otherwise
    every listed group with a local team ends up with a membership of the
    caller, and no membership is ever removed.
   */
  function Sync(db: Db, caller: User, response: Option<seq<ExternalMembership>>, now: int): (r: Result<Db>)
    ensures r.Err? <==> response.None?
    ensures r.Err? ==> r.code == BadRequest
    ensures r.Ok? ==> Grows(db, r.value, caller.id)
    ensures r.Ok? ==> forall j :: 0 <= j < |response.value| && FindTeamBySlug(db, response.value[j].groupSlug).Some? ==>
      HasMembership(r.value, caller.id, FindTeamBySlug(db, response.value[j].groupSlug).value.id)
    ensures r.Ok? ==> forall j :: 0 <= j < |response.value| && SlugTeam(db, response.value[j]).Some? &&
                                   LastForTeam(db, response.value, j) ==>
      && FindMembership(r.value, caller.id, SlugTeam(db, response.value[j]).value).Some?
      && FindMembership(r.value, caller.id, SlugTeam(db, response.value[j]).value).value.role
         == MapRole(response.value[j].membershipType)
    ensures r.Ok? ==> forall t :: Unlisted(db, response.value, t) ==>
      FindMembership(r.value, caller.id, t) == FindMembership(db, caller.id, t)
    ensures r.Ok? && Valid(db) && UserExists(db, caller.id) ==> Valid(r.value)
  {
    match response
    case None => Err(BadRequest)
    case Some(es) => Ok(SyncAll(db, caller.id, es, now))
  }

  /** An empty external list changes nothing. */
  lemma SyncEmptyIsNoop(db: Db, caller: User, now: int)
    ensures Sync(db, caller, Some([]), now) == Ok(db)
  {
  }

  /** Memberships the external list does not mention survive, with their user and team. */
  lemma SyncNeverRemoves(db: Db, caller: User, es: seq<ExternalMembership>, now: int, m: Membership)
    requires m in db.members
    ensures var rows := Sync(db, caller, Some(es), now).value.members;
      exists k :: 0 <= k < |rows| && rows[k].id == m.id && MembershipKey(rows[k]) == MembershipKey(m)
  {
    var r := Sync(db, caller, Some(es), now).value;
    var i :| 0 <= i < |db.members| && db.members[i] == m;
    assert r.members[i].id == m.id && MembershipKey(r.members[i]) == MembershipKey(m);
  }
}

=== FILE: unanswered_dropdown.dfy ===
/**
  The unanswered-events menu in the navigation bar
  (src/components/navigation/unanswered-events-dropdown.tsx).
 */
module UnansweredDropdown {
  import opened Wrappers
  import opened Store
  import Strings

  /** The Norwegian name of each event type. */
  function Label(t: EventType): string {
    match t
    case Match => "Kamp"
    case Training => "Trening"
    case Social => "Sosialt"
    case Other => "Annet"
  }

  /** `getEventTypeLabel`: a stored type name gets its label; any other string is shown as it is. */
  function EventTypeLabel(s: string): (r: string)
    ensures ParseEventType(s).Some? ==> r == Label(ParseEventType(s).value)
    ensures ParseEventType(s).None? ==> r == s
  {
    if s == "MATCH" then "Kamp"
    else if s == "TRAINING" then "Trening"
    else if s == "SOCIAL" then "Sosialt"
    else if s == "OTHER" then "Annet"
    else s
  }

  /** Different types get different labels, and no label is itself a type name. */
  lemma LabelsDistinguishTypes(t: EventType, u: EventType)
    ensures Label(t) == Label(u) <==> t == u
    ensures ParseEventType(Label(t)).None?
  {
  }

  /** Every stored event shows its own type's label. */
  lemma StoredEventsLabelled(e: TeamEvent)
    ensures EventTypeLabel(EventTypeName(e.eventType)) == Label(e.eventType)
  {
  }

  /** `unansweredEvents?.length || 0`: the count is zero until the list has loaded. */
  function Count<T>(data: Option<seq<T>>): (r: nat)
    ensures data.None? ==> r == 0
    ensures data.Some? ==> r == |data.value|
  {
    match data
    case None => 0
    case Some(rows) => |rows|
  }

  /** The badge: absent at zero, "9+" above nine, otherwise the count in decimal. */
  function Badge(count: nat): (r: Option<string>)
    ensures r.None? <==> count == 0
    ensures r.Some? ==> 1 <= |r.value| <= 2
    ensures r.Some? && count <= 9 ==> |r.value| == 1 && Strings.AllDigits(r.value)
    ensures count > 9 ==> r == Some("9+")
  {
    if count > 0 then Some(if count > 9 then "9+" else Strings.NatToString(count)) else None
  }

  /** A badge of one digit reads back as the exact count. */
  lemma BadgeReadsBack(count: nat)
    requires 1 <= count <= 9
    ensures Badge(count).Some? && Strings.AllDigits(Badge(count).value)
    ensures Strings.DigitsValue(Badge(count).value) == count
  {
    Strings.NatToStringRoundTrip(count);
  }

  /** The empty-state message shows exactly when the badge is absent. */
  predicate ShowsEmptyState<T>(data: Option<seq<T>>) {
    data.None? || |data.value| == 0
  }

  lemma EmptyStateIffNoBadge<T>(data: Option<seq<T>>)
    ensures ShowsEmptyState(data) <==> Badge(Count(data)).None?
  {
  }
}

=== FILE: uri_codec.dfy ===
/**
  `decodeURIComponent` and `encodeURIComponent` as section 19.2.6 of
  ECMA-262 defines them (the Decode and Encode abstract operations, with an
  empty reserved set for decoding).

  Decoding turns every `%XX` escape into a byte. A byte below 0x80 is one
  character; a byte from 0x80 on starts a UTF-8 sequence (RFC 3629) of two
  to four escaped bytes. A `%` without two hex digits after it, a bad lead
  or continuation byte, an overlong form, a surrogate or a value beyond
  U+10FFFF throws a URIError, modelled as `None`.

  Characters are Unicode scalar values, so the lone surrogates that make
  `encodeURIComponent` throw cannot occur in the model.
 */
module UriCodec {
  import opened Wrappers

  // ---------------------------------------------------------------------
  // Hex digits

  predicate IsHexDigit(c: char) {
    '0' <= c <= '9' || 'a' <= c <= 'f' || 'A' <= c <= 'F'
  }

  function HexValue(c: char): (r: nat)
    requires IsHexDigit(c)
    ensures r < 16
  {
    if '0' <= c <= '9' then c as int - '0' as int
    else if 'a' <= c <= 'f' then c as int - 'a' as int + 10
    else c as int - 'A' as int + 10
  }

  /** The upper-case hex digit `encodeURIComponent` writes. */
  function HexDigit(d: nat): (c: char)
    requires d < 16
    ensures IsHexDigit(c) && HexValue(c) == d
  {
    if d < 10 then ('0' as int + d) as char else ('A' as int + d - 10) as char
  }

  // ---------------------------------------------------------------------
  // Escapes

  /** The byte of the escape that starts at `k`: `%` and two hex digits. */
  function EscapedByte(s: string, k: nat): (r: Option<nat>)
    ensures r.Some? ==> k + 2 < |s| && s[k] == '%' && r.value < 256
    ensures r.None? <==> !(k + 2 < |s| && s[k] == '%' && IsHexDigit(s[k + 1]) && IsHexDigit(s[k + 2]))
  {
    if k + 2 < |s| && s[k] == '%' && IsHexDigit(s[k + 1]) && IsHexDigit(s[k + 2]) then
      Some(16 * HexValue(s[k + 1]) + HexValue(s[k + 2]))
    else None
  }

  /** The bytes of `count` consecutive escapes from `k` on. */
  function EscapedBytes(s: string, k: nat, count: nat): (r: Option<seq<nat>>)
    requires k <= |s|
    ensures r.Some? ==> |r.value| == count && k + 3 * count <= |s|
    ensures r.Some? ==> forall j :: 0 <= j < count ==> EscapedByte(s, k + 3 * j) == Some(r.value[j])
    decreases count
  {
    if count == 0 then Some([])
    else
      var b :- EscapedByte(s, k);
      var rest :- EscapedBytes(s, k + 3, count - 1);
      Some([b] + rest)
  }

  // ---------------------------------------------------------------------
  // UTF-8 (RFC 3629)

  /** The number of leading one bits of a byte, capped at 5. */
  function LeadOnes(b: nat): (n: nat)
    requires b < 256
    ensures n <= 5
  {
    if b < 0x80 then 0
    else if b < 0xC0 then 1
    else if b < 0xE0 then 2
    else if b < 0xF0 then 3
    else if b < 0xF8 then 4
    else 5
  }

  predicate IsContinuation(b: nat) {
    0x80 <= b < 0xC0
  }

  predicate IsScalar(v: int) {
    0 <= v < 0xD800 || 0xE000 <= v < 0x11_0000
  }

  /**
    The code point of a lead byte `b` with `LeadOnes(b) == |cs| + 1` (two
    to four bytes) and its continuation bytes `cs`, or `None` when the
    sequence is not a valid UTF-8 encoding.
   */
  function Utf8Char(b: nat, cs: seq<nat>): (r: Option<char>)
    requires b < 256 && 2 <= LeadOnes(b) <= 4 && |cs| == LeadOnes(b) - 1
    ensures r.Some? ==> forall j :: 0 <= j < |cs| ==> IsContinuation(cs[j])
  {
    if exists j :: 0 <= j < |cs| && !IsContinuation(cs[j]) then None
    else
      var v := Utf8Value(b, cs);
      if v < MinValue(|cs| + 1) || !IsScalar(v) then None else Some(v as char)
  }

  /** The value the UTF-8 transformation gives, before the validity checks. */
  function Utf8Value(b: nat, cs: seq<nat>): int
    requires b < 256 && 2 <= LeadOnes(b) <= 4 && |cs| == LeadOnes(b) - 1
  {
    var lead: int := b;
    var c: seq<int> := cs;
    if |c| == 1 then (lead - 0xC0) * 64 + (c[0] - 0x80)
    else if |c| == 2 then (lead - 0xE0) * 4096 + (c[0] - 0x80) * 64 + (c[1] - 0x80)
    else (lead - 0xF0) * 262144 + (c[0] - 0x80) * 4096 + (c[1] - 0x80) * 64 + (c[2] - 0x80)
  }

  /** The least code point an `n`-byte sequence may encode (anything lower is overlong). */
  function MinValue(n: nat): int {
    if n == 2 then 0x80 else if n == 3 then 0x800 else 0x1_0000
  }

  /** The UTF-8 bytes of a code point. */
  function Utf8Bytes(c: char): (r: seq<nat>)
    ensures 1 <= |r| <= 4 && forall j :: 0 <= j < |r| ==> r[j] < 256
  {
    var v := c as int;
    if v < 0x80 then [v]
    else if v < 0x800 then [0xC0 + v / 64, 0x80 + v % 64]
    else if v < 0x1_0000 then [0xE0 + v / 4096, 0x80 + (v / 64) % 64, 0x80 + v % 64]
    else [0xF0 + v / 262144, 0x80 + (v / 4096) % 64, 0x80 + (v / 64) % 64, 0x80 + v % 64]
  }

  /** Decoding the UTF-8 bytes of a character that needs more than one byte gives the character back. */
  lemma Utf8RoundTrip(c: char)
    requires c as int >= 0x80
    ensures var bs := Utf8Bytes(c);
      && LeadOnes(bs[0]) == |bs| && 2 <= |bs|
      && Utf8Char(bs[0], bs[1..]) == Some(c)
  {
    var v := c as int;
    var bs := Utf8Bytes(c);
    if v < 0x800 {
      Utf8Value2(v);
    } else if v < 0x1_0000 {
      Utf8Value3(v);
    } else {
      Utf8Value4(v);
    }
    assert Utf8Value(bs[0], bs[1..]) == v;
  }

  lemma Utf8Value2(v: int)
    requires 0x80 <= v < 0x800
    ensures (v / 64) * 64 + v % 64 == v && 2 <= v / 64 < 32
  {
  }

  lemma Utf8Value3(v: int)
    requires 0x800 <= v < 0x1_0000
    ensures ((v / 4096) * 64 + (v / 64) % 64) * 64 + v % 64 == v && v / 4096 < 16
  {
    assert v / 64 == (v / 4096) * 64 + (v / 64) % 64;
  }

  lemma Utf8Value4(v: int)
    requires 0x1_0000 <= v < 0x11_0000
    ensures (((v / 262144) * 64 + (v / 4096) % 64) * 64 + (v / 64) % 64) * 64 + v % 64 == v && v / 262144 < 8
  {
    assert v / 4096 == (v / 262144) * 64 + (v / 4096) % 64;
    assert v / 64 == (v / 4096) * 64 + (v / 64) % 64;
  }

  // ---------------------------------------------------------------------
  // decodeURIComponent

  /**
    The first character of `s` and how many input characters it used: a
    plain character, one escaped ASCII byte, or an escaped UTF-8 sequence.
   */
  function DecodeOne(s: string): (r: Option<(char, nat)>)
    requires |s| > 0
    ensures r.Some? ==> 1 <= r.value.1 <= |s|
    ensures s[0] != '%' ==> r == Some((s[0], 1))
    ensures s[0] == '%' && r.Some? ==> r.value.1 >= 3
  {
    if s[0] != '%' then Some((s[0], 1))
    else
      var b :- EscapedByte(s, 0);
      if b < 0x80 then Some((b as char, 3))
      else
        var n := LeadOnes(b);
        if n == 1 || n > 4 || 3 * n > |s| then None
        else
          var cs :- EscapedBytes(s, 3, n - 1);
          var c :- Utf8Char(b, cs);
          Some((c, 3 * n))
  }

  /** `decodeURIComponent`; `None` is the URIError it throws. */
  function DecodeUri(s: string): (r: Option<string>)
    ensures '%' !in s ==> r == Some(s)
    ensures r.Some? ==> |r.value| <= |s|
    decreases |s|
  {
    if |s| == 0 then Some([])
    else
      var one :- DecodeOne(s);
      var rest :- DecodeUri(s[one.1..]);
      assert s[0] == '%' ==> one.1 >= 3;
      assert '%' !in s ==> s[1..] == s[one.1..] && '%' !in s[1..] && s == [s[0]] + s[1..];
      Some([one.0] + rest)
  }

  // ---------------------------------------------------------------------
  // encodeURIComponent

  /** The characters `encodeURIComponent` leaves as they are. */
  predicate Unreserved(c: char) {
    'A' <= c <= 'Z' || 'a' <= c <= 'z' || '0' <= c <= '9'
    || c == '-' || c == '_' || c == '.' || c == '!' || c == '~' || c == '*' || c == '\'' || c == '(' || c == ')'
  }

  /** `%XX` for every byte, with upper-case hex digits. */
  function EscapeBytes(bs: seq<nat>): (r: string)
    requires forall j :: 0 <= j < |bs| ==> bs[j] < 256
    ensures |r| == 3 * |bs|
    ensures forall j :: 0 <= j < |bs| ==> EscapedByte(r, 3 * j) == Some(bs[j])
  {
    if |bs| == 0 then []
    else
      var head := ['%', HexDigit(bs[0] / 16), HexDigit(bs[0] % 16)];
      var rest := EscapeBytes(bs[1..]);
      EscapesShift(head, rest, bs);
      head + rest
  }

  lemma EscapesShift(head: string, rest: string, bs: seq<nat>)
    requires |bs| > 0 && forall j :: 0 <= j < |bs| ==> bs[j] < 256
    requires head == ['%', HexDigit(bs[0] / 16), HexDigit(bs[0] % 16)]
    requires |rest| == 3 * (|bs| - 1) && forall j :: 0 <= j < |bs| - 1 ==> EscapedByte(rest, 3 * j) == Some(bs[1..][j])
    ensures forall j :: 0 <= j < |bs| ==> EscapedByte(head + rest, 3 * j) == Some(bs[j])
  {
    assert EscapedByte(head + rest, 0) == Some(bs[0]);
    forall j | 1 <= j < |bs|
      ensures EscapedByte(head + rest, 3 * j) == Some(bs[j])
    {
      EscapedByteShift(head, rest, 3 * (j - 1));
      assert bs[1..][j - 1] == bs[j];
    }
  }

  /** An escape read after a three-character prefix is the escape read in what follows it. */
  lemma EscapedByteShift(a: string, b: string, k: nat)
    requires |a| == 3
    ensures EscapedByte(a + b, k + 3) == EscapedByte(b, k)
  {
    if k + 2 < |b| {
      assert (a + b)[k + 3] == b[k] && (a + b)[k + 4] == b[k + 1] && (a + b)[k + 5] == b[k + 2];
    }
  }

  /** An escape that lies inside `a` reads the same whatever follows `a`. */
  lemma EscapedBytePrefix(a: string, t: string, k: nat)
    requires k + 2 < |a|
    ensures EscapedByte(a + t, k) == EscapedByte(a, k)
  {
    assert (a + t)[k] == a[k] && (a + t)[k + 1] == a[k + 1] && (a + t)[k + 2] == a[k + 2];
  }

  function EncodeChar(c: char): (r: string)
    ensures 1 <= |r|
    ensures Unreserved(c) <==> r == [c]
  {
    if Unreserved(c) then [c] else EscapeBytes(Utf8Bytes(c))
  }

  /** `encodeURIComponent`. */
  function EncodeUri(s: string): (r: string)
    ensures |r| >= |s|
    ensures (forall i :: 0 <= i < |s| ==> Unreserved(s[i])) ==> r == s
    decreases |s|
  {
    if |s| == 0 then [] else EncodeChar(s[0]) + EncodeUri(s[1..])
  }

  /** The escapes of `bs`, followed by anything, read back as `bs`. */
  lemma EscapedBytesRead(bs: seq<nat>, t: string, k: nat)
    requires forall j :: 0 <= j < |bs| ==> bs[j] < 256
    requires k <= |bs|
    ensures EscapedBytes(EscapeBytes(bs) + t, 3 * k, |bs| - k) == Some(bs[k..])
    decreases |bs| - k
  {
    var s := EscapeBytes(bs) + t;
    if k < |bs| {
      EscapedBytePrefix(EscapeBytes(bs), t, 3 * k);
      assert EscapedByte(s, 3 * k) == Some(bs[k]);
      EscapedBytesRead(bs, t, k + 1);
      assert EscapedBytes(s, 3 * k + 3, |bs| - k - 1) == Some(bs[k + 1..]);
      assert bs[k..] == [bs[k]] + bs[k + 1..];
    } else {
      assert bs[k..] == [];
    }
  }

  /** Decoding the encoding of one character, followed by anything, reads that character back. */
  lemma DecodeOneEncoded(c: char, t: string)
    ensures DecodeOne(EncodeChar(c) + t) == Some((c, |EncodeChar(c)|))
  {
    var e := EncodeChar(c);
    var s := e + t;
    if !Unreserved(c) {
      var bs := Utf8Bytes(c);
      EscapedBytePrefix(e, t, 0);
      if c as int >= 0x80 {
        Utf8RoundTrip(c);
        EscapedBytesRead(bs, t, 1);
        assert bs[1..] == bs[1..];
      }
    }
  }

  /** `decodeURIComponent(encodeURIComponent(s)) === s`. */
  lemma {:induction false} DecodeEncode(s: string)
    ensures DecodeUri(EncodeUri(s)) == Some(s)
    decreases |s|
  {
    if |s| > 0 {
      var e := EncodeChar(s[0]);
      var rest := EncodeUri(s[1..]);
      DecodeOneEncoded(s[0], rest);
      assert (e + rest)[|e|..] == rest;
      DecodeEncode(s[1..]);
      assert s == [s[0]] + s[1..];
    }
  }
}

=== FILE: wrappers.dfy ===
/**
  Failure-compatible result types shared by every module of the model.

  The server's controllers report failures as tRPC errors carrying a code;
  anything a service throws as a plain `Error` (or the database refuses)
  reaches the client as an internal server error.
 */
module Wrappers {

  datatype Option<+T> = None | Some(value: T) {
    predicate IsFailure() {
      None?
    }

    function PropagateFailure<U>(): Option<U>
      requires None?
    {
      None
    }

    function Extract(): T
      requires Some?
    {
      value
    }

    function GetOr(default: T): T {
      match this
      case Some(v) => v
      case None => default
    }
  }

  /** The tRPC error codes the controllers throw. */
  datatype ErrorCode =
    | NotFound
    | Forbidden
    | Conflict
    | BadRequest
      /** A plain `Error` thrown by a service, or a write the database refuses. */
    | InternalError

  datatype Result<+R> = Ok(value: R) | Err(code: ErrorCode) {
    predicate IsFailure() {
      Err?
    }

    function PropagateFailure<U>(): Result<U>
      requires Err?
    {
      Err(code)
    }

    function Extract(): R
      requires Ok?
    {
      value
    }
  }

  /** A check that either passes or fails with an error code. */
  datatype Outcome = Pass | Fail(code: ErrorCode)
}
